=== FILE: README.md ===
# Disastle rules engine in Dafny

A model of the rules engine of Disastle, a tile-placement castle game in
which players build castles from rooms whose four sides carry connectors,
and disaster cards damage every castle according to how few links of each
connector kind it has. The model covers:

- the connector algebra and room rotation (`disastle/rooms.py`), module
  `Rooms` in `rooms.dfy`;
- the sparse castle grid, a board of 101 × 101 cells addressed as
  [-50, 50]² (`disastle/castle.py`), module `SparseCastle` in `castle.dfy`;
- the dense castle grid of the web back end, one row
  `[placed, x, y, rotation]` per room id (`function/model.py`, class
  `Castle`), module `DenseCastle` in `dense_castle.dfy`;
- the disaster damage formulas (`disastle/disasters.py`), module
  `Disasters` in `disasters.dfy`;
- the disaster forecast: exact factorial-ratio probabilities and the
  recursive "exploding" distribution (`disastle_forecast.py`), modules
  `Forecast` in `forecast.dfy` and `Distribution` in `distribution.dfy`;
- the turn and disaster bookkeeping of the web back end
  (`function/manager.py`), module `Manager` in `manager.dfy`.

Two support modules hold shared vocabulary: `Outcomes` (`outcomes.dfy`)
names the Python exceptions the code raises and the `Result`/`Option`
types, and `Text` (`text.dfy`) models the parts of Python's `int()`,
`str.split` and `str.strip` the code relies on.

Modelling conventions:

- Every Python exception becomes `Err(kind)`, where the kind is
  `ValueError`, `KeyError`, `TypeError` and so on. An operation that
  raises leaves no state behind. This matches the web back end, where an
  uncaught exception aborts the request before the game is written back.
- The composite dense-castle operations (`discard`, `move`, `swap`,
  `rotate`) catch `RuntimeError` and restore a snapshot. They therefore
  return an `Outcome`: the castle afterwards together with the escaping
  error, if any. This lets the rollback discipline be stated as a
  contract.
- Rooms, castles and games are immutable values. Every mutation is a pure
  function returning the new value. Rooms are compared by value, not by
  object identity.
- Probabilities are exact `real`s, and factorials are `nat` functions.
  A Python dict of weights is an association list in insertion order.
- The room catalogue, the disaster table, and the disaster and
  catastrophe card lists are parameters, not loaded from files.
- The redeal branch of `restock_shop` shuffles the deck. Its outcome is
  supplied by the caller as a function parameter (`Manager.Redeal`).

Notes on the source as it stands:

- `disastle/castle.py:1` imports `isGolden` from `rooms`, but
  `disastle/rooms.py` defines `is_golden`, so that import fails. The model
  treats the module as importable; `isGolden` is not used in the parts
  modelled.
- `Castle.grid_pos` (`disastle/castle.py:220-224`) returns a `ValueError`
  object instead of raising it. The caller then unpacks that object and
  fails with `TypeError`, which is the error `SparseCastle.GridPos` and
  its callers report.
- The two grids use opposite "up" directions. The sparse grid's up
  neighbour is (x, y + 1) (`disastle/castle.py:63`); the dense grid's
  first neighbour slot is (x, y - 1) (`function/model.py:60`). Each
  module keeps its own convention.
- `links` (`disastle/castle.py:157-214`) reads the sides of every
  connected cell and so fails on an empty one. It is modelled only for
  castles whose connected cells are all occupied (`SparseCastle.Closed`).
- The dense castle's neighbour list at `function/model.py:60` is
  `[(x, y - 1), (x + 1, y), (x, y + 1), (x - 1), y]`. Its fourth element
  is a number, not a pair, so the left neighbour is never found; the
  same list recurs in `is_outer_room` and `num_connections`. The scans
  are written once with the number of neighbour slots as a parameter: 3
  is the code as written, 4 the evident intent. The rest of the model
  uses 4 (see Findings).
- `swap` (`function/model.py:121-142`) copies the rows before it starts
  and puts the copy back when a removal or a placement raises
  `RuntimeError`. The `place` calls at `function/model.py:136-137` pass
  one argument too many, so they raise `TypeError` instead. That error
  is not caught, and both rooms are left removed (see Findings).
- A deck card stored as an integer makes `card[0]` raise `TypeError` when
  it is dealt (`function/manager.py:178`). `Manager.Route` reports this.
- `resolve_disaster` moves the last pending disaster
  (`current_disasters.pop()`), while `player_damage` charges for the
  first (`current_disasters[0]`). The model keeps both as written.

## Model

| member | source | states |
|---|---|---|
| Rooms.FromCode | disastle/rooms.py:7-15 | A connector is built from exactly the eight codes `nacdmDCM`, and any other character raises `ValueError`; the code of the result is the character read. |
| Rooms.CodeRoundTrip | disastle/rooms.py:7-15 | Reading a connector's own code gives the connector back. |
| Rooms.ToBase | disastle/rooms.py:42-47 | Each golden kind maps to its plain kind, every other kind is fixed, and the result is never golden. |
| Rooms.ToBaseIdempotent | disastle/rooms.py:42-47 | Reducing a connector to its base twice is the same as reducing it once. |
| Rooms.ValidConnectionCharacterised | disastle/rooms.py:26-31 | Two sides are a valid connection iff both are blank or neither is, and the relation is symmetric. |
| Rooms.MatchingCharacterised | disastle/rooms.py:50-55 | Blank matches only blank; wild matches every non-blank side; two other sides match iff their base kinds are equal; matching is symmetric and reflexive. |
| Rooms.LinkConnection | disastle/rooms.py:34-39 | The link of two sides is blank exactly when they do not match, wild exactly when both are wild, otherwise the base kind of one side; it is never golden. |
| Rooms.LinkSymmetric | disastle/rooms.py:34-39 | The link of two sides does not depend on their order. |
| Rooms.DecodeSlots | disastle/rooms.py:68-73 | The four side codes are read in order; a short string raises `IndexError` and a bad code `ValueError`, whichever comes first. |
| Rooms.MakeRoom | disastle/rooms.py:64-74 | A room is made iff the first four characters are all connector codes; they become up, right, down and left in that order; id and name are kept. |
| Rooms.ThroneRoom | disastle/rooms.py:59-61 | The throne room is the room made from id 1 and `"aaaa"`: wild on all four sides. |
| Rooms.RotateRight | disastle/rooms.py:91-94 | Turning right moves each side one step clockwise and keeps id and name. |
| Rooms.RotateLeft | disastle/rooms.py:96-99 | Turning left moves each side one step anticlockwise and keeps id and name. |
| Rooms.RotationsInverse | disastle/rooms.py:91-99 | Left and right turns undo each other, and four right turns are the identity. |
| SparseCastle.GridPos | disastle/castle.py:220-224 | In-bounds coordinates map to array indices in [0, 100] offset by 50; out-of-bounds ones fail with `TypeError` once the returned error object is unpacked. |
| SparseCastle.NeighbourOpposite | disastle/castle.py:63-66 | Stepping to a neighbour and back in the opposite direction returns to the start, and no neighbour is the cell itself. |
| SparseCastle.Get | disastle/castle.py:16-18 | Reading a cell succeeds iff it is on the board, and gives the room there or none. |
| SparseCastle.PlaceValidSpec | disastle/castle.py:53-72 | The first room fits at (0, 0); a cell with a neighbour off the board never fits; otherwise a room fits iff every occupied neighbour's facing side is a valid connection with the room's side. |
| SparseCastle.Place | disastle/castle.py:24-29 | Placing raises `ValueError` unless the placement is valid; on success it writes the cell, records the room's position and changes nothing else. |
| SparseCastle.Remove | disastle/castle.py:31-37 | Removing raises on an off-board or empty cell, and succeeds on every on-board cell holding a recorded room; on success it clears the cell and forgets the room's position. |
| SparseCastle.Init | disastle/castle.py:5-14 | A new castle holds exactly the throne room, at (0, 0). |
| SparseCastle.InitWf | disastle/castle.py:5-14 | The new castle satisfies the grid invariant: grid and room positions agree, rooms lie inside the board's rim, and every pair of neighbours meets in a valid connection. |
| SparseCastle.PlacePreservesWf | disastle/castle.py:24-29 | Placing a new room in an empty cell keeps the grid invariant. |
| SparseCastle.PlaceJoined | disastle/castle.py:53-72 | A room that fits its neighbours keeps every neighbouring pair validly connected. |
| SparseCastle.RemovePreservesWf | disastle/castle.py:31-37 | Removing a room keeps the grid invariant. |
| SparseCastle.PlaceThenRemove | disastle/castle.py:24-37 | Placing a new room in an empty cell and removing it again gives back the original castle. |
| SparseCastle.PlaceValidOnBoard | disastle/castle.py:53-62 | Every cell `place_valid` accepts is on the board. |
| SparseCastle.PlaceAcceptsOccupiedCell | disastle/castle.py:24-29 | `place` does not require the target cell to be empty: a second room is accepted on the occupied throne cell. |
| SparseCastle.PlaceAcceptsIsolatedCell | disastle/castle.py:53-72 | `place_valid` does not require a neighbour: a cell far from every room is accepted. |
| SparseCastle.MoveValid | disastle/castle.py:46-51 | A move test raises on an off-board or empty source cell. |
| SparseCastle.MoveValidRestores | disastle/castle.py:46-51 | On a well-formed castle a move test succeeds, answers whether the room fits at the target once lifted, and leaves grid and rooms unchanged. |
| SparseCastle.PlaceValidCell | disastle/castle.py:39-44 | Testing the contents of a cell as a room is `place_valid` when the cell holds one, and raises `AttributeError` when it is empty. |
| SparseCastle.SwapValid | disastle/castle.py:39-44 | Swapping a cell with itself is never valid; two occupied cells swap iff each room fits at the other's cell. |
| SparseCastle.LiveCells | disastle/castle.py:101-108 | The connected cells of a room are exactly the on-board neighbours on its non-blank sides. |
| SparseCastle.Connected | disastle/castle.py:96-116 | `connected` raises on an off-board or empty cell; otherwise its keys are exactly the room's live cells and each maps to that cell's contents. |
| SparseCastle.IsOuterRoom | disastle/castle.py:93-94 | A room is outer iff exactly one of its connected cells is empty; errors are those of `connected`. |
| SparseCastle.FreePos | disastle/castle.py:118-126 | The free positions are exactly the empty connected cells of the placed rooms. |
| SparseCastle.WfFreePos | disastle/castle.py:118-126 | On a well-formed castle `free_pos` never raises. |
| SparseCastle.LinksAsWritten | disastle/castle.py:157-214 | The link tallies of the code as written are non-negative. |
| SparseCastle.CastleLinks | disastle/castle.py:157-214 | The intended link tallies count each linked pair of neighbours once per kind, with wild links as the reduction. |
| SparseCastle.TallySymmetric | disastle/castle.py:157-214 | A link seen from one room is seen, of the same kind, from its neighbour. |
| SparseCastle.EdgesCountedTwice | disastle/castle.py:157-214 | Every link is tallied from both its rooms, so halving the count gives the number of links. |
| SparseCastle.LinksAsWrittenMissesEdge | disastle/castle.py:176-211 | A castle of two rooms joined by one diamond link: the code as written tallies no diamond link, the intended tally one. |
| DenseCastle.RowIndex | function/model.py:57 | Indexing the room rows follows numpy: negative ids count from the end, ids outside the table raise `IndexError`. |
| DenseCastle.Init | function/model.py:20-34 | A new castle has one row per catalogue room plus row 0; only the throne row is placed, at (0, 0) with no rotation; an unknown throne id raises `KeyError`. |
| DenseCastle.InitWf | function/model.py:20-34 | A new castle satisfies the row invariant. |
| DenseCastle.Rotated | function/model.py:39-50 | Rotation must be 0, 90, 180 or 270 (else `RuntimeError`) and the room known (else `KeyError`); a rotation by k quarter turns moves side i to slot i + k mod 4. |
| DenseCastle.SlotOfOpposite | function/model.py:60-71 | If q is p's neighbour in slot i, then p is q's neighbour in the opposite slot, and no cell neighbours itself. |
| DenseCastle.PlaceScanSpec | function/model.py:62-88 | The neighbour scan of `place` fails iff some placed neighbour meets a blank side against a non-blank one, and otherwise reports whether some neighbour is linked. |
| DenseCastle.PlaceWith | function/model.py:52-89 | `place` raises if the room is already placed; on success it writes exactly the row `[1, x, y, rotation]` and nothing else. |
| DenseCastle.PlaceCharacterised | function/model.py:52-89 | `place` succeeds iff the room is unplaced, the rotation valid, no placed neighbour is mismatched and at least one is linked; each failure names its exception. |
| DenseCastle.PlacePreservesWf | function/model.py:52-89 | A successful placement keeps the row invariant. |
| DenseCastle.Remove | function/model.py:91-99 | `remove` raises when the room is not placed; otherwise it zeroes that row and keeps every other. |
| DenseCastle.RemovePreservesWf | function/model.py:91-99 | Removing keeps the row invariant. |
| DenseCastle.PlaceThenRemove | function/model.py:52-99 | Placing a cleared room and removing it again gives back the original castle. |
| DenseCastle.LinkCountSpec | function/model.py:144-169 | The outer-room scan counts exactly the placed neighbours linked to the room. |
| DenseCastle.IsOuterRoomWith | function/model.py:144-169 | `is_outer_room` raises `RuntimeError` for an unplaced room and `IndexError` for an id outside the table. |
| DenseCastle.IsOuterRoomCharacterised | function/model.py:144-169 | With the four-slot scan, a placed room is outer iff it has exactly one linked neighbour. |
| DenseCastle.Guarded | function/model.py:106-114 | Catching `RuntimeError` restores the snapshot; any other outcome passes through unchanged. |
| DenseCastle.DiscardStepsClears | function/model.py:101-114 | A discard that completes has removed exactly the rooms listed and kept every other row. |
| DenseCastle.Discard | function/model.py:101-114 | With the four-slot scan, `discard` succeeds iff each listed room, in turn, is outer in the castle left by the earlier removals; it is all or nothing: a `RuntimeError` leaves the castle as it was, success clears exactly the listed rooms, and a first room that is not outer fails at once. |
| DenseCastle.DiscardStepsSucceeds | function/model.py:107-111 | The removal loop completes iff each listed room is outer when its turn comes. |
| DenseCastle.OuterInTurnShift | function/model.py:107-111 | After the first removal, the check made at each later turn is the check the rest of the list meets in the smaller castle. |
| DenseCastle.DiscardPreservesWf | function/model.py:101-114 | Discarding keeps the row invariant, whatever the outcome. |
| DenseCastle.SwapAsWrittenNeverSwaps | function/model.py:135-137 | As written, once both rooms are removed the swap always fails with `TypeError`, leaving both rooms unplaced. |
| DenseCastle.Swap | function/model.py:121-142 | With the four-slot scan, the intended swap succeeds exactly when both rooms can be removed, `b` can be placed in `a`'s cell with `a`'s rotation, and then `a` in `b`'s cell with `b`'s rotation; it then leaves each room at the other's former position, and otherwise fails with `RuntimeError` and restores the castle. |
| DenseCastle.SwapPreservesWf | function/model.py:121-142 | Swapping keeps the row invariant, whatever the outcome. |
| DenseCastle.RotateWith | function/model.py:171-185 | With the four-slot scan, `rotate` succeeds exactly when the room is placed and can be re-placed, with the new rotation, at the coordinates read (its own cell from the backup, (0, 0) as written); it then re-places the room, and otherwise fails with `RuntimeError` and restores the castle. |
| DenseCastle.RotateAsWrittenMovesRoom | function/model.py:179 | As written, a successful rotation re-places the room at (0, 0), because the coordinates are read after `remove` has zeroed them. |
| DenseCastle.RotatePreservesWf | function/model.py:171-185 | Rotating keeps the row invariant, whatever the outcome. |
| DenseCastle.Move | function/model.py:187-205 | With the four-slot scan, `move` succeeds exactly when the room is placed, is outer, and can be placed at the new position after its removal; it then places the room there with the new rotation and keeps every other row, and otherwise fails with `RuntimeError` and restores the castle. |
| DenseCastle.MovePreservesWf | function/model.py:187-205 | Moving keeps the row invariant, whatever the outcome. |
| DenseCastle.PlaceAsWrittenMissesLeftNeighbour | function/model.py:60 | As written, a room whose only neighbour is on its left is refused; the intended scan accepts it. |
| DenseCastle.LinkKindSymmetric | function/model.py:228-235 | The kind of link between two sides does not depend on their order, and a blank side never links. |
| DenseCastle.LinkKindAgreesWithRooms | function/model.py:228-235 | The dense grid's link kinds agree with the sparse grid's `link_connection` on every pair of connector characters. |
| DenseCastle.InnerTallySpec | function/model.py:211-236 | The inner loop of `num_connections` adds, for each kind, the number of neighbours linked to the room by that kind. |
| DenseCastle.OuterTallySpec | function/model.py:207-236 | The outer loop of `num_connections` tallies, for each kind, every ordered pair of linked neighbours. |
| DenseCastle.EdgesCountedTwice | function/model.py:207-239 | Every link appears as two ordered pairs, so halving the tally counts each link once. |
| DenseCastle.NumConnectionsWith | function/model.py:207-239 | `num_connections` fails iff its scan fails, and each count it returns is half the scan's ordered-pair tally, rounded down. |
| DenseCastle.NumConnectionsWithSucceeds | function/model.py:207-239 | On a well-formed castle `num_connections` never raises, with three neighbour slots or four. |
| DenseCastle.NumConnectionsCountsLinks | function/model.py:207-239 | On a well-formed castle `num_connections` succeeds and gives, per kind, the number of unordered linked pairs. |
| DenseCastle.ToJson | function/model.py:17-18 | The stored form is the list of rows, each as `[placed, x, y, rotation]`. |
| DenseCastle.FromJson | function/model.py:12-15 | Reading the stored form needs a valid throne id and rows of four numbers; the rows read back are the ones stored. |
| DenseCastle.JsonRoundTrip | function/model.py:12-18 | Writing a castle out and reading it back gives the same castle. |
| Disasters.TranslateDamage | disastle/disasters.py:90-101 | A damage string is accepted iff it is a decimal integer, `x`, `1+x` or `2x`; an integer reads as that constant, the others as their formula; anything else raises `ValueError`. |
| Disasters.TranslateShow | disastle/disasters.py:90-101 | Writing a formula out and reading it back gives the formula. |
| Disasters.MakeCard | disastle/disasters.py:21-28 | A card is made iff all three damage strings translate, and it carries the three formulas. |
| Disasters.ConnectorDamage | disastle/disasters.py:60-67 | Per-connector damage is the formula's value times the multiplier less the link, never below zero. |
| Disasters.CardDamage | disastle/disasters.py:42-58 | Each connector's damage is that connector's formula at x against its own link count, and the total is their sum less the reduction, never below zero. |
| Disasters.DamageMonotone | disastle/disasters.py:42-67 | More links, or a larger reduction, never raise any part of the damage. |
| Disasters.TwoXExample | disastle/disasters.py:99-100 | The formula `2x` at x = 3 against 4 links does 2 damage. |
| Disasters.CatastropheDamagesLikeDisaster | disastle/disasters.py:70-87 | A catastrophe is made from the same strings exactly when a disaster is, and does the same damage. |
| Text.ParseInt | disastle/disasters.py:91-93 | `int` accepts exactly an optional `+` or `-` sign followed by decimal digits, and reads their value, negated after `-`; anything else raises `ValueError`. |
| Text.ParseShowInt | disastle/disasters.py:91-93 | Every integer written in decimal reads back as itself. |
| Text.Split | function/manager.py:97 | Splitting yields at least one piece, no piece holds the separator, and joining the pieces with it gives back the string. |
| Text.Strip | function/manager.py:99 | Stripping keeps a contiguous middle piece surrounded only by the stripped character, with that character at neither of its ends, and leaves a string without it alone. |
| Text.StripLeft | function/manager.py:99 | The leading part removed holds only the stripped character, and what is left is a suffix not starting with it. |
| Text.StripRight | function/manager.py:99 | The trailing part removed holds only the stripped character, and what is left is a prefix not ending with it. |
| Text.StripLeftDrops | function/manager.py:99 | Leading copies of the character before a piece not starting with it are exactly what is removed. |
| Text.StripRightDrops | function/manager.py:99 | Trailing copies of the character after a piece not ending with it are exactly what is removed. |
| Text.StripCharacterised | function/manager.py:99 | Stripping a piece that neither starts nor ends with the character, surrounded by copies of it, gives that piece back. |
| Forecast.NewForecast | disastle_forecast.py:10-14 | A new forecast has the given pool sizes and nothing drawn. |
| Forecast.DrawDisaster | disastle_forecast.py:16-17 | Drawing appends the names in argument order and changes nothing else. |
| Forecast.DrawLowersLeft | disastle_forecast.py:16-23 | Each name drawn lowers the disasters left by one and leaves the catastrophes left alone. |
| Forecast.Candidates | disastle_forecast.py:26-35 | The candidates are the catalogue cards whose names were not drawn, all of them when some are left, and none when no card of the kind is left. |
| Forecast.CandidatesConcat | disastle_forecast.py:28-30 | The candidates of a catalogue in two parts are those of the first part followed by those of the second. |
| Forecast.CandidatesStep | disastle_forecast.py:28-30 | Walking the catalogue, each undrawn card is appended to the candidates in catalogue order, and a drawn one is skipped. |
| Forecast.CandidatesCount | disastle_forecast.py:28-30 | There are exactly as many candidates as catalogue positions holding an undrawn card. |
| Forecast.Share | disastle_forecast.py:37-48 | One card's chance times the candidates times the cards left of both kinds is the square of the cards left of its kind; 0 without candidates. |
| Forecast.DisastersProb | disastle_forecast.py:25-49 | `disasters_prob` raises `ZeroDivisionError` iff some kind has candidates while no card of either kind is left; otherwise it gives the candidates and each kind's share. |
| Forecast.Factorial | disastle_forecast.py:168-176 | `math.factorial` raises `ValueError` on a negative number and is at least 1 otherwise. |
| Forecast.NdpAsWritten | disastle_forecast.py:179-182 | `num_different_positions` as written is 1 when objects is 0 or slots at most objects, and raises only for a negative slot count. |
| Forecast.Ndp | disastle_forecast.py:179-182 | The intended count is 1 in the same cases and raises only for a negative number of objects. |
| Forecast.NdpIsBinomial | disastle_forecast.py:179-182 | The intended count is the number of ways to choose `objects` of `slots` positions, C(slots, objects). |
| Forecast.NdpAsWrittenDiffers | disastle_forecast.py:182 | As written and as intended agree for one and two objects and part at three: 3 of 5 slots gives 20 against 10. |
| Forecast.SelectProbWith | disastle_forecast.py:157-176 | `select_prob` raises `ValueError` when count > selects, objects < subjects, objects < selects or selects < 0, and otherwise exactly when a factorial argument is negative; it is 0 when selects = 0 or selects - count > objects - subjects. |
| Forecast.SelectProb | disastle_forecast.py:157-176 | As written (positions counted by `num_different_positions` as written), `select_prob` raises exactly in the cases above, and a negative count is not among them. |
| Forecast.SelectProbIntended | disastle_forecast.py:157-176 | With the corrected count of positions, `select_prob` also raises for a negative count. |
| Forecast.SelectProbHypergeometric | disastle_forecast.py:157-176 | With the counts in range and the corrected count of positions, `select_prob` is the hypergeometric probability C(S, c) · C(O - S, s - c) / C(O, s). |
| Forecast.SelectProbAgreesBelowThree | disastle_forecast.py:175 | Up to two hits, `select_prob` as written and as intended agree on every input. |
| Forecast.SelectProbHypergeometricBelowThree | disastle_forecast.py:157-176 | Up to two hits, `select_prob` as written is the hypergeometric probability. |
| Forecast.SelectProbAsWrittenScaled | disastle_forecast.py:175 | With 0 < count < selects and the counts in range, `select_prob` as written is (count - 1)! times the hypergeometric probability. |
| Forecast.SelectProbAsWrittenDoubles | disastle_forecast.py:175 | With three hits, `select_prob` as written is twice the positive hypergeometric probability, which the corrected one gives. |
| Forecast.SelectProbNegativeCount | disastle_forecast.py:157-176 | As written `select_prob(-1, 1, 0, 5)` returns -2; the corrected count of positions makes it raise `ValueError`. |
| Forecast.NdpAsWrittenRatio | disastle_forecast.py:179-182 | For 0 < objects < slots, the count as written is the intended count times (objects - 1)!. |
| Forecast.HypergeometricPositive | disastle_forecast.py:157-176 | Every hit count the numbers allow has a positive hypergeometric probability. |
| Forecast.SelectProbSingle | disastle_forecast.py:168-176 | With one marked card, the chance that it is among the s drawn of O is s / O. |
| Forecast.SelectProbExample | disastle_forecast.py:168-176 | `select_prob(1, 5, 1, 20)` is 5/20. |
| Distribution.ToDistribution | disastle_forecast.py:201-206 | Normalising keeps the keys and divides each weight by the total; a non-empty population of total 0 raises `ZeroDivisionError`. |
| Distribution.ToDistributionMass | disastle_forecast.py:201-206 | A normalised non-empty population has total weight 1. |
| Distribution.AddToMass | disastle_forecast.py:151-153 | Adding to one key of a `defaultdict` adds to the total weight. |
| Distribution.AddToLookup | disastle_forecast.py:151-153 | Adding to one key changes that key's weight and no other. |
| Distribution.AccumulateMass | disastle_forecast.py:148-153 | Adding a shifted, weighted child distribution adds the weight times the child's total. |
| Distribution.AccumulateLookup | disastle_forecast.py:148-153 | Adding a shifted, weighted child adds to key j the weight times the child's weight at j minus the shift, and nothing else. |
| Distribution.ExpectedValueOneKey | disastle_forecast.py:197-198 | When every key is k, the expected value is k times the total weight. |
| Distribution.ExpectedValueBounds | disastle_forecast.py:197-198 | A distribution over counts in [lo, hi] with non-negative chances has its expected value in [lo, hi]. |
| Distribution.OneTermsDistribution | disastle_forecast.py:132-142 | The terms of the single-explosion branch add up to 1. |
| Distribution.OneTermsMass | disastle_forecast.py:132-142 | The terms from e on add up to the chance that the first e cards are all marked. |
| Distribution.PositionCounts | disastle_forecast.py:143-145 | The position counter has one positive weight, `num_different_positions` as written, for each of 0 to min(explodes, subjects) - 1. |
| Distribution.PositionCountsFour | disastle_forecast.py:143-145 | Four explosions over four positions are weighted 1, 4, 6 and 8 as written, where three explosions have only 4 arrangements. |
| Distribution.Exploding | disastle_forecast.py:125-154 | `exploding_distribution` raises `ValueError` when objects < subjects, and raises nothing but `ValueError`; it is {0: 1} when nothing explodes or no card is marked, and {subjects: 1} when every card is marked. |
| Distribution.ExplodingOnce | disastle_forecast.py:132-142 | A single explosion among more cards than marked ones gives the terms of the `explodes == 1` branch, which add up to 1. |
| Distribution.ExplodingNegativeSubjects | disastle_forecast.py:132-142 | A single explosion with a negative number of marked cards gives an empty dict, of total weight 0. |
| Distribution.ExplodingMass | disastle_forecast.py:125-154 | Every distribution `exploding_distribution` returns for non-negative counts has total weight 1. |
| Distribution.ExplodingShaped | disastle_forecast.py:125-154 | Every distribution `exploding_distribution` returns has non-negative chances over 0 to `subjects` marked cards. |
| Distribution.MixMass | disastle_forecast.py:148-153 | Mixing continuations of total weight 1 by normalised position weights keeps total weight 1. |
| Distribution.MixShaped | disastle_forecast.py:148-153 | Mixing continuations over 0 to `subjects` by non-negative weights stays over 0 to `subjects` with non-negative chances. |
| Distribution.ExplodingExpectation | disastle_forecast.py:125-154 | The expected number of marked cards an explosion brings lies between 0 and `subjects`. |
| Distribution.DisasterDistribution | disastle_forecast.py:107-122 | `disaster_distribution` is {0: 1} when nothing is left, and raises `ValueError` when fewer cards remain than disasters; when it succeeds otherwise, it is the deal weighted by `select_prob` of no hit and of one hit among five cards. |
| Distribution.Deal | disastle_forecast.py:111-121 | A deal succeeds iff the single-explosion and the four-explosion continuations do; any failure is their `ValueError`. |
| Distribution.DisasterDistributionMass | disastle_forecast.py:107-122 | When it succeeds, the forecast's chances add up to 1. |
| Distribution.DealMass | disastle_forecast.py:111-121 | The no-disaster, one-disaster and redeal branches, each continued by a distribution, make a distribution. |
| Manager.FindPlayer | function/manager.py:49 | Looking up a player succeeds iff the id is present, gives that entry's player, and raises `KeyError` otherwise. |
| Manager.SetPlayer | function/manager.py:34 | Writing a player back replaces that entry only, keeps the order, and is read back by a lookup. |
| Manager.SetPlayerSame | function/manager.py:34 | Writing back the player a lookup found changes nothing. |
| Manager.TermWith | function/manager.py:98-101 | A term without `x` is read by `int`; every failure is a `ValueError`. |
| Manager.TermWithCoefficient | function/manager.py:98-99 | A term with `x` succeeds iff its coefficient, once the `x`s are stripped, is a numeral (or, read as intended, is empty, giving n), and is then the coefficient times n. |
| Manager.SumTerms | function/manager.py:97-102 | The sum of the terms succeeds iff every term reads, and otherwise raises `ValueError`. |
| Manager.TranslateWith | function/manager.py:93-102 | An encoding without `+` is read as one term; every failure is a `ValueError`. |
| Manager.TranslateAsWritten | function/manager.py:93-102 | As written, a plain numeral reads as its value, and `"x"` raises `ValueError`. |
| Manager.Translate | function/manager.py:93-102 | As intended, a plain numeral reads as its value, and `"x"` reads as the number of resolved disasters. |
| Manager.TranslateOne | function/manager.py:97-102 | An encoding without `+` is read as its single term. |
| Manager.TranslateTwo | function/manager.py:97-102 | Two `+`-free terms joined by `+` are read term by term. |
| Manager.TranslateExample | function/manager.py:93-102 | `"1+2x"` after three disasters is 1 + 2 · 3 = 7. |
| Manager.TranslateAgrees | function/manager.py:93-102 | On every encoding the forecast library accepts that does not start with `+`, the manager's reading equals the card formula's value at the number of resolved disasters. |
| Manager.TranslateSignedNumeralFails | function/manager.py:97-102 | The forecast library reads `"+3"` as 3, while the manager splits it into an empty term and raises `ValueError`. |
| Manager.TranslateAsWrittenBareX | function/manager.py:99 | As written, `"x"` and `"1+x"` raise `ValueError`; the intended reading gives n and 1 + n. |
| Manager.Damage | function/manager.py:117-120 | The damage of a disaster lies between 0 and the sum of its non-negative parts, and is that sum when the castle has no links. |
| Manager.DamageAgreesWithCard | function/manager.py:117-120 | The manager's damage is the forecast library's total damage with the wild links as the reduction and no multiplier. |
| Manager.DamageAntitone | function/manager.py:117-120 | More links of any kind never raise the damage. |
| Manager.DisasterDamageWith | function/manager.py:105-120 | `disaster_damage` raises `KeyError` for an unknown disaster; when it succeeds the damage is non-negative and the player and tallies exist. |
| Manager.DisasterDamage | function/manager.py:105-120 | `disaster_damage` raises `KeyError` for an unknown disaster, succeeds iff the three encodings read, the player exists and the castle's tallies succeed, and is then non-negative. |
| Manager.DisasterDamageAsWrittenFails | function/manager.py:116 | As written, `disaster_damage` never returns: once the encodings read and the player is found, unpacking the castle raises `TypeError`. |
| Manager.DisasterDamageMatchesCard | function/manager.py:105-120 | With the castle's tallies unpacked, the damage is the card's damage against the player's links. |
| Manager.PlayerDamage | function/manager.py:123-128 | A player owes nothing while no disaster is pending; otherwise the damage of the first pending disaster, which is never negative. |
| Manager.CompleteFrom | function/manager.py:131-136 | The discard check from one player on answers true iff every later player has discarded at least their damage; false or an error names a player. |
| Manager.AllDiscardComplete | function/manager.py:131-136 | `all_discard_complete` is true iff every player has discarded at least their damage. |
| Manager.NothingPendingIsComplete | function/manager.py:123-136 | With no disaster pending, every player's discard is complete. |
| Manager.DiscardAll | function/manager.py:142-145 | Each castle discards its player's list, which is then emptied; this succeeds iff every castle's discard does. |
| Manager.DiscardNothingKeepsCastle | function/manager.py:142-145 | A player with nothing to discard keeps their castle. |
| Manager.ResolveDisaster | function/manager.py:139-146 | While some discard is short nothing changes; otherwise one pending disaster moves to the resolved ones, and everything else except the castles and discard lists is kept. |
| Manager.ResolveDisasterActs | function/manager.py:139-146 | When it acts, the last pending disaster is appended to the resolved ones, every discard list is emptied, and the game has ended iff that was the last card. |
| Manager.Route | function/manager.py:178-181 | A dealt card starting with `d` or `c` goes to the pending disasters; any other name goes to the shop as the number it spells when it is a numeral and raises `ValueError` otherwise; an integer card or an empty name raises. |
| Manager.RouteRoomNumber | function/manager.py:181 | A room number written in decimal is dealt to the shop as that number. |
| Manager.DealRooms | function/manager.py:171-181 | The deal pops from the end of the deck, stops with a full shop or an empty deck, never overfills the shop, and every card taken goes to the shop or to the pending disasters. |
| Manager.DealRoomsRoutesTaken | function/manager.py:171-181 | The cards taken off the deck, in the order taken, are exactly the new shop rooms and the new pending disasters. |
| Manager.FirstDeal | function/manager.py:165-181 | Restocking raises `RuntimeError` while a disaster is pending; otherwise the old shop goes to the discard pile and a fresh one is dealt, with no card lost and the players kept. |
| Manager.FirstDealNoCardLost | function/manager.py:165-181 | What left the deck is exactly the new shop and the new pending disasters. |
| Manager.Redealt | function/manager.py:182-202 | The supplied redeal changes only the card piles. |
| Manager.SettleDealt | function/manager.py:203-206 | A freshly dealt disaster is resolved at once when nobody owes a discard; at most one disaster is resolved. |
| Manager.RestockShop | function/manager.py:160-207 | `restock_shop` raises while a disaster is pending; otherwise it keeps players, turn order and pool sizes, and resolves at most one disaster. |
| Manager.RestockResolvesLoneDisaster | function/manager.py:165-207 | Without a redeal, a single dealt disaster that nobody owes a discard for ends up among the resolved ones. |
| Manager.PassTurnWith | function/manager.py:149-157 | Passing the turn moves to the next player; after the last one the index returns to 0 and the first player moves to the end; the order keeps its players. |
| Manager.PassTurnAsWrittenFailsOnWrap | function/manager.py:154 | As written, the last player of a round can never pass the turn: adding a list and an element raises `TypeError`. |
| Manager.RemoveFirst | function/manager.py:54 | `list.remove` drops one occurrence of a present element and leaves the list alone otherwise. |
| Manager.RemoveFirstAt | function/manager.py:54 | The occurrence dropped is the first one, and the rest keep their order. |
| Manager.ActionDiscard | function/manager.py:20-36 | The game is unchanged when no disaster is pending, the player owes nothing, the list length differs from the damage, or the trial discard fails; it changes only after a valid discard of exactly the damage. |
| Manager.ActionShop | function/manager.py:39-56 | A room not in the shop leaves the game unchanged; an unknown player raises `KeyError`; a refused placement leaves the game unchanged. |
| Manager.ActionShopBuys | function/manager.py:39-56 | A purchase within a round places the room in the buyer's castle, removes one copy from the shop and hands the turn to the next player. |
| Manager.CommitCastle | function/manager.py:67-72 | A castle operation that fails with `RuntimeError` leaves the game unchanged; any other error escapes. |
| Manager.ActionMove | function/manager.py:59-72 | `action_move` raises `KeyError` for an unknown player, and a move the castle refuses with `RuntimeError` leaves the game unchanged. |
| Manager.ActionSwap | function/manager.py:75-90 | `action_swap` raises `KeyError` for an unknown player, and a swap the castle refuses with `RuntimeError` leaves the game unchanged. |
| Manager.CommitCastleCommits | function/manager.py:67-72 | A castle operation that succeeds within a round records the player's new castle, keeps the shop, and hands the turn to the next player. |
| Manager.ActionMoveMoves | function/manager.py:59-72 | A move the castle accepts, within a round, leaves the mover's castle as `move` left it, keeps the shop, and hands the turn to the next player. |
| Manager.ActionSwapSwaps | function/manager.py:75-90 | A swap the castle accepts, within a round, leaves the swapper's castle as `swap` left it, keeps the shop, and hands the turn to the next player. |
| Manager.MoveRollbackKeepsGame | function/manager.py:67-70 | A move the castle refuses leaves the game exactly as it was. |
| Manager.SwapRollbackKeepsGame | function/manager.py:83-88 | A swap the castle refuses leaves the game exactly as it was. |

## Left out

- `Manager.IsGameEnded` is a predicate with no contract of its own; `Manager.ResolveDisasterActs` states when it becomes true.
- `create_game` and `shuffle_turn_order` (function/manager.py:210-269): shuffles and random samples only.
- The redeal branch of `restock_shop` (function/manager.py:182-202) reshuffles the deck, so its outcome is a parameter; only what it leaves unchanged is stated.
- The empty-deck branch of both dealing loops draws from the discard pile at random; in the first loop the guard makes it unreachable.
- `damage_distribution` and `expected_damage` (disastle_forecast.py:51-105) unpack three values from a four-tuple and use the wrong card in the catastrophe loop, so they have no behaviour to state.
- `disaster_noredeal_prob` (disastle_forecast.py:185-194) always returns nothing.
- `Castle.is_powered` (disastle/castle.py:128-155) reads an undefined name and an unimported function.
- `Castle.surrounding` and `Castle.outer_rooms` (disastle/castle.py:74-91) are not used by the operations modelled.
- The JSON glue of `Game` and `Player` (function/model.py:242-346) is persistence only; the castle's own `to_json_obj`/`from_json_obj` are modelled.
- Catalogue and file loading (`all_rooms`, `all_disasters`, `all_catastrophes`, `ROOM_LIST`, `DISASTER_LIST`): the catalogues are parameters.
- function/lambda_function.py, create_tables.py, render.py and game.py: request dispatch, storage, drawing and an orchestration layer outside the rules engine.
- Floating point: all probabilities and damages are exact rationals, and nothing is claimed about rounding.
- Text.ParseInt: Python's `int()` also accepts surrounding whitespace and digit-separating underscores; the model accepts only an optional `+` or `-` followed by ASCII digits.
- DenseCastle.FromJson: the stored rows are taken as lists of integers already read, so `int()` of each stored string is not modelled, and only rows of width four are accepted, where numpy also builds an array from rows of another common width.
- Forecast.SelectProbHypergeometric: stated of the corrected count of positions; as written the value is (count - 1)! times larger from three hits on (Forecast.SelectProbAsWrittenScaled), and the two agree only up to two hits.
- Distribution.ExplodingMass: stated for non-negative counts only; with a negative number of marked cards a single explosion gives an empty dict of weight 0 (Distribution.ExplodingNegativeSubjects).
- Manager.TranslateAgrees: excludes encodings with a leading `+`, on which the manager raises while the forecast library reads a number (Manager.TranslateSignedNumeralFails).
- Distribution.ExpectedValue: carries no contract of its own; Distribution.ExpectedValueOneKey and Distribution.ExpectedValueBounds state what it computes.
- Distribution.Exploding: the branches with more than one explosion use the position weights as written; a variant with the corrected weights is not modelled.
- numpy dtypes: the dense castle's rows are unbounded integers.
- Manager.PlayerDamage: the manager's composite operations are built on the corrected helpers, not the code as written. `PlayerDamage`, and through it `CompleteFrom`, `AllDiscardComplete`, `ResolveDisaster`, `ActionDiscard`, `SettleDealt` and `RestockShop`, use the corrected `DisasterDamage` (a bare `x` read as 1 · x, the castle's `num_connections` unpacked); as written, `player_damage` (function/manager.py:123-128) raises `TypeError` whenever a disaster is pending (Manager.DisasterDamageAsWrittenFails). `ActionShop` and `CommitCastle` use the corrected `PassTurn`, where the code as written raises `TypeError` at the end of every round (Manager.PassTurnAsWrittenFailsOnWrap). `ActionSwap` uses the intended `DenseCastle.Swap`, where the code as written always raises `TypeError` (DenseCastle.SwapAsWrittenNeverSwaps). The dense castle's scans use four neighbour slots throughout.
- Manager.Game: turn-order entries are kept as the players' id strings, where loading a game converts them to integers (function/model.py:272); the manager reads only their count and rotates them, so the element type changes nothing modelled.
- DenseCastle.Connections: every catalogue entry is taken to be four characters long; the source checks only that each character is one of the connector letters (function/model.py:22-27), and an entry of another length would change how `get_rotated_room` slices and indexes it.
- SparseCastle.LinksAsWritten: only non-negativity is stated, and only for castles whose connected cells are all occupied, because elsewhere the code dereferences an empty cell.
- Distribution.DisasterDistributionMass: the redeal weight is 1 minus the other two, so the total is 1 by construction whatever `select_prob` returns; the lemma does not state that the branch weights themselves are chances.

## Findings

| source | as written | input that shows it | evidently intended | confidence | as-written member | corrected member |
|---|---|---|---|---|---|---|
| disastle/castle.py:176-211 | `links` pairs `dx = x - c_x == 1` with the right side, but that neighbour is on the left; each horizontal neighbour is paired with the room's opposite side, so a horizontal link is counted only when those far sides happen to link | two rooms at (0, 0) and (1, 0) joined by a diamond link, their far sides blank: 0 diamond links (four rooms in a row whose inner horizontal sides are all diamond give 1 instead of 3) | each linked pair counted once per kind: 1 diamond link | high, not executed | SparseCastle.LinksAsWrittenMissesEdge | SparseCastle.CastleLinks |
| function/model.py:60 | the neighbour list `[(x, y - 1), (x + 1, y), (x, y + 1), (x - 1), y]` has no left pair, so the left neighbour is never checked | throne room at (0, 0), a wild room placed at (1, 0): refused with `RuntimeError` | all four neighbours checked: the placement succeeds | high, not executed | DenseCastle.PlaceAsWrittenMissesLeftNeighbour | DenseCastle.PlaceCharacterised |
| function/model.py:136-137 | `place(id, *backup_data[id][1:], rot)` passes x, y, rotation and rot, five arguments after `self` where `place` takes four, so `TypeError` escapes the rollback | any swap of two placed rooms: both rooms end up unplaced | each room placed at the other's position, or the castle restored | high, not executed | DenseCastle.SwapAsWrittenNeverSwaps | DenseCastle.Swap |
| function/model.py:179 | the coordinates are read after `remove` has zeroed the row | rotating a room placed at (1, 0): it is re-placed at (0, 0) | re-place at the room's own position | high, not executed | DenseCastle.RotateAsWrittenMovesRoom | DenseCastle.RotateWith |
| disastle_forecast.py:182 | `factorial(slots) / factorial(slots - objects) / objects` divides by `objects`, not `objects!` | `num_different_positions(3, 5)` is 20 | C(5, 3) = 10 ways to choose the positions | high, not executed | Forecast.NdpAsWrittenDiffers | Forecast.NdpIsBinomial |
| disastle_forecast.py:175 | `select_prob` multiplies by `num_different_positions` as written | `select_prob(3, 5, 3, 20)` is twice the hypergeometric probability; `select_prob(-1, 1, 0, 5)` is -2 | the hypergeometric probability, and `ValueError` for a negative count | high, not executed | Forecast.SelectProbAsWrittenDoubles | Forecast.SelectProbHypergeometric |
| disastle_forecast.py:145 | the position counter uses `num_different_positions` as written | `exploding_distribution(4, 4, 10)` weighs the spreads 1, 4, 6, 8 | weights 1, 4, 6, 4 | high, not executed | Distribution.PositionCountsFour | Forecast.NdpIsBinomial |
| function/manager.py:99 | `int(term.strip("x"))` on the term `x` is `int("")` | encoding `"x"` or `"1+x"`: `ValueError` | a bare `x` means 1 · x | high, not executed | Manager.TranslateAsWrittenBareX | Manager.TranslateAgrees |
| function/manager.py:116 | the castle object itself is unpacked, not its `num_connections()` | any known disaster and player: `TypeError` | unpack the four link tallies | high, not executed | Manager.DisasterDamageAsWrittenFails | Manager.DisasterDamageMatchesCard |
| function/manager.py:154 | `turn_order[1:] + turn_order[0]` adds a list and an element | the last player of any round passes the turn: `TypeError` | rotate the first player to the end | high, not executed | Manager.PassTurnAsWrittenFailsOnWrap | Manager.PassTurnWith |

=== FILE: castle.dfy ===
/** The sparse castle grid of disastle/castle.py.

    The source keeps a 101 x 101 array addressed by coordinates in
    [-50, 50]^2, a set `rooms` of placed room objects, and a `pos` field on
    each room. Here the array is a map from occupied cells to rooms and the
    set together with the `pos` fields is a map from each member room to its
    position. In this grid "up" is y + 1. */
module SparseCastle {
  import opened Outcomes
  import opened Rooms

  type Pos = (int, int)

  /** The board spans [-Extent, Extent] on each axis. */
  const Extent := 50

  const AllDirs: set<Dir> := {Up, Right, Down, Left}

  predicate OutOfBounds(x: int, y: int) {
    x < -Extent || x > Extent || y < -Extent || y > Extent
  }

  predicate OutOfBoundsPos(p: Pos) {
    OutOfBounds(p.0, p.1)
  }

  /** A cell whose four neighbours are all on the board. */
  predicate Interior(p: Pos) {
    -Extent < p.0 < Extent && -Extent < p.1 < Extent
  }

  /** `grid_pos`: the array indices of a cell. Off the board the source
      returns (rather than raises) a ValueError, and the caller's tuple
      unpacking then fails with TypeError, the error reported here. */
  function GridPos(x: int, y: int): (r: Result<(nat, nat)>)
    ensures r.Ok? <==> !OutOfBounds(x, y)
    ensures r.Err? ==> r.error == TypeError
    ensures r.Ok? ==> r.value.0 <= 2 * Extent && r.value.1 <= 2 * Extent
    ensures r.Ok? ==> r.value.0 - Extent == x && r.value.1 - Extent == y
  {
    if OutOfBounds(x, y) then Err(TypeError) else Ok(((x + Extent) as nat, (y + Extent) as nat))
  }

  datatype Castle = Castle(grid: map<Pos, Room>, rooms: map<Room, Pos>)

  function Neighbour(p: Pos, d: Dir): Pos {
    match d
    case Up => (p.0, p.1 + 1)
    case Right => (p.0 + 1, p.1)
    case Down => (p.0, p.1 - 1)
    case Left => (p.0 - 1, p.1)
  }

  lemma NeighbourOpposite(p: Pos, d: Dir)
    ensures Neighbour(Neighbour(p, d), Opposite(d)) == p
    ensures Neighbour(p, d) != p
  {
  }

  function Lookup(grid: map<Pos, Room>, p: Pos): Option<Room> {
    if p in grid then Some(grid[p]) else None
  }

  /** `get`: the room at a cell, `None` for an empty cell. */
  function Get(c: Castle, x: int, y: int): (r: Result<Option<Room>>)
    ensures r.Ok? <==> !OutOfBounds(x, y)
    ensures r.Err? ==> r.error == TypeError
    ensures r.Ok? ==> r.value == Lookup(c.grid, (x, y))
  {
    var _ :- GridPos(x, y);
    Ok(Lookup(c.grid, (x, y)))
  }

  /** `place_valid`. The very first room may go to the origin; otherwise every
      neighbour must be on the board and each occupied neighbour's facing side
      must form a valid connection with the room's side. Neither an empty
      target cell nor an occupied neighbour is required. */
  predicate PlaceValid(c: Castle, room: Room, x: int, y: int) {
    if |c.rooms| == 0 && x == 0 && y == 0 then true
    else if OutOfBounds(x, y + 1) || OutOfBounds(x + 1, y) || OutOfBounds(x, y - 1) || OutOfBounds(x - 1, y) then false
    else
      && ((x, y + 1) !in c.grid || ValidConnection(c.grid[(x, y + 1)].down, room.up))
      && ((x + 1, y) !in c.grid || ValidConnection(c.grid[(x + 1, y)].left, room.right))
      && ((x, y - 1) !in c.grid || ValidConnection(c.grid[(x, y - 1)].up, room.down))
      && ((x - 1, y) !in c.grid || ValidConnection(c.grid[(x - 1, y)].right, room.left))
  }

  /** Every occupied neighbour's facing side is a valid partner of the room's side. */
  ghost predicate FitsNeighbours(c: Castle, room: Room, p: Pos) {
    forall d :: Neighbour(p, d) in c.grid ==>
      ValidConnection(Side(c.grid[Neighbour(p, d)], Opposite(d)), Side(room, d))
  }

  /** `place_valid` in direction-generic terms: off-board neighbours reject,
      otherwise validity against every occupied neighbour decides. */
  lemma PlaceValidSpec(c: Castle, room: Room, x: int, y: int)
    ensures |c.rooms| == 0 && x == 0 && y == 0 ==> PlaceValid(c, room, x, y)
    ensures !(|c.rooms| == 0 && x == 0 && y == 0) && (exists d :: OutOfBoundsPos(Neighbour((x, y), d))) ==>
              !PlaceValid(c, room, x, y)
    ensures !(|c.rooms| == 0 && x == 0 && y == 0) && Interior((x, y)) ==>
              (PlaceValid(c, room, x, y) <==> FitsNeighbours(c, room, (x, y)))
  {
    var p := (x, y);
    if !(|c.rooms| == 0 && x == 0 && y == 0) && Interior(p) {
      assert Neighbour(p, Up) == (x, y + 1);
      assert Neighbour(p, Right) == (x + 1, y);
      assert Neighbour(p, Down) == (x, y - 1);
      assert Neighbour(p, Left) == (x - 1, y);
    }
  }

  /** `place`: raises ValueError and changes nothing, or records the room in
      the cell and in the room set with its new position. */
  function Place(c: Castle, room: Room, x: int, y: int): (r: Result<Castle>)
    ensures r.Ok? <==> PlaceValid(c, room, x, y)
    ensures r.Err? ==> r.error == ValueError
    ensures r.Ok? ==> (x, y) in r.value.grid && r.value.grid[(x, y)] == room
    ensures r.Ok? ==> forall p :: p != (x, y) ==> Lookup(r.value.grid, p) == Lookup(c.grid, p)
    ensures r.Ok? ==> r.value.rooms.Keys == c.rooms.Keys + {room} && r.value.rooms[room] == (x, y)
    ensures r.Ok? ==> forall other :: other in c.rooms && other != room ==> r.value.rooms[other] == c.rooms[other]
  {
    if !PlaceValid(c, room, x, y) then Err(ValueError)
    else Ok(Castle(c.grid[(x, y) := room], c.rooms[room := (x, y)]))
  }

  /** `remove`: off-board TypeError, empty cell ValueError, and KeyError when
      the cell's room is no longer in the room set; otherwise the cell and
      the room's membership are cleared. */
  function Remove(c: Castle, x: int, y: int): (r: Result<Castle>)
    ensures OutOfBounds(x, y) ==> r == Err(TypeError)
    ensures !OutOfBounds(x, y) && (x, y) !in c.grid ==> r == Err(ValueError)
    ensures !OutOfBounds(x, y) && (x, y) in c.grid && c.grid[(x, y)] !in c.rooms ==> r == Err(KeyError)
    ensures !OutOfBounds(x, y) && (x, y) in c.grid && c.grid[(x, y)] in c.rooms ==> r.Ok?
    ensures r.Ok? ==> (x, y) in c.grid && r.value.grid == c.grid - {(x, y)}
    ensures r.Ok? ==> r.value.rooms == c.rooms - {c.grid[(x, y)]}
  {
    var cell :- Get(c, x, y);
    if cell.None? then Err(ValueError)
    else if cell.value !in c.rooms then Err(KeyError)
    else Ok(Castle(c.grid - {(x, y)}, c.rooms - {cell.value}))
  }

  const Empty := Castle(map[], map[])

  /** A new castle holds exactly the throne room, at the origin. */
  function Init(): (c: Castle)
    ensures c.grid == map[(0, 0) := ThroneRoom()]
    ensures c.rooms == map[ThroneRoom() := (0, 0)]
  {
    Place(Empty, ThroneRoom(), 0, 0).value
  }

  /** Consistency of the grid with the room set, rooms away from the board's
      rim, and a valid connection across every pair of adjacent rooms. */
  ghost predicate Wf(c: Castle) {
    && (forall p :: p in c.grid ==> c.grid[p] in c.rooms && c.rooms[c.grid[p]] == p)
    && (forall room :: room in c.rooms ==> c.rooms[room] in c.grid && c.grid[c.rooms[room]] == room)
    && (forall p :: p in c.grid ==> Interior(p))
    && Joined(c.grid)
  }

  /** Every pair of neighbouring rooms meets in a valid connection. */
  ghost predicate Joined(grid: map<Pos, Room>) {
    forall p, d :: p in grid && Neighbour(p, d) in grid ==>
      ValidConnection(Side(grid[p], d), Side(grid[Neighbour(p, d)], Opposite(d)))
  }

  lemma InitWf()
    ensures Wf(Init())
  {
    forall d ensures Neighbour((0, 0), d) != (0, 0) {
      NeighbourOpposite((0, 0), d);
    }
  }

  /** Placing a room not yet in the castle on an empty cell keeps the castle
      well formed. */
  lemma PlacePreservesWf(c: Castle, room: Room, x: int, y: int)
    requires Wf(c) && (x, y) !in c.grid && room !in c.rooms
    requires Place(c, room, x, y).Ok?
    ensures Wf(Place(c, room, x, y).value)
  {
    var p := (x, y);
    var c' := Place(c, room, x, y).value;
    PlaceValidSpec(c, room, x, y);
    if |c.rooms| == 0 && x == 0 && y == 0 {
      assert forall q :: q !in c.grid;
    }
    assert Interior(p);
    assert FitsNeighbours(c, room, p);
    PlaceJoined(c, room, p);
  }

  /** A room that fits its occupied neighbours, put on an empty cell, keeps
      every pair of neighbours validly joined. */
  lemma PlaceJoined(c: Castle, room: Room, p: Pos)
    requires Joined(c.grid) && p !in c.grid && FitsNeighbours(c, room, p)
    ensures Joined(c.grid[p := room])
  {
    var g := c.grid[p := room];
    forall q, d | q in g && Neighbour(q, d) in g
      ensures ValidConnection(Side(g[q], d), Side(g[Neighbour(q, d)], Opposite(d)))
    {
      NeighbourOpposite(q, d);
      if q == p {
        assert Neighbour(q, d) in c.grid;
      } else if Neighbour(q, d) == p {
        assert Neighbour(p, Opposite(d)) == q;
      }
    }
  }

  lemma RemovePreservesWf(c: Castle, x: int, y: int)
    requires Wf(c) && Remove(c, x, y).Ok?
    ensures Wf(Remove(c, x, y).value)
  {
  }

  /** Removing a room that was just placed on an empty cell restores the castle. */
  lemma PlaceThenRemove(c: Castle, room: Room, x: int, y: int)
    requires (x, y) !in c.grid && room !in c.rooms
    requires Place(c, room, x, y).Ok?
    ensures Remove(Place(c, room, x, y).value, x, y) == Ok(c)
  {
    PlaceValidOnBoard(c, room, x, y);
    UndoInsert(c, room, (x, y));
  }

  /** A valid placement is on the board. */
  lemma PlaceValidOnBoard(c: Castle, room: Room, x: int, y: int)
    requires PlaceValid(c, room, x, y)
    ensures !OutOfBounds(x, y)
  {
    if !(|c.rooms| == 0 && x == 0 && y == 0) {
      assert !OutOfBounds(x, y + 1) && !OutOfBounds(x, y - 1);
    }
  }

  /** Removing a freshly inserted cell and room restores both maps. */
  lemma UndoInsert(c: Castle, room: Room, p: Pos)
    requires p !in c.grid && room !in c.rooms
    ensures c.grid[p := room] - {p} == c.grid
    ensures c.rooms[room := p] - {room} == c.rooms
  {
  }

  /** `place` accepts an occupied cell: putting a second room on the origin of
      a new castle succeeds and leaves the throne room in the room set while
      the grid no longer holds it. */
  lemma PlaceAcceptsOccupiedCell()
    ensures var r := Room(2, "Annex", Any, Any, Any, Any);
            var c := Place(Init(), r, 0, 0);
            c.Ok? && c.value.grid[(0, 0)] == r && ThroneRoom() in c.value.rooms && !Wf(c.value)
  {
    var r := Room(2, "Annex", Any, Any, Any, Any);
    var c := Place(Init(), r, 0, 0).value;
    assert c.grid[c.rooms[ThroneRoom()]] != ThroneRoom();
  }

  /** `place` accepts a cell with no neighbour at all. */
  lemma PlaceAcceptsIsolatedCell()
    ensures var r := Room(2, "Annex", Any, Any, Any, Any);
            Place(Init(), r, 10, 10).Ok?
  {
  }

  /** `move_valid`: temporarily lifts the room at `from`, asks whether it could
      go to `to`, and puts it back at `from`. */
  function MoveValid(c: Castle, from: Pos, to: Pos): (r: Result<(bool, Castle)>)
    ensures OutOfBoundsPos(from) ==> r == Err(TypeError)
    ensures !OutOfBoundsPos(from) && from !in c.grid ==> r == Err(ValueError)
  {
    var cell :- Get(c, from.0, from.1);
    var lifted :- Remove(c, from.0, from.1);
    var room := cell.value;
    var result := PlaceValid(lifted, room, to.0, to.1);
    var restored :- Place(lifted, room, from.0, from.1);
    Ok((result, restored))
  }

  /** On a well-formed castle `move_valid` leaves the castle exactly as it was
      and answers whether the lifted room fits at `to`. */
  lemma MoveValidRestores(c: Castle, from: Pos, to: Pos)
    requires Wf(c) && from in c.grid
    ensures var room := c.grid[from];
            var lifted := Castle(c.grid - {from}, c.rooms - {room});
            MoveValid(c, from, to) == Ok((PlaceValid(lifted, room, to.0, to.1), c))
  {
    var room := c.grid[from];
    var lifted := Castle(c.grid - {from}, c.rooms - {room});
    assert Remove(c, from.0, from.1) == Ok(lifted);
    PlaceValidSpec(lifted, room, from.0, from.1);
    if !(|lifted.rooms| == 0 && from.0 == 0 && from.1 == 0) {
      forall d | Neighbour(from, d) in lifted.grid
        ensures ValidConnection(Side(lifted.grid[Neighbour(from, d)], Opposite(d)), Side(room, d))
      {
        assert Neighbour(from, d) in c.grid;
      }
    }
    assert PlaceValid(lifted, room, from.0, from.1);
    assert lifted.grid[from := room] == c.grid;
    assert lifted.rooms[room := from] == c.rooms;
  }

  /** `place_valid` applied to what `get` returned: for an empty cell the
      source reads a side of None, raising AttributeError, as soon as it meets
      an occupied neighbour. */
  function PlaceValidCell(c: Castle, cell: Option<Room>, x: int, y: int): (r: Result<bool>)
    ensures cell.Some? ==> r == Ok(PlaceValid(c, cell.value, x, y))
    ensures r.Err? ==> r.error == AttributeError
  {
    if cell.Some? then Ok(PlaceValid(c, cell.value, x, y))
    else if |c.rooms| == 0 && x == 0 && y == 0 then Ok(true)
    else if OutOfBounds(x, y + 1) || OutOfBounds(x + 1, y) || OutOfBounds(x, y - 1) || OutOfBounds(x - 1, y) then Ok(false)
    else if (x, y + 1) !in c.grid && (x + 1, y) !in c.grid && (x, y - 1) !in c.grid && (x - 1, y) !in c.grid then Ok(true)
    else Err(AttributeError)
  }

  /** `swap_valid`: distinct cells whose rooms would each fit at the other's
      cell, judged against the castle as it stands. */
  function SwapValid(c: Castle, p1: Pos, p2: Pos): (r: Result<bool>)
    ensures p1 == p2 ==> r == Ok(false)
    ensures p1 != p2 && p1 in c.grid && p2 in c.grid && !OutOfBoundsPos(p1) && !OutOfBoundsPos(p2) ==>
              r == Ok(PlaceValid(c, c.grid[p1], p2.0, p2.1) && PlaceValid(c, c.grid[p2], p1.0, p1.1))
  {
    if p1 == p2 then Ok(false)
    else
      var cell1 :- Get(c, p1.0, p1.1);
      var fits1 :- PlaceValidCell(c, cell1, p2.0, p2.1);
      if !fits1 then Ok(false)
      else
        var cell2 :- Get(c, p2.0, p2.1);
        PlaceValidCell(c, cell2, p1.0, p1.1)
  }

  /** The on-board neighbours of a room at `p` on its live (non-blank) sides. */
  function LiveCells(room: Room, p: Pos): (cells: set<Pos>)
    ensures forall q :: q in cells <==>
              exists d :: q == Neighbour(p, d) && Side(room, d) != Blank && !OutOfBoundsPos(q)
  {
    set d | d in AllDirs && Side(room, d) != Blank && !OutOfBoundsPos(Neighbour(p, d)) :: Neighbour(p, d)
  }

  /** The dict `connected` builds for `room` at (x, y): up, right, down and
      left in turn, each added when that side is live and on the board. */
  function LiveMap(grid: map<Pos, Room>, room: Room, x: int, y: int): (m: map<Pos, Option<Room>>)
    ensures forall q :: q in m ==> m[q] == Lookup(grid, q)
  {
    var m0: map<Pos, Option<Room>> := map[];
    var m1 := if room.up != Blank && !OutOfBounds(x, y + 1) then m0[(x, y + 1) := Lookup(grid, (x, y + 1))] else m0;
    var m2 := if room.right != Blank && !OutOfBounds(x + 1, y) then m1[(x + 1, y) := Lookup(grid, (x + 1, y))] else m1;
    var m3 := if room.down != Blank && !OutOfBounds(x, y - 1) then m2[(x, y - 1) := Lookup(grid, (x, y - 1))] else m2;
    if room.left != Blank && !OutOfBounds(x - 1, y) then m3[(x - 1, y) := Lookup(grid, (x - 1, y))] else m3
  }

  /** The dict's keys are the live on-board neighbour cells. */
  lemma LiveMapKeys(grid: map<Pos, Room>, room: Room, x: int, y: int)
    ensures LiveMap(grid, room, x, y).Keys == LiveCells(room, (x, y))
  {
    var p := (x, y);
    assert Neighbour(p, Up) == (x, y + 1);
    assert Neighbour(p, Right) == (x + 1, y);
    assert Neighbour(p, Down) == (x, y - 1);
    assert Neighbour(p, Left) == (x - 1, y);
  }

  /** `connected`: for the room at (x, y), each on-board neighbour cell on a
      live side, with what occupies it. */
  function Connected(c: Castle, x: int, y: int): (r: Result<map<Pos, Option<Room>>>)
    ensures OutOfBounds(x, y) ==> r == Err(TypeError)
    ensures !OutOfBounds(x, y) && (x, y) !in c.grid ==> r == Err(ValueError)
    ensures r.Ok? ==> (x, y) in c.grid && r.value.Keys == LiveCells(c.grid[(x, y)], (x, y))
    ensures r.Ok? ==> forall q :: q in r.value ==> r.value[q] == Lookup(c.grid, q)
  {
    var cell :- Get(c, x, y);
    if cell.None? then Err(ValueError)
    else
      LiveMapKeys(c.grid, cell.value, x, y);
      Ok(LiveMap(c.grid, cell.value, x, y))
  }

  /** The cells of `LiveCells` that are empty. */
  function OpenCells(c: Castle, room: Room, p: Pos): set<Pos> {
    set q | q in LiveCells(room, p) && q !in c.grid
  }

  /** `is_outer_room`: exactly one of the connected cells is empty. */
  function IsOuterRoom(c: Castle, x: int, y: int): (r: Result<bool>)
    ensures r.Ok? <==> Connected(c, x, y).Ok?
    ensures r.Err? ==> r.error == Connected(c, x, y).error
    ensures r.Ok? ==> (r.value <==> exists q :: OpenCells(c, c.grid[(x, y)], (x, y)) == {q})
  {
    var cells :- Connected(c, x, y);
    var open := set q | q in cells && cells[q].None?;
    assert open == OpenCells(c, c.grid[(x, y)], (x, y));
    SingletonCardinality(open);
    Ok(|open| == 1)
  }

  lemma SingletonCardinality<T>(s: set<T>)
    ensures |s| == 1 <==> exists q :: s == {q}
  {
    if |s| == 1 {
      var q :| q in s;
      assert |s - {q}| == 0;
      assert s == {q};
    }
  }

  /** `free_pos`: every empty connected cell of every placed room. It fails
      like `connected` when some member room's recorded position is off the
      board (TypeError) or empty (ValueError). */
  function FreePos(c: Castle): (r: Result<set<Pos>>)
    ensures r.Ok? <==> forall room :: room in c.rooms ==> Connected(c, c.rooms[room].0, c.rooms[room].1).Ok?
    ensures r.Ok? ==> forall q :: q in r.value <==>
              q !in c.grid && exists room :: room in c.rooms && q in Connected(c, c.rooms[room].0, c.rooms[room].1).value
  {
    if exists room :: room in c.rooms && OutOfBoundsPos(c.rooms[room]) then Err(TypeError)
    else if exists room :: room in c.rooms && c.rooms[room] !in c.grid then Err(ValueError)
    else Ok(set room, q | room in c.rooms && c.rooms[room] in c.grid && q in LiveCells(c.grid[c.rooms[room]], c.rooms[room]) && q !in c.grid :: q)
  }

  lemma WfFreePos(c: Castle)
    requires Wf(c)
    ensures FreePos(c).Ok?
  {
  }

  /** Every live side of every room faces an occupied cell: the condition
      under which `links` never reads a side of an empty cell. */
  ghost predicate Closed(c: Castle) {
    forall p, q :: p in c.grid && q in LiveCells(c.grid[p], p) ==> q in c.grid
  }

  /** The kind `links` tallies for side `d` of `room` against neighbour `nb`,
      as written: the left neighbour is paired with the room's right side and
      the right neighbour with its left side. */
  function TalliedAsWritten(room: Room, nb: Room, d: Dir): Connection {
    match d
    case Up => LinkConnection(room.up, nb.down)
    case Right => LinkConnection(room.left, nb.right)
    case Down => LinkConnection(room.down, nb.up)
    case Left => LinkConnection(room.right, nb.left)
  }

  /** The intended pairing: side `d` against the neighbour's facing side. */
  function Tallied(room: Room, nb: Room, d: Dir): Connection {
    LinkConnection(Side(room, d), Side(nb, Opposite(d)))
  }

  /** A live side of an occupied cell that faces an occupied cell. */
  predicate IsEdge(c: Castle, p: Pos, d: Dir) {
    p in c.grid && Side(c.grid[p], d) != Blank && !OutOfBoundsPos(Neighbour(p, d)) && Neighbour(p, d) in c.grid
  }

  /** The directed edges whose tallied kind is `kind`. */
  function TallySet(c: Castle, kind: Connection, asWritten: bool): set<(Pos, Dir)> {
    set p, d | p in c.grid && d in AllDirs && IsEdge(c, p, d) &&
               (if asWritten then TalliedAsWritten(c.grid[p], c.grid[Neighbour(p, d)], d)
                else Tallied(c.grid[p], c.grid[Neighbour(p, d)], d)) == kind :: (p, d)
  }

  /** Link totals: every directed edge is met once from each end, so the
      source halves each count (true division). */
  datatype Links = Links(diamond: real, cross: real, moon: real, reduction: real)

  function TallyLinks(c: Castle, asWritten: bool): Links {
    Links(|TallySet(c, Diamond, asWritten)| as real / 2.0,
          |TallySet(c, Cross, asWritten)| as real / 2.0,
          |TallySet(c, Moon, asWritten)| as real / 2.0,
          |TallySet(c, Any, asWritten)| as real / 2.0)
  }

  /** `links` as written. */
  function LinksAsWritten(c: Castle): (r: Links)
    requires Wf(c) && Closed(c)
    ensures r.diamond >= 0.0 && r.cross >= 0.0 && r.moon >= 0.0 && r.reduction >= 0.0
  {
    TallyLinks(c, true)
  }

  /** `links` with each side paired with the neighbour it faces: each total is
      the number of undirected edges of that kind. */
  function CastleLinks(c: Castle): (r: Links)
    requires Wf(c) && Closed(c)
    ensures r.diamond == |UpRight(TallySet(c, Diamond, false))| as real
    ensures r.cross == |UpRight(TallySet(c, Cross, false))| as real
    ensures r.moon == |UpRight(TallySet(c, Moon, false))| as real
    ensures r.reduction == |UpRight(TallySet(c, Any, false))| as real
  {
    EdgesCountedTwice(c, Diamond);
    EdgesCountedTwice(c, Cross);
    EdgesCountedTwice(c, Moon);
    EdgesCountedTwice(c, Any);
    TallyLinks(c, false)
  }

  /** The same edge seen from its other end. */
  function Flip(e: (Pos, Dir)): (Pos, Dir) {
    (Neighbour(e.0, e.1), Opposite(e.1))
  }

  /** One orientation of each undirected edge: the ones pointing up or right. */
  function UpRight(edges: set<(Pos, Dir)>): set<(Pos, Dir)> {
    set e | e in edges && (e.1 == Up || e.1 == Right)
  }

  /** With the intended pairing an edge is tallied from one end exactly when
      it is tallied, with the same kind, from the other. */
  lemma TallySymmetric(c: Castle, kind: Connection, e: (Pos, Dir))
    requires Wf(c)
    ensures e in TallySet(c, kind, false) ==> Flip(e) in TallySet(c, kind, false)
  {
    if e in TallySet(c, kind, false) {
      var (p, d) := e;
      var q := Neighbour(p, d);
      NeighbourOpposite(p, d);
      assert ValidConnection(Side(c.grid[p], d), Side(c.grid[q], Opposite(d)));
      assert Opposite(Opposite(d)) == d;
      LinkSymmetric(Side(c.grid[p], d), Side(c.grid[q], Opposite(d)));
      assert IsEdge(c, q, Opposite(d));
    }
  }

  lemma FlipImage(edges: set<(Pos, Dir)>)
    ensures |set e | e in edges :: Flip(e)| == |edges|
    decreases |edges|
  {
    if edges != {} {
      var e :| e in edges;
      var rest := edges - {e};
      FlipImage(rest);
      var image := set x | x in edges :: Flip(x);
      var restImage := set x | x in rest :: Flip(x);
      assert image == restImage + {Flip(e)};
      forall x | x in rest ensures Flip(x) != Flip(e) {
        NeighbourOpposite(x.0, x.1);
        NeighbourOpposite(e.0, e.1);
      }
    }
  }

  /** The edges pointing down or left: the other orientation of each edge. */
  function DownLeft(edges: set<(Pos, Dir)>): set<(Pos, Dir)> {
    set e | e in edges && (e.1 == Down || e.1 == Left)
  }

  /** Flipping the up/right half of a tally gives exactly its down/left half. */
  lemma FlipUpRight(c: Castle, kind: Connection)
    requires Wf(c)
    ensures (set e | e in UpRight(TallySet(c, kind, false)) :: Flip(e)) == DownLeft(TallySet(c, kind, false))
  {
    var t := TallySet(c, kind, false);
    var image := set e | e in UpRight(t) :: Flip(e);
    forall e | e in image ensures e in DownLeft(t) {
      var x :| x in UpRight(t) && e == Flip(x);
      TallySymmetric(c, kind, x);
    }
    forall e | e in DownLeft(t) ensures e in image {
      TallySymmetric(c, kind, e);
      NeighbourOpposite(e.0, e.1);
      assert Flip(e) in UpRight(t);
      assert Flip(Flip(e)) == e;
    }
  }

  /** Every undirected edge is tallied twice, once from each end. */
  lemma EdgesCountedTwice(c: Castle, kind: Connection)
    requires Wf(c)
    ensures |TallySet(c, kind, false)| == 2 * |UpRight(TallySet(c, kind, false))|
  {
    var t := TallySet(c, kind, false);
    SplitByDir(t);
    FlipUpRight(c, kind);
    FlipImage(UpRight(t));
  }

  /** Every edge points either up/right or down/left. */
  lemma SplitByDir(t: set<(Pos, Dir)>)
    ensures |t| == |UpRight(t)| + |DownLeft(t)|
  {
    assert t == UpRight(t) + DownLeft(t);
    assert UpRight(t) !! DownLeft(t);
  }

  /** Two rooms joined by a diamond edge, (0,0) right to (1,0) left. */
  function DiamondPair(): Castle {
    var a := Room(1, "West", Blank, Diamond, Blank, Blank);
    var b := Room(2, "East", Blank, Blank, Blank, Diamond);
    Castle(map[(0, 0) := a, (1, 0) := b], map[a := (0, 0), b := (1, 0)])
  }

  /** The only adjacent pair of `DiamondPair` is (0,0) right / (1,0) left. */
  lemma DiamondPairAdjacency(p: Pos, d: Dir)
    requires p in DiamondPair().grid && Neighbour(p, d) in DiamondPair().grid
    ensures (p == (0, 0) && d == Right) || (p == (1, 0) && d == Left)
  {
  }

  lemma DiamondPairWf()
    ensures Wf(DiamondPair()) && Closed(DiamondPair())
  {
    var c := DiamondPair();
    forall p, d | p in c.grid && Neighbour(p, d) in c.grid
      ensures ValidConnection(Side(c.grid[p], d), Side(c.grid[Neighbour(p, d)], Opposite(d)))
    {
      DiamondPairAdjacency(p, d);
    }
    forall p, q | p in c.grid && q in LiveCells(c.grid[p], p) ensures q in c.grid {
      var d :| q == Neighbour(p, d) && Side(c.grid[p], d) != Blank && !OutOfBoundsPos(q);
    }
  }

  lemma DiamondPairTallies(asWritten: bool)
    ensures TallySet(DiamondPair(), Diamond, asWritten) ==
              if asWritten then {} else {((0, 0), Right), ((1, 0), Left)}
  {
    var c := DiamondPair();
    var t := TallySet(c, Diamond, asWritten);
    forall e | e in t ensures e == ((0, 0), Right) || e == ((1, 0), Left) {
      DiamondPairAdjacency(e.0, e.1);
    }
    assert Neighbour((0, 0), Right) == (1, 0) && Neighbour((1, 0), Left) == (0, 0);
    if !asWritten {
      assert ((0, 0), Right) in t;
      assert ((1, 0), Left) in t;
    }
  }

  /** As written, `links` misses the diamond edge of `DiamondPair`; with the
      intended pairing it counts one. */
  lemma LinksAsWrittenMissesEdge()
    ensures Wf(DiamondPair()) && Closed(DiamondPair())
    ensures LinksAsWritten(DiamondPair()).diamond == 0.0
    ensures CastleLinks(DiamondPair()).diamond == 1.0
  {
    DiamondPairWf();
    DiamondPairTallies(true);
    DiamondPairOneEdge();
  }

  lemma DiamondPairOneEdge()
    ensures |UpRight(TallySet(DiamondPair(), Diamond, false))| == 1
  {
    DiamondPairTallies(false);
    var t := TallySet(DiamondPair(), Diamond, false);
    assert UpRight(t) == {((0, 0), Right)};
  }
}

=== FILE: dense_castle.dfy ===
/** The castle of the web back end, function/model.py.

    The castle is a table with one row per catalogue id. Each row holds
    (placed, x, y, rotation). A row is placed when its first entry is
    positive. Connectors are characters: ' ' is blank, '*' is the wildcard,
    and 'd', 'x', 'm' are diamond, cross and moon. The upper-case letters
    are the golden versions. A room's four connectors face the slots
    (x, y - 1), (x + 1, y), (x, y + 1) and (x - 1, y), in that order. */
module DenseCastle {
  import opened Outcomes
  import Rooms

  const AllConnections: string := " *dDxXmM"

  /** A catalogue entry: connectors in slot order, unrotated. */
  type Connections = s: string | |s| == 4 witness "    "

  /** The room catalogue, keyed by room id. */
  type Catalog = map<int, Connections>

  const Rotations: set<int> := {0, 90, 180, 270}

  datatype Row = Row(placed: int, x: int, y: int, rotation: int)

  datatype Castle = Castle(throne: int, rows: seq<Row>)

  const Cleared: Row := Row(0, 0, 0, 0)

  predicate ValidCatalog(cat: Catalog) {
    forall id :: id in cat ==> forall i :: 0 <= i < 4 ==> cat[id][i] in AllConnections
  }

  /** Row index `id` as numpy reads it: negative ids count from the end. */
  function RowIndex(c: Castle, id: int): (r: Result<nat>)
    ensures r.Ok? <==> -|c.rows| <= id < |c.rows|
    ensures r.Ok? ==> r.value < |c.rows| && (if id < 0 then r.value == id + |c.rows| else r.value == id)
    ensures r.Err? ==> r.error == IndexError
  {
    if id < -|c.rows| || id >= |c.rows| then Err(IndexError)
    else if id < 0 then Ok(id + |c.rows|)
    else Ok(id)
  }

  /** `Castle(throne_room_id)`: checks the catalogue, then builds one row
      per catalogue entry plus one, with only the throne placed, at the
      origin with rotation 0. */
  function Init(cat: Catalog, throne: int): (r: Result<Castle>)
    ensures r.Ok? <==> ValidCatalog(cat) && throne in cat && -(|cat| + 1) <= throne < |cat| + 1
    ensures !ValidCatalog(cat) ==> r == Err(RuntimeError)
    ensures ValidCatalog(cat) && throne !in cat ==> r == Err(KeyError)
    ensures r.Ok? ==> r.value.throne == throne && |r.value.rows| == |cat| + 1
    ensures r.Ok? ==> forall j :: 0 <= j < |r.value.rows| ==>
              r.value.rows[j] == if j == RowIndex(r.value, throne).value then Row(1, 0, 0, 0) else Cleared
  {
    if !ValidCatalog(cat) then Err(RuntimeError)
    else if throne !in cat then Err(KeyError)
    else
      var blank := Castle(throne, seq(|cat| + 1, _ => Cleared));
      var idx :- RowIndex(blank, throne);
      Ok(Castle(throne, blank.rows[idx := Row(1, 0, 0, 0)]))
  }

  /** `get_rotated_connections`: the connectors of `id` turned clockwise by
      `rotation` degrees. The connector of slot i moves to slot i + k
      (mod 4) after k quarter turns. */
  function Rotated(cat: Catalog, id: int, rotation: int): (r: Result<Connections>)
    ensures r.Ok? <==> rotation in Rotations && id in cat
    ensures rotation !in Rotations ==> r == Err(RuntimeError)
    ensures rotation in Rotations && id !in cat ==> r == Err(KeyError)
    ensures r.Ok? ==> forall i :: 0 <= i < 4 ==> r.value[(i + rotation / 90) % 4] == cat[id][i]
  {
    if rotation !in Rotations then Err(RuntimeError)
    else if id !in cat then Err(KeyError)
    else
      var s := cat[id];
      var k := rotation / 90;
      TurnMovesSlots(s, rotation, k);
      Ok(s[4 - k..] + s[..4 - k])
  }

  /** Turning by k quarter turns moves slot i to slot i + k (mod 4). */
  lemma TurnMovesSlots(s: Connections, rotation: int, k: int)
    requires rotation in Rotations && k == rotation / 90
    ensures 0 <= k < 4
    ensures forall i :: 0 <= i < 4 ==> (s[4 - k..] + s[..4 - k])[(i + rotation / 90) % 4] == s[i]
  {
    var t := s[4 - k..] + s[..4 - k];
    if rotation == 0 {
      assert k == 0 && t == s;
    } else if rotation == 90 {
      assert k == 1 && t == [s[3], s[0], s[1], s[2]];
    } else if rotation == 180 {
      assert k == 2 && t == [s[2], s[3], s[0], s[1]];
    } else {
      assert k == 3 && t == [s[1], s[2], s[3], s[0]];
    }
  }

  /** The neighbour coordinate of slot `i`. */
  function AdjCoord(x: int, y: int, i: nat): (int, int) {
    if i == 0 then (x, y - 1)
    else if i == 1 then (x + 1, y)
    else if i == 2 then (x, y + 1)
    else (x - 1, y)
  }

  /** `adj_coords.index(q)`, when the first `slots` entries of `adj_coords`
      are the neighbour coordinates. `None` stands for the caught
      `ValueError`. */
  function SlotOf(x: int, y: int, q: (int, int), slots: nat): (r: Option<nat>)
    requires slots <= 4
    ensures r.Some? ==> r.value < slots && AdjCoord(x, y, r.value) == q
    ensures r.None? ==> forall i :: 0 <= i < slots ==> AdjCoord(x, y, i) != q
  {
    if 0 < slots && q == (x, y - 1) then Some(0)
    else if 1 < slots && q == (x + 1, y) then Some(1)
    else if 2 < slots && q == (x, y + 1) then Some(2)
    else if 3 < slots && q == (x - 1, y) then Some(3)
    else None
  }

  /** Slots face each other in pairs: q is on slot i of p exactly when p is
      on the opposite slot of q. */
  lemma SlotOfOpposite(p: (int, int), q: (int, int), i: nat)
    requires i < 4
    ensures SlotOf(p.0, p.1, q, 4) == Some(i) <==> SlotOf(q.0, q.1, p, 4) == Some((i + 2) % 4)
    ensures SlotOf(p.0, p.1, p, 4).None?
  {
  }

  /** The connectors of a room at (x, y) with connectors `conns` and of the
      placed room in row `k` that face each other, when row `k` is on a
      neighbour slot and its rotation resolves. */
  function Facing(cat: Catalog, rows: seq<Row>, conns: Connections, x: int, y: int, slots: nat, k: nat): Option<(char, char)>
    requires slots <= 4 && k < |rows|
  {
    if rows[k].placed <= 0 then None
    else match SlotOf(x, y, (rows[k].x, rows[k].y), slots)
      case None => None
      case Some(i) =>
        match Rotated(cat, k, rows[k].rotation)
        case Err(_) => None
        case Ok(adj) => Some((conns[i], adj[(i + 2) % 4]))
  }

  /** Row `k` faces the room with two live connectors. */
  predicate Linked(cat: Catalog, rows: seq<Row>, conns: Connections, x: int, y: int, slots: nat, k: nat)
    requires slots <= 4 && k < |rows|
  {
    var f := Facing(cat, rows, conns, x, y, slots, k);
    f.Some? && f.value.0 != ' ' && f.value.1 != ' '
  }

  /** Row `k` faces the room with exactly one live connector. */
  predicate Dangling(cat: Catalog, rows: seq<Row>, conns: Connections, x: int, y: int, slots: nat, k: nat)
    requires slots <= 4 && k < |rows|
  {
    var f := Facing(cat, rows, conns, x, y, slots, k);
    f.Some? && (f.value.0 != ' ') != (f.value.1 != ' ')
  }

  /** Every placed row names a catalogue entry and a valid rotation, and
      catalogue ids are row indices, never negative. */
  ghost predicate Wf(cat: Catalog, c: Castle) {
    && (forall id :: id in cat ==> 0 <= id)
    && (forall k :: 0 <= k < |c.rows| && c.rows[k].placed > 0 ==> k in cat && c.rows[k].rotation in Rotations)
  }

  /** The loop of `place` from row `k`: placed rows in id order. A row on a
      neighbour slot links (two live connectors), is skipped (two blanks) or
      ends the loop as a dangling edge. The result says whether the
      placement is accepted: no dangling edge and at least one link. */
  function PlaceScan(cat: Catalog, rows: seq<Row>, conns: Connections, x: int, y: int, slots: nat, k: nat, linked: bool): Result<bool>
    requires slots <= 4 && k <= |rows|
    decreases |rows| - k
  {
    if k == |rows| then Ok(linked)
    else if rows[k].placed <= 0 then PlaceScan(cat, rows, conns, x, y, slots, k + 1, linked)
    else match SlotOf(x, y, (rows[k].x, rows[k].y), slots)
      case None => PlaceScan(cat, rows, conns, x, y, slots, k + 1, linked)
      case Some(i) =>
        var adj :- Rotated(cat, k, rows[k].rotation);
        if conns[i] != ' ' && adj[(i + 2) % 4] != ' ' then PlaceScan(cat, rows, conns, x, y, slots, k + 1, true)
        else if conns[i] != ' ' || adj[(i + 2) % 4] != ' ' then Ok(false)
        else PlaceScan(cat, rows, conns, x, y, slots, k + 1, linked)
  }

  /** One iteration of the `place` loop on a well-formed castle. */
  lemma PlaceScanStep(cat: Catalog, c: Castle, conns: Connections, x: int, y: int, slots: nat, k: nat, linked: bool)
    requires Wf(cat, c) && slots <= 4 && k < |c.rows|
    ensures PlaceScan(cat, c.rows, conns, x, y, slots, k, linked) ==
              if Dangling(cat, c.rows, conns, x, y, slots, k) then Ok(false)
              else PlaceScan(cat, c.rows, conns, x, y, slots, k + 1, linked || Linked(cat, c.rows, conns, x, y, slots, k))
  {
  }

  /** Some row from `k` on links to the room. */
  predicate SomeLinked(cat: Catalog, rows: seq<Row>, conns: Connections, x: int, y: int, slots: nat, k: nat)
    requires slots <= 4
  {
    exists j :: k <= j < |rows| && Linked(cat, rows, conns, x, y, slots, j)
  }

  /** No row from `k` on dangles against the room. */
  predicate NoneDangling(cat: Catalog, rows: seq<Row>, conns: Connections, x: int, y: int, slots: nat, k: nat)
    requires slots <= 4
  {
    forall j :: k <= j < |rows| ==> !Dangling(cat, rows, conns, x, y, slots, j)
  }

  lemma SplitFirstRow(cat: Catalog, rows: seq<Row>, conns: Connections, x: int, y: int, slots: nat, k: nat)
    requires slots <= 4 && k < |rows|
    ensures SomeLinked(cat, rows, conns, x, y, slots, k) <==>
              Linked(cat, rows, conns, x, y, slots, k) || SomeLinked(cat, rows, conns, x, y, slots, k + 1)
    ensures NoneDangling(cat, rows, conns, x, y, slots, k) <==>
              !Dangling(cat, rows, conns, x, y, slots, k) && NoneDangling(cat, rows, conns, x, y, slots, k + 1)
  {
    if SomeLinked(cat, rows, conns, x, y, slots, k) && !Linked(cat, rows, conns, x, y, slots, k) {
      var j :| k <= j < |rows| && Linked(cat, rows, conns, x, y, slots, j);
      assert k + 1 <= j;
    }
  }

  /** On a well-formed castle the loop never fails, and it accepts exactly
      when no later row dangles and some row links. */
  lemma {:induction false} PlaceScanSpec(cat: Catalog, c: Castle, conns: Connections, x: int, y: int, slots: nat, k: nat, linked: bool)
    requires Wf(cat, c) && slots <= 4 && k <= |c.rows|
    ensures PlaceScan(cat, c.rows, conns, x, y, slots, k, linked) ==
              Ok((linked || SomeLinked(cat, c.rows, conns, x, y, slots, k)) && NoneDangling(cat, c.rows, conns, x, y, slots, k))
    decreases |c.rows| - k
  {
    if k < |c.rows| {
      var here := Linked(cat, c.rows, conns, x, y, slots, k);
      PlaceScanStep(cat, c, conns, x, y, slots, k, linked);
      PlaceScanSpec(cat, c, conns, x, y, slots, k + 1, linked || here);
      SplitFirstRow(cat, c.rows, conns, x, y, slots, k);
    }
  }

  /** The placement rule: no dangling edge and at least one link. */
  predicate Fits(cat: Catalog, rows: seq<Row>, conns: Connections, x: int, y: int, slots: nat)
    requires slots <= 4
  {
    SomeLinked(cat, rows, conns, x, y, slots, 0) && NoneDangling(cat, rows, conns, x, y, slots, 0)
  }

  /** `place`, with `slots` neighbour coordinates in the scanned list. */
  function PlaceWith(slots: nat, cat: Catalog, c: Castle, id: int, x: int, y: int, rotation: int): (r: Result<Castle>)
    requires slots <= 4
    ensures r.Ok? ==> RowIndex(c, id).Ok? && c.rows[RowIndex(c, id).value].placed <= 0
    ensures r.Ok? ==> rotation in Rotations && id in cat
    ensures r.Ok? ==> r.value == Castle(c.throne, c.rows[RowIndex(c, id).value := Row(1, x, y, rotation)])
    ensures RowIndex(c, id).Ok? && c.rows[RowIndex(c, id).value].placed > 0 ==> r == Err(RuntimeError)
  {
    var idx :- RowIndex(c, id);
    if c.rows[idx].placed > 0 then Err(RuntimeError)
    else
      var conns :- Rotated(cat, id, rotation);
      var accepted :- PlaceScan(cat, c.rows, conns, x, y, slots, 0, false);
      if !accepted then Err(RuntimeError)
      else Ok(Castle(c.throne, c.rows[idx := Row(1, x, y, rotation)]))
  }

  /** `place` as written: `adj_coords` lists only three coordinates, so a
      room in the fourth slot, (x - 1, y), is never seen. */
  function PlaceAsWritten(cat: Catalog, c: Castle, id: int, x: int, y: int, rotation: int): Result<Castle> {
    PlaceWith(3, cat, c, id, x, y, rotation)
  }

  /** `place` with all four neighbour coordinates. */
  function Place(cat: Catalog, c: Castle, id: int, x: int, y: int, rotation: int): Result<Castle> {
    PlaceWith(4, cat, c, id, x, y, rotation)
  }

  /** On a well-formed castle, placement succeeds exactly when the row is in
      range and free, the rotation and id are known, and the room fits. */
  lemma PlaceCharacterised(slots: nat, cat: Catalog, c: Castle, id: int, x: int, y: int, rotation: int)
    requires Wf(cat, c) && slots <= 4
    ensures PlaceWith(slots, cat, c, id, x, y, rotation).Ok? <==>
              && RowIndex(c, id).Ok?
              && c.rows[RowIndex(c, id).value].placed <= 0
              && rotation in Rotations && id in cat
              && Fits(cat, c.rows, Rotated(cat, id, rotation).value, x, y, slots)
    ensures PlaceWith(slots, cat, c, id, x, y, rotation).Err? ==>
              PlaceWith(slots, cat, c, id, x, y, rotation).error in {IndexError, RuntimeError, KeyError}
  {
    if RowIndex(c, id).Ok? && c.rows[RowIndex(c, id).value].placed <= 0 && rotation in Rotations && id in cat {
      PlaceScanSpec(cat, c, Rotated(cat, id, rotation).value, x, y, slots, 0, false);
    }
  }

  /** Placing keeps the castle well-formed. */
  lemma PlacePreservesWf(slots: nat, cat: Catalog, c: Castle, id: int, x: int, y: int, rotation: int)
    requires Wf(cat, c) && slots <= 4 && PlaceWith(slots, cat, c, id, x, y, rotation).Ok?
    ensures Wf(cat, PlaceWith(slots, cat, c, id, x, y, rotation).value)
  {
  }

  /** `remove`: clears a placed row; `RuntimeError` when it is not placed. */
  function Remove(c: Castle, id: int): (r: Result<Castle>)
    ensures r.Ok? <==> RowIndex(c, id).Ok? && c.rows[RowIndex(c, id).value].placed != 0
    ensures r.Err? ==> r.error == if RowIndex(c, id).Ok? then RuntimeError else IndexError
    ensures r.Ok? ==> r.value.throne == c.throne && |r.value.rows| == |c.rows|
    ensures r.Ok? ==> forall j :: 0 <= j < |c.rows| ==>
              r.value.rows[j] == if j == RowIndex(c, id).value then Cleared else c.rows[j]
  {
    var idx :- RowIndex(c, id);
    if c.rows[idx].placed == 0 then Err(RuntimeError)
    else Ok(Castle(c.throne, c.rows[idx := Cleared]))
  }

  lemma RemovePreservesWf(cat: Catalog, c: Castle, id: int)
    requires Wf(cat, c) && Remove(c, id).Ok?
    ensures Wf(cat, Remove(c, id).value)
  {
  }

  /** Removing a room just placed on a cleared row restores the castle. */
  lemma PlaceThenRemove(slots: nat, cat: Catalog, c: Castle, id: int, x: int, y: int, rotation: int)
    requires slots <= 4 && PlaceWith(slots, cat, c, id, x, y, rotation).Ok?
    requires c.rows[RowIndex(c, id).value] == Cleared
    ensures Remove(PlaceWith(slots, cat, c, id, x, y, rotation).value, id) == Ok(c)
  {
    var c' := PlaceWith(slots, cat, c, id, x, y, rotation).value;
    assert RowIndex(c', id) == RowIndex(c, id);
    assert c'.rows[RowIndex(c, id).value := Cleared] == c.rows;
  }

  /** The loop of `is_outer_room` from row `k`: counts linked rows. */
  function LinkCount(cat: Catalog, rows: seq<Row>, conns: Connections, x: int, y: int, slots: nat, k: nat): Result<nat>
    requires slots <= 4 && k <= |rows|
    decreases |rows| - k
  {
    if k == |rows| then Ok(0)
    else if rows[k].placed <= 0 then LinkCount(cat, rows, conns, x, y, slots, k + 1)
    else match SlotOf(x, y, (rows[k].x, rows[k].y), slots)
      case None => LinkCount(cat, rows, conns, x, y, slots, k + 1)
      case Some(i) =>
        var adj :- Rotated(cat, k, rows[k].rotation);
        var rest :- LinkCount(cat, rows, conns, x, y, slots, k + 1);
        Ok(if conns[i] != ' ' && adj[(i + 2) % 4] != ' ' then rest + 1 else rest)
  }

  /** The rows from `k` on that link to the room. */
  function LinkedFrom(cat: Catalog, rows: seq<Row>, conns: Connections, x: int, y: int, slots: nat, k: nat): set<nat>
    requires slots <= 4
  {
    set j: nat | k <= j < |rows| && Linked(cat, rows, conns, x, y, slots, j)
  }

  /** One iteration of the `is_outer_room` loop on a well-formed castle. */
  lemma LinkCountStep(cat: Catalog, c: Castle, conns: Connections, x: int, y: int, slots: nat, k: nat)
    requires Wf(cat, c) && slots <= 4 && k < |c.rows|
    ensures LinkCount(cat, c.rows, conns, x, y, slots, k).Ok? <==> LinkCount(cat, c.rows, conns, x, y, slots, k + 1).Ok?
    ensures LinkCount(cat, c.rows, conns, x, y, slots, k).Ok? ==>
              LinkCount(cat, c.rows, conns, x, y, slots, k).value ==
              LinkCount(cat, c.rows, conns, x, y, slots, k + 1).value +
              if Linked(cat, c.rows, conns, x, y, slots, k) then 1 else 0
  {
  }

  /** Peeling the lowest index off a bounded set comprehension. */
  lemma CountStep(p: nat -> bool, k: nat, n: nat)
    requires k < n
    ensures |set j: nat | k <= j < n && p(j)| == |set j: nat | k + 1 <= j < n && p(j)| + if p(k) then 1 else 0
  {
    var here := set j: nat | k <= j < n && p(j);
    var later := set j: nat | k + 1 <= j < n && p(j);
    var first: set<nat> := if p(k) then {k} else {};
    assert here == later + first;
    assert later !! first;
  }

  lemma LinkedFromStep(cat: Catalog, rows: seq<Row>, conns: Connections, x: int, y: int, slots: nat, k: nat)
    requires slots <= 4 && k < |rows|
    ensures |LinkedFrom(cat, rows, conns, x, y, slots, k)| ==
              |LinkedFrom(cat, rows, conns, x, y, slots, k + 1)| + if Linked(cat, rows, conns, x, y, slots, k) then 1 else 0
  {
    var p := (j: nat) => j < |rows| && Linked(cat, rows, conns, x, y, slots, j);
    CountStep(p, k, |rows|);
    assert LinkedFrom(cat, rows, conns, x, y, slots, k) == set j: nat | k <= j < |rows| && p(j);
    assert LinkedFrom(cat, rows, conns, x, y, slots, k + 1) == set j: nat | k + 1 <= j < |rows| && p(j);
  }

  /** On a well-formed castle the count is the number of linked rows. */
  lemma {:induction false} LinkCountSpec(cat: Catalog, c: Castle, conns: Connections, x: int, y: int, slots: nat, k: nat)
    requires Wf(cat, c) && slots <= 4 && k <= |c.rows|
    ensures LinkCount(cat, c.rows, conns, x, y, slots, k) == Ok(|LinkedFrom(cat, c.rows, conns, x, y, slots, k)|)
    decreases |c.rows| - k
  {
    if k < |c.rows| {
      LinkCountStep(cat, c, conns, x, y, slots, k);
      LinkCountSpec(cat, c, conns, x, y, slots, k + 1);
      LinkedFromStep(cat, c.rows, conns, x, y, slots, k);
    }
  }

  /** `is_outer_room`, with `slots` neighbour coordinates scanned. */
  function IsOuterRoomWith(slots: nat, cat: Catalog, c: Castle, id: int): (r: Result<bool>)
    requires slots <= 4
    ensures RowIndex(c, id).Ok? && c.rows[RowIndex(c, id).value].placed == 0 ==> r == Err(RuntimeError)
    ensures RowIndex(c, id).Err? ==> r == Err(IndexError)
  {
    var idx :- RowIndex(c, id);
    if c.rows[idx].placed == 0 then Err(RuntimeError)
    else
      var row := c.rows[idx];
      var conns :- Rotated(cat, id, row.rotation);
      var count :- LinkCount(cat, c.rows, conns, row.x, row.y, slots, 0);
      Ok(count == 1)
  }

  function IsOuterRoom(cat: Catalog, c: Castle, id: int): Result<bool> {
    IsOuterRoomWith(4, cat, c, id)
  }

  /** A placed room of a well-formed castle is outer exactly when one row
      links to it. */
  lemma IsOuterRoomCharacterised(cat: Catalog, c: Castle, id: int)
    requires Wf(cat, c) && 0 <= id < |c.rows| && c.rows[id].placed > 0
    ensures IsOuterRoom(cat, c, id).Ok?
    ensures IsOuterRoom(cat, c, id).value <==>
              exists j :: LinkedFrom(cat, c.rows, Rotated(cat, id, c.rows[id].rotation).value,
                                     c.rows[id].x, c.rows[id].y, 4, 0) == {j}
  {
    var conns := Rotated(cat, id, c.rows[id].rotation).value;
    var linked := LinkedFrom(cat, c.rows, conns, c.rows[id].x, c.rows[id].y, 4, 0);
    LinkCountSpec(cat, c, conns, c.rows[id].x, c.rows[id].y, 4, 0);
    if |linked| == 1 {
      var j :| j in linked;
      assert |linked - {j}| == 0;
      assert linked == {j};
    }
  }

  /** What a composite operation leaves behind: the castle and the
      exception that escapes, if any. */
  datatype Outcome = Outcome(castle: Castle, error: Option<Exception>)

  /** A primitive step inside a composite operation: an exception leaves
      the castle as it was before the step. */
  function Step(c: Castle, r: Result<Castle>): Outcome {
    match r
    case Ok(c') => Outcome(c', None)
    case Err(e) => Outcome(c, Some(e))
  }

  /** `except RuntimeError: self._data = backup_data; raise RuntimeError`:
      a `RuntimeError` restores the backup; other exceptions pass through
      with whatever state the body reached. */
  function Guarded(backup: Castle, o: Outcome): (r: Outcome)
    ensures r.error == o.error
    ensures r.error == Some(RuntimeError) ==> r.castle == backup
    ensures r.error != Some(RuntimeError) ==> r == o
  {
    if o.error == Some(RuntimeError) then Outcome(backup, Some(RuntimeError)) else o
  }

  /** Python's reading of a row index, without the range check. */
  function Norm(n: nat, id: int): int {
    if id < 0 then id + n else id
  }

  /** The rows a sequence of ids names. */
  function Targets(n: nat, ids: seq<int>): set<int> {
    set i | i in ids :: Norm(n, i)
  }

  /** The loop of `discard`: each room must be outer when its turn comes,
      and is then removed. */
  function DiscardSteps(cat: Catalog, c: Castle, ids: seq<int>): Outcome
    decreases |ids|
  {
    if |ids| == 0 then Outcome(c, None)
    else match IsOuterRoom(cat, c, ids[0])
      case Err(e) => Outcome(c, Some(e))
      case Ok(outer) =>
        if !outer then Outcome(c, Some(RuntimeError))
        else match Remove(c, ids[0])
          case Err(e) => Outcome(c, Some(e))
          case Ok(c') => DiscardSteps(cat, c', ids[1..])
  }

  /** When the loop completes, exactly the named rows are cleared. */
  lemma {:induction false} DiscardStepsClears(cat: Catalog, c: Castle, ids: seq<int>)
    requires DiscardSteps(cat, c, ids).error.None?
    ensures var d := DiscardSteps(cat, c, ids).castle;
            d.throne == c.throne && |d.rows| == |c.rows| &&
            forall j :: 0 <= j < |c.rows| ==> d.rows[j] == if j in Targets(|c.rows|, ids) then Cleared else c.rows[j]
    decreases |ids|
  {
    if |ids| > 0 {
      var c' := Remove(c, ids[0]).value;
      DiscardStepsClears(cat, c', ids[1..]);
      assert Targets(|c.rows|, ids) == {Norm(|c.rows|, ids[0])} + Targets(|c.rows|, ids[1..]) by {
        assert ids == [ids[0]] + ids[1..];
      }
    }
  }

  /** The castle left once the rooms `ids` are removed in turn, or the
      exception of the first removal that fails. */
  function RemovedInTurn(c: Castle, ids: seq<int>): Result<Castle>
    decreases |ids|
  {
    if |ids| == 0 then Ok(c)
    else
      var c' :- Remove(c, ids[0]);
      RemovedInTurn(c', ids[1..])
  }

  /** Room `ids[k]` is outer in the castle the first `k` removals leave. */
  predicate OuterInTurn(cat: Catalog, c: Castle, ids: seq<int>, k: nat)
    requires k < |ids|
  {
    RemovedInTurn(c, ids[..k]).Ok? && IsOuterRoom(cat, RemovedInTurn(c, ids[..k]).value, ids[k]) == Ok(true)
  }

  /** After the first removal, the later turns are the turns of the rest. */
  lemma OuterInTurnShift(cat: Catalog, c: Castle, ids: seq<int>, k: nat)
    requires 0 < k < |ids| && Remove(c, ids[0]).Ok?
    ensures OuterInTurn(cat, c, ids, k) == OuterInTurn(cat, Remove(c, ids[0]).value, ids[1..], k - 1)
  {
    assert ids[..k][0] == ids[0] && ids[..k][1..] == ids[1..][..k - 1];
    assert ids[k] == ids[1..][k - 1];
  }

  /** The loop of `discard` completes exactly when every room is outer when
      its turn comes. */
  lemma {:induction false} DiscardStepsSucceeds(cat: Catalog, c: Castle, ids: seq<int>)
    ensures DiscardSteps(cat, c, ids).error.None? <==> forall k :: 0 <= k < |ids| ==> OuterInTurn(cat, c, ids, k)
    decreases |ids|
  {
    if |ids| > 0 {
      assert ids[..0] == [];
      if IsOuterRoom(cat, c, ids[0]) == Ok(true) {
        var c' := Remove(c, ids[0]).value;
        DiscardStepsSucceeds(cat, c', ids[1..]);
        forall k | 0 < k < |ids|
          ensures OuterInTurn(cat, c, ids, k) == OuterInTurn(cat, c', ids[1..], k - 1)
        {
          OuterInTurnShift(cat, c, ids, k);
        }
        if forall k :: 0 <= k < |ids| - 1 ==> OuterInTurn(cat, c', ids[1..], k) {
          assert forall k :: 0 <= k < |ids| ==> OuterInTurn(cat, c, ids, k) by {
            forall k | 0 < k < |ids| ensures OuterInTurn(cat, c, ids, k) {
              assert OuterInTurn(cat, c', ids[1..], k - 1);
            }
          }
        } else {
          var k :| 0 <= k < |ids| - 1 && !OuterInTurn(cat, c', ids[1..], k);
          assert !OuterInTurn(cat, c, ids, k + 1);
        }
      } else {
        assert !OuterInTurn(cat, c, ids, 0);
      }
    }
  }

  /** `discard`: removes the rooms in turn, each of which must be outer
      when its turn comes. A `RuntimeError` restores the castle. */
  function Discard(cat: Catalog, c: Castle, ids: seq<int>): (r: Outcome)
    ensures r.error.None? <==> forall k :: 0 <= k < |ids| ==> OuterInTurn(cat, c, ids, k)
    ensures r.error == Some(RuntimeError) ==> r.castle == c
    ensures r.error.None? ==> r.castle.throne == c.throne && |r.castle.rows| == |c.rows|
    ensures r.error.None? ==> forall j :: 0 <= j < |c.rows| ==>
              r.castle.rows[j] == if j in Targets(|c.rows|, ids) then Cleared else c.rows[j]
    ensures |ids| > 0 && IsOuterRoom(cat, c, ids[0]) == Ok(false) ==> r == Outcome(c, Some(RuntimeError))
  {
    var steps := DiscardSteps(cat, c, ids);
    DiscardStepsSucceeds(cat, c, ids);
    if steps.error.None? then
      DiscardStepsClears(cat, c, ids);
      steps
    else Guarded(c, steps)
  }

  /** `swap` as written: after both removals `place` receives one argument
      too many (`*backup_data[id_a][1:]` spreads x, y and the stored
      rotation before `rot_a`), so `TypeError` escapes the
      `except RuntimeError` with both rooms removed. */
  function SwapAsWritten(cat: Catalog, c: Castle, a: int, b: int, rotA: int, rotB: int): Outcome {
    var removed := Guarded(c, Step(c, Remove(c, a)));
    if removed.error.Some? then removed
    else
      var bothRemoved := Guarded(c, Step(removed.castle, Remove(removed.castle, b)));
      if bothRemoved.error.Some? then bothRemoved
      else Outcome(bothRemoved.castle, Some(TypeError))
  }

  /** As written, `swap` never swaps: whenever both rooms can be removed,
      the call fails with `TypeError` and leaves both rooms removed. */
  lemma SwapAsWrittenNeverSwaps(cat: Catalog, c: Castle, a: int, b: int, rotA: int, rotB: int)
    requires Remove(c, a).Ok? && Remove(Remove(c, a).value, b).Ok?
    ensures SwapAsWritten(cat, c, a, b, rotA, rotB) ==
              Outcome(Remove(Remove(c, a).value, b).value, Some(TypeError))
    ensures SwapAsWritten(cat, c, a, b, rotA, rotB).castle.rows[RowIndex(c, a).value].placed == 0
    ensures SwapAsWritten(cat, c, a, b, rotA, rotB).castle.rows[RowIndex(c, b).value].placed == 0
  {
  }

  /** `swap` as intended: room `b` goes to `a`'s cell with `rotA` and room
      `a` to `b`'s cell with `rotB`. A `RuntimeError` restores the castle. */
  function Swap(cat: Catalog, c: Castle, a: int, b: int, rotA: int, rotB: int): (r: Outcome)
    ensures r.error == Some(RuntimeError) ==> r.castle == c
    ensures r.error.None? <==>
              && Remove(c, a).Ok? && Remove(Remove(c, a).value, b).Ok?
              && var ia, ib := RowIndex(c, a).value, RowIndex(c, b).value;
              && var bothRemoved := Remove(Remove(c, a).value, b).value;
              && Place(cat, bothRemoved, b, c.rows[ia].x, c.rows[ia].y, rotA).Ok?
              && Place(cat, Place(cat, bothRemoved, b, c.rows[ia].x, c.rows[ia].y, rotA).value,
                       a, c.rows[ib].x, c.rows[ib].y, rotB).Ok?
    ensures r.error.None? ==>
              && RowIndex(c, a).Ok? && RowIndex(c, b).Ok?
              && var ia, ib := RowIndex(c, a).value, RowIndex(c, b).value;
              && ia != ib
              && r.castle.throne == c.throne && |r.castle.rows| == |c.rows|
              && r.castle.rows[ib] == Row(1, c.rows[ia].x, c.rows[ia].y, rotA)
              && r.castle.rows[ia] == Row(1, c.rows[ib].x, c.rows[ib].y, rotB)
              && forall j :: 0 <= j < |c.rows| && j != ia && j != ib ==> r.castle.rows[j] == c.rows[j]
  {
    var removed := Guarded(c, Step(c, Remove(c, a)));
    if removed.error.Some? then removed
    else
      var bothRemoved := Guarded(c, Step(removed.castle, Remove(removed.castle, b)));
      if bothRemoved.error.Some? then bothRemoved
      else
        var ia, ib := RowIndex(c, a).value, RowIndex(c, b).value;
        var first := Guarded(c, Step(bothRemoved.castle,
                       Place(cat, bothRemoved.castle, b, c.rows[ia].x, c.rows[ia].y, rotA)));
        if first.error.Some? then first
        else Guarded(c, Step(first.castle, Place(cat, first.castle, a, c.rows[ib].x, c.rows[ib].y, rotB)))
  }

  /** `rotate`, re-placing the room at `(x, y)` read from the castle after
      its removal (`fromBackup` false, as written) or before it. */
  function RotateWith(fromBackup: bool, cat: Catalog, c: Castle, id: int, rotation: int): (r: Outcome)
    ensures r.error == Some(RuntimeError) ==> r.castle == c
    ensures r.error.None? <==>
              && RowIndex(c, id).Ok? && c.rows[RowIndex(c, id).value].placed != 0
              && var i := RowIndex(c, id).value;
              && Place(cat, Remove(c, id).value, id, if fromBackup then c.rows[i].x else 0,
                       if fromBackup then c.rows[i].y else 0, rotation).Ok?
    ensures r.error.None? ==>
              && RowIndex(c, id).Ok?
              && var i := RowIndex(c, id).value;
              && c.rows[i].placed != 0
              && r.castle.throne == c.throne && |r.castle.rows| == |c.rows|
              && r.castle.rows[i] == (if fromBackup then Row(1, c.rows[i].x, c.rows[i].y, rotation) else Row(1, 0, 0, rotation))
              && forall j :: 0 <= j < |c.rows| && j != i ==> r.castle.rows[j] == c.rows[j]
  {
    match RowIndex(c, id)
    case Err(e) => Outcome(c, Some(e))
    case Ok(i) =>
      if c.rows[i].placed == 0 then Outcome(c, Some(RuntimeError))
      else
        var removed := Remove(c, id).value;
        var at := if fromBackup then c.rows[i] else removed.rows[i];
        Guarded(c, Step(removed, Place(cat, removed, id, at.x, at.y, rotation)))
  }

  function RotateAsWritten(cat: Catalog, c: Castle, id: int, rotation: int): Outcome {
    RotateWith(false, cat, c, id, rotation)
  }

  function Rotate(cat: Catalog, c: Castle, id: int, rotation: int): Outcome {
    RotateWith(true, cat, c, id, rotation)
  }

  /** As written, a rotation that succeeds always lands the room on the
      origin, so a room elsewhere never stays in its cell. */
  lemma RotateAsWrittenMovesRoom(cat: Catalog, c: Castle, id: int, rotation: int)
    requires RotateAsWritten(cat, c, id, rotation).error.None?
    ensures var i := RowIndex(c, id).value;
            var after := RotateAsWritten(cat, c, id, rotation).castle.rows[i];
            after.x == 0 && after.y == 0 &&
            (c.rows[i].x != 0 || c.rows[i].y != 0 ==> (after.x, after.y) != (c.rows[i].x, c.rows[i].y))
  {
  }

  /** `move`: an outer room is lifted and placed at `(x, y)`. A failed
      placement restores the castle. */
  function Move(cat: Catalog, c: Castle, id: int, x: int, y: int, rotation: int): (r: Outcome)
    ensures r.error == Some(RuntimeError) ==> r.castle == c
    ensures r.error.None? <==>
              && RowIndex(c, id).Ok? && c.rows[RowIndex(c, id).value].placed != 0
              && IsOuterRoom(cat, c, id) == Ok(true)
              && Place(cat, Remove(c, id).value, id, x, y, rotation).Ok?
    ensures r.error.None? ==>
              && RowIndex(c, id).Ok?
              && var i := RowIndex(c, id).value;
              && IsOuterRoom(cat, c, id) == Ok(true)
              && r.castle.throne == c.throne && |r.castle.rows| == |c.rows|
              && r.castle.rows[i] == Row(1, x, y, rotation)
              && forall j :: 0 <= j < |c.rows| && j != i ==> r.castle.rows[j] == c.rows[j]
  {
    match RowIndex(c, id)
    case Err(e) => Outcome(c, Some(e))
    case Ok(i) =>
      if c.rows[i].placed == 0 then Outcome(c, Some(RuntimeError))
      else match IsOuterRoom(cat, c, id)
        case Err(e) => Outcome(c, Some(e))
        case Ok(outer) =>
          if !outer then Outcome(c, Some(RuntimeError))
          else
            var removed := Remove(c, id).value;
            Guarded(c, Step(removed, Place(cat, removed, id, x, y, rotation)))
  }

  /** A catalogue of two all-wildcard rooms, the throne being id 1. */
  function WildCatalog(): Catalog {
    map[1 := "****", 2 := "****"]
  }

  /** The throne alone, at the origin. */
  function ThroneOnly(): Castle {
    Castle(1, [Cleared, Row(1, 0, 0, 0), Cleared])
  }

  lemma WildCatalogInit()
    ensures Init(WildCatalog(), 1) == Ok(ThroneOnly())
  {
    var cat := WildCatalog();
    assert cat.Keys == {1, 2};
    assert |cat| == 2;
    assert Init(cat, 1).value.rows == ThroneOnly().rows;
  }

  lemma WildRotations()
    ensures Rotated(WildCatalog(), 1, 0) == Ok("****")
    ensures Rotated(WildCatalog(), 2, 0) == Ok("****")
  {
    var cat := WildCatalog();
    assert cat[1][4..] + cat[1][..4] == "****";
    assert cat[2][4..] + cat[2][..4] == "****";
  }

  /** The scans for room 2 at (1, 0): with three slots nothing is
      adjacent; with four, the throne links on slot 3. */
  lemma WildScans()
    ensures PlaceScan(WildCatalog(), ThroneOnly().rows, "****", 1, 0, 3, 0, false) == Ok(false)
    ensures PlaceScan(WildCatalog(), ThroneOnly().rows, "****", 1, 0, 4, 0, false) == Ok(true)
  {
    var cat, rows := WildCatalog(), ThroneOnly().rows;
    WildRotations();
    assert SlotOf(1, 0, (0, 0), 3).None?;
    assert SlotOf(1, 0, (0, 0), 4) == Some(3);
    assert PlaceScan(cat, rows, "****", 1, 0, 3, 2, false) == Ok(false);
    assert PlaceScan(cat, rows, "****", 1, 0, 3, 1, false) == Ok(false);
    assert PlaceScan(cat, rows, "****", 1, 0, 4, 2, true) == Ok(true);
    assert PlaceScan(cat, rows, "****", 1, 0, 4, 1, false) == Ok(true);
  }

  /** As written, room 2 cannot be placed right of the throne: the throne
      sits on its fourth slot, (x - 1, y), which the scan never checks.
      With all four slots the placement succeeds. */
  lemma PlaceAsWrittenMissesLeftNeighbour()
    ensures Init(WildCatalog(), 1) == Ok(ThroneOnly())
    ensures PlaceAsWritten(WildCatalog(), ThroneOnly(), 2, 1, 0, 0) == Err(RuntimeError)
    ensures Place(WildCatalog(), ThroneOnly(), 2, 1, 0, 0) ==
              Ok(Castle(1, [Cleared, Row(1, 0, 0, 0), Row(1, 1, 0, 0)]))
  {
    WildCatalogInit();
    WildRotations();
    WildScans();
    var c := ThroneOnly();
    assert RowIndex(c, 2) == Ok(2);
    assert c.rows[2 := Row(1, 1, 0, 0)] == [Cleared, Row(1, 0, 0, 0), Row(1, 1, 0, 0)];
  }

  /** The link a pair of facing connectors makes in `num_connections`.
      Checked in order: two wildcards, then diamond, cross and moon, each
      with the wildcard standing in; `None` counts nothing. */
  datatype Kind = DiamondLink | CrossLink | MoonLink | Wild

  function LinkKind(a: char, b: char): Option<Kind> {
    if a == '*' && b == '*' then Some(Wild)
    else if a in "dD*" && b in "dD*" then Some(DiamondLink)
    else if a in "xX*" && b in "xX*" then Some(CrossLink)
    else if a in "mM*" && b in "mM*" then Some(MoonLink)
    else None
  }

  /** A link reads the same from both ends, and blanks never link. */
  lemma LinkKindSymmetric(a: char, b: char)
    ensures LinkKind(a, b) == LinkKind(b, a)
    ensures a == ' ' ==> LinkKind(a, b).None?
  {
  }

  datatype Tally = Tally(diamond: nat, cross: nat, moon: nat, wild: nat)

  const NoLinks: Tally := Tally(0, 0, 0, 0)

  function Count(t: Tally, kind: Kind): nat {
    match kind
    case DiamondLink => t.diamond
    case CrossLink => t.cross
    case MoonLink => t.moon
    case Wild => t.wild
  }

  /** Adds one to the count of `k`, if there is a link. */
  function Bump(t: Tally, k: Option<Kind>): (r: Tally)
    ensures forall kind :: Count(r, kind) == Count(t, kind) + if k == Some(kind) then 1 else 0
  {
    match k
    case None => t
    case Some(DiamondLink) => t.(diamond := t.diamond + 1)
    case Some(CrossLink) => t.(cross := t.cross + 1)
    case Some(MoonLink) => t.(moon := t.moon + 1)
    case Some(Wild) => t.(wild := t.wild + 1)
  }

  /** The inner loop of `num_connections` for a room with connectors
      `conns` at (x, y), from row `k`. */
  function InnerTally(cat: Catalog, rows: seq<Row>, conns: Connections, x: int, y: int, slots: nat, k: nat, t: Tally): Result<Tally>
    requires slots <= 4 && k <= |rows|
    decreases |rows| - k
  {
    if k == |rows| then Ok(t)
    else if rows[k].placed <= 0 then InnerTally(cat, rows, conns, x, y, slots, k + 1, t)
    else match SlotOf(x, y, (rows[k].x, rows[k].y), slots)
      case None => InnerTally(cat, rows, conns, x, y, slots, k + 1, t)
      case Some(i) =>
        var adj :- Rotated(cat, k, rows[k].rotation);
        InnerTally(cat, rows, conns, x, y, slots, k + 1, Bump(t, LinkKind(conns[i], adj[(i + 2) % 4])))
  }

  /** The outer loop of `num_connections`, from row `j`. */
  function OuterTally(cat: Catalog, rows: seq<Row>, slots: nat, j: nat, t: Tally): Result<Tally>
    requires slots <= 4 && j <= |rows|
    decreases |rows| - j
  {
    if j == |rows| then Ok(t)
    else if rows[j].placed <= 0 then OuterTally(cat, rows, slots, j + 1, t)
    else
      var conns :- Rotated(cat, j, rows[j].rotation);
      var t' :- InnerTally(cat, rows, conns, rows[j].x, rows[j].y, slots, 0, t);
      OuterTally(cat, rows, slots, j + 1, t')
  }

  /** `num_connections`: each link is met from both of its rooms, so every
      count is halved (floor division). */
  function NumConnectionsWith(slots: nat, cat: Catalog, c: Castle): (r: Result<Tally>)
    requires slots <= 4
    ensures r.Ok? <==> OuterTally(cat, c.rows, slots, 0, NoLinks).Ok?
    ensures r.Ok? ==> forall kind :: 2 * Count(r.value, kind) <= Count(OuterTally(cat, c.rows, slots, 0, NoLinks).value, kind) <= 2 * Count(r.value, kind) + 1
  {
    var t :- OuterTally(cat, c.rows, slots, 0, NoLinks);
    Ok(Tally(t.diamond / 2, t.cross / 2, t.moon / 2, t.wild / 2))
  }

  function NumConnections(cat: Catalog, c: Castle): Result<Tally> {
    NumConnectionsWith(4, cat, c)
  }

  /** The link placed row `j` makes with row `k`, seen from `j`. */
  function EdgeKind(cat: Catalog, rows: seq<Row>, slots: nat, j: nat, k: nat): Option<Kind>
    requires slots <= 4 && j < |rows| && k < |rows|
  {
    if rows[j].placed <= 0 then None
    else match Rotated(cat, j, rows[j].rotation)
      case Err(_) => None
      case Ok(conns) =>
        var f := Facing(cat, rows, conns, rows[j].x, rows[j].y, slots, k);
        if f.None? then None else LinkKind(f.value.0, f.value.1)
  }

  /** Rows from `k` on that row `j` links to with `kind`. */
  function RowEdges(cat: Catalog, rows: seq<Row>, slots: nat, kind: Kind, j: nat, k: nat): set<nat>
    requires slots <= 4 && j < |rows|
  {
    set k': nat | k <= k' < |rows| && EdgeKind(cat, rows, slots, j, k') == Some(kind)
  }

  /** Ordered pairs of rows, the first from `j` on, linked with `kind`. */
  function Edges(cat: Catalog, rows: seq<Row>, slots: nat, kind: Kind, j: nat): set<(nat, nat)>
    requires slots <= 4
  {
    set j': nat, k': nat | j <= j' < |rows| && k' < |rows| && EdgeKind(cat, rows, slots, j', k') == Some(kind) :: (j', k')
  }

  lemma InnerTallyStep(cat: Catalog, c: Castle, slots: nat, j: nat, conns: Connections, k: nat, t: Tally)
    requires Wf(cat, c) && slots <= 4 && j < |c.rows| && k < |c.rows| && c.rows[j].placed > 0
    requires conns == Rotated(cat, j, c.rows[j].rotation).value
    ensures InnerTally(cat, c.rows, conns, c.rows[j].x, c.rows[j].y, slots, k, t) ==
            InnerTally(cat, c.rows, conns, c.rows[j].x, c.rows[j].y, slots, k + 1, Bump(t, EdgeKind(cat, c.rows, slots, j, k)))
  {
  }

  lemma RowEdgesStep(cat: Catalog, rows: seq<Row>, slots: nat, kind: Kind, j: nat, k: nat)
    requires slots <= 4 && j < |rows| && k < |rows|
    ensures |RowEdges(cat, rows, slots, kind, j, k)| ==
              |RowEdges(cat, rows, slots, kind, j, k + 1)| + if EdgeKind(cat, rows, slots, j, k) == Some(kind) then 1 else 0
  {
    var p := (k': nat) => k' < |rows| && EdgeKind(cat, rows, slots, j, k') == Some(kind);
    CountStep(p, k, |rows|);
    assert RowEdges(cat, rows, slots, kind, j, k) == set k': nat | k <= k' < |rows| && p(k');
    assert RowEdges(cat, rows, slots, kind, j, k + 1) == set k': nat | k + 1 <= k' < |rows| && p(k');
  }

  /** No row lies past the last one. */
  lemma RowEdgesEnd(cat: Catalog, rows: seq<Row>, slots: nat, kind: Kind, j: nat)
    requires slots <= 4 && j < |rows|
    ensures RowEdges(cat, rows, slots, kind, j, |rows|) == {}
  {
  }

  /** The inner loop adds, for each kind, the number of rows row `j`
      links to with that kind. */
  lemma {:induction false} InnerTallySpec(cat: Catalog, c: Castle, slots: nat, kind: Kind, j: nat, conns: Connections, k: nat, t: Tally)
    requires Wf(cat, c) && slots <= 4 && j < |c.rows| && k <= |c.rows| && c.rows[j].placed > 0
    requires conns == Rotated(cat, j, c.rows[j].rotation).value
    ensures InnerTally(cat, c.rows, conns, c.rows[j].x, c.rows[j].y, slots, k, t).Ok?
    ensures Count(InnerTally(cat, c.rows, conns, c.rows[j].x, c.rows[j].y, slots, k, t).value, kind) ==
              Count(t, kind) + |RowEdges(cat, c.rows, slots, kind, j, k)|
    decreases |c.rows| - k
  {
    if k < |c.rows| {
      var t' := Bump(t, EdgeKind(cat, c.rows, slots, j, k));
      assert Wf(cat, c);
      InnerTallySpec(cat, c, slots, kind, j, conns, k + 1, t');
      InnerTallyCombine(cat, c, slots, kind, j, conns, k, t, t');
    } else {
      RowEdgesEnd(cat, c.rows, slots, kind, j);
    }
  }

  /** One step of the inner loop: the claim from row `k + 1` on, for the
      tally bumped by row `k`, gives the claim from row `k`. */
  lemma InnerTallyCombine(cat: Catalog, c: Castle, slots: nat, kind: Kind, j: nat, conns: Connections, k: nat, t: Tally, t': Tally)
    requires Wf(cat, c) && slots <= 4 && j < |c.rows| && k < |c.rows| && c.rows[j].placed > 0
    requires conns == Rotated(cat, j, c.rows[j].rotation).value
    requires t' == Bump(t, EdgeKind(cat, c.rows, slots, j, k))
    requires InnerTally(cat, c.rows, conns, c.rows[j].x, c.rows[j].y, slots, k + 1, t').Ok?
    requires Count(InnerTally(cat, c.rows, conns, c.rows[j].x, c.rows[j].y, slots, k + 1, t').value, kind) ==
               Count(t', kind) + |RowEdges(cat, c.rows, slots, kind, j, k + 1)|
    ensures InnerTally(cat, c.rows, conns, c.rows[j].x, c.rows[j].y, slots, k, t).Ok?
    ensures Count(InnerTally(cat, c.rows, conns, c.rows[j].x, c.rows[j].y, slots, k, t).value, kind) ==
              Count(t, kind) + |RowEdges(cat, c.rows, slots, kind, j, k)|
  {
    InnerTallyStep(cat, c, slots, j, conns, k, t);
    RowEdgesStep(cat, c.rows, slots, kind, j, k);
  }

  /** Pairing a fixed first component keeps the count. */
  lemma PairUp(j: nat, ks: set<nat>)
    ensures |set k: nat | k in ks :: (j, k)| == |ks|
    decreases |ks|
  {
    if ks != {} {
      var k :| k in ks;
      PairUp(j, ks - {k});
      var rest := set k': nat | k' in ks - {k} :: (j, k');
      assert (set k': nat | k' in ks :: (j, k')) == rest + {(j, k)};
      assert (j, k) !in rest;
      assert |ks| == |ks - {k}| + 1;
    }
  }

  /** Adding the pairs of a first component not yet present adds their count. */
  lemma AddRowCard(later: set<(nat, nat)>, j: nat, ks: set<nat>)
    requires forall e :: e in later ==> e.0 != j
    ensures |later + set k: nat | k in ks :: (j, k)| == |later| + |ks|
  {
    var first := set k: nat | k in ks :: (j, k);
    assert later !! first;
    PairUp(j, ks);
  }

  lemma EdgesStartAt(cat: Catalog, rows: seq<Row>, slots: nat, kind: Kind, j: nat)
    requires slots <= 4
    ensures forall e :: e in Edges(cat, rows, slots, kind, j) ==> e.0 >= j
  {
  }

  /** The pairs starting at row `j` are row `j`'s links. */
  lemma EdgesSplit(cat: Catalog, rows: seq<Row>, slots: nat, kind: Kind, j: nat)
    requires slots <= 4 && j < |rows|
    ensures Edges(cat, rows, slots, kind, j) ==
              Edges(cat, rows, slots, kind, j + 1) + set k: nat | k in RowEdges(cat, rows, slots, kind, j, 0) :: (j, k)
  {
    var here := Edges(cat, rows, slots, kind, j);
    var later := Edges(cat, rows, slots, kind, j + 1);
    var ks := RowEdges(cat, rows, slots, kind, j, 0);
    var first := set k: nat | k in ks :: (j, k);
    forall e | e in here ensures e in later || e in first {
      var j': nat, k': nat :| j <= j' < |rows| && k' < |rows| && EdgeKind(cat, rows, slots, j', k') == Some(kind) && e == (j', k');
      if j' == j {
        assert k' in ks;
      } else {
        assert e in later;
      }
    }
    forall e | e in later ensures e in here {
      var j': nat, k': nat :| j + 1 <= j' < |rows| && k' < |rows| && EdgeKind(cat, rows, slots, j', k') == Some(kind) && e == (j', k');
    }
    forall e | e in first ensures e in here {
      var k :| k in ks && e == (j, k);
    }
  }

  lemma EdgesStep(cat: Catalog, rows: seq<Row>, slots: nat, kind: Kind, j: nat)
    requires slots <= 4 && j < |rows|
    ensures |Edges(cat, rows, slots, kind, j)| ==
              |Edges(cat, rows, slots, kind, j + 1)| + |RowEdges(cat, rows, slots, kind, j, 0)|
  {
    EdgesSplit(cat, rows, slots, kind, j);
    EdgesStartAt(cat, rows, slots, kind, j + 1);
    AddRowCard(Edges(cat, rows, slots, kind, j + 1), j, RowEdges(cat, rows, slots, kind, j, 0));
  }

  /** On a well-formed castle the loops never fail, and each raw count is
      the number of ordered pairs of rows linked with that kind. */
  lemma {:induction false} OuterTallySpec(cat: Catalog, c: Castle, slots: nat, kind: Kind, j: nat, t: Tally)
    requires Wf(cat, c) && slots <= 4 && j <= |c.rows|
    ensures var r := OuterTally(cat, c.rows, slots, j, t);
            r.Ok? && Count(r.value, kind) == Count(t, kind) + |Edges(cat, c.rows, slots, kind, j)|
    decreases |c.rows| - j
  {
    if j < |c.rows| {
      EdgesStep(cat, c.rows, slots, kind, j);
      if c.rows[j].placed <= 0 {
        assert RowEdges(cat, c.rows, slots, kind, j, 0) == {};
        OuterTallySpec(cat, c, slots, kind, j + 1, t);
      } else {
        var conns := Rotated(cat, j, c.rows[j].rotation).value;
        InnerTallySpec(cat, c, slots, kind, j, conns, 0, t);
        var t' := InnerTally(cat, c.rows, conns, c.rows[j].x, c.rows[j].y, slots, 0, t).value;
        OuterTallySpec(cat, c, slots, kind, j + 1, t');
      }
    }
  }

  /** With all four slots, two rooms see the same link from either end,
      and no room links to itself. */
  lemma EdgeKindSymmetric(cat: Catalog, c: Castle, j: nat, k: nat)
    requires Wf(cat, c) && j < |c.rows| && k < |c.rows|
    ensures EdgeKind(cat, c.rows, 4, j, k) == EdgeKind(cat, c.rows, 4, k, j)
    ensures EdgeKind(cat, c.rows, 4, j, j).None?
  {
    EdgeKindSelf(cat, c, j);
    if c.rows[j].placed > 0 && c.rows[k].placed > 0 {
      EdgeKindPlacedSymmetric(cat, c, j, k);
    }
  }

  /** No room links to itself: a room is never beside its own cell. */
  lemma EdgeKindSelf(cat: Catalog, c: Castle, j: nat)
    requires Wf(cat, c) && j < |c.rows|
    ensures EdgeKind(cat, c.rows, 4, j, j).None?
  {
    var pj := (c.rows[j].x, c.rows[j].y);
    SlotOfOpposite(pj, pj, 0);
  }

  /** Two placed rooms see the same link from either end. */
  lemma EdgeKindPlacedSymmetric(cat: Catalog, c: Castle, j: nat, k: nat)
    requires Wf(cat, c) && j < |c.rows| && k < |c.rows|
    requires c.rows[j].placed > 0 && c.rows[k].placed > 0
    ensures EdgeKind(cat, c.rows, 4, j, k) == EdgeKind(cat, c.rows, 4, k, j)
  {
    var rows := c.rows;
    var pj, pk := (rows[j].x, rows[j].y), (rows[k].x, rows[k].y);
    var cj, ck := Rotated(cat, j, rows[j].rotation), Rotated(cat, k, rows[k].rotation);
    assert cj.Ok? && ck.Ok?;
    match SlotOf(pj.0, pj.1, pk, 4)
    case Some(i) =>
      var i' := (i + 2) % 4;
      SlotOfOpposite(pj, pk, i);
      assert (i' + 2) % 4 == i;
      EdgeKindFacing(cat, rows, j, k, i, cj.value, ck.value);
      EdgeKindFacing(cat, rows, k, j, i', ck.value, cj.value);
      LinkKindSymmetric(cj.value[i], ck.value[i']);
    case None =>
      match SlotOf(pk.0, pk.1, pj, 4)
      case Some(i') =>
        SlotOfOpposite(pk, pj, i');
      case None =>
        EdgeKindApart(cat, rows, j, k);
        EdgeKindApart(cat, rows, k, j);
  }

  /** Two placed rooms on facing slots link as their facing connectors do. */
  lemma EdgeKindFacing(cat: Catalog, rows: seq<Row>, j: nat, k: nat, i: nat, cj: Connections, ck: Connections)
    requires j < |rows| && k < |rows| && rows[j].placed > 0 && rows[k].placed > 0
    requires Rotated(cat, j, rows[j].rotation) == Ok(cj) && Rotated(cat, k, rows[k].rotation) == Ok(ck)
    requires SlotOf(rows[j].x, rows[j].y, (rows[k].x, rows[k].y), 4) == Some(i)
    ensures i < 4 && EdgeKind(cat, rows, 4, j, k) == LinkKind(cj[i], ck[(i + 2) % 4])
  {
    assert Facing(cat, rows, cj, rows[j].x, rows[j].y, 4, k) == Some((cj[i], ck[(i + 2) % 4]));
  }

  /** A room that is not beside another does not link to it. */
  lemma EdgeKindApart(cat: Catalog, rows: seq<Row>, j: nat, k: nat)
    requires j < |rows| && k < |rows|
    requires SlotOf(rows[j].x, rows[j].y, (rows[k].x, rows[k].y), 4).None?
    ensures EdgeKind(cat, rows, 4, j, k).None?
  {
  }

  /** The pairs whose first row has the lower index. */
  function Forward(edges: set<(nat, nat)>): set<(nat, nat)> {
    set e | e in edges && e.0 < e.1
  }

  function Backward(edges: set<(nat, nat)>): set<(nat, nat)> {
    set e | e in edges && e.0 > e.1
  }

  /** Swapping the components of every pair keeps the count. */
  lemma SwapImage(edges: set<(nat, nat)>)
    ensures |set e | e in edges :: (e.1, e.0)| == |edges|
    decreases |edges|
  {
    if edges != {} {
      var e :| e in edges;
      var rest := edges - {e};
      SwapImage(rest);
      var restImage := set x | x in rest :: (x.1, x.0);
      assert (set x | x in edges :: (x.1, x.0)) == restImage + {(e.1, e.0)};
      assert (e.1, e.0) !in restImage;
    }
  }

  lemma ForwardMirrorsBackward(cat: Catalog, c: Castle, kind: Kind)
    requires Wf(cat, c)
    ensures var edges := Edges(cat, c.rows, 4, kind, 0);
            (set e | e in Forward(edges) :: (e.1, e.0)) == Backward(edges)
  {
    var edges := Edges(cat, c.rows, 4, kind, 0);
    forall e | e in Forward(edges) ensures (e.1, e.0) in Backward(edges) {
      EdgeKindSymmetric(cat, c, e.0, e.1);
    }
    forall e | e in Backward(edges) ensures e in (set x | x in Forward(edges) :: (x.1, x.0)) {
      EdgeKindSymmetric(cat, c, e.0, e.1);
      assert (e.1, e.0) in Forward(edges);
    }
  }

  /** Every link is counted twice by the loops, once from each room. */
  lemma EdgesCountedTwice(cat: Catalog, c: Castle, kind: Kind)
    requires Wf(cat, c)
    ensures |Edges(cat, c.rows, 4, kind, 0)| == 2 * |Forward(Edges(cat, c.rows, 4, kind, 0))|
  {
    var edges := Edges(cat, c.rows, 4, kind, 0);
    forall e | e in edges ensures e.0 != e.1 {
      EdgeKindSymmetric(cat, c, e.0, e.1);
    }
    assert edges == Forward(edges) + Backward(edges);
    assert Forward(edges) !! Backward(edges);
    ForwardMirrorsBackward(cat, c, kind);
    SwapImage(Forward(edges));
  }

  /** On a well-formed castle `num_connections` never raises, whether it
      scans three neighbour slots or four. */
  lemma NumConnectionsWithSucceeds(slots: nat, cat: Catalog, c: Castle)
    requires Wf(cat, c) && slots <= 4
    ensures NumConnectionsWith(slots, cat, c).Ok?
  {
    OuterTallySpec(cat, c, slots, Wild, 0, NoLinks);
  }

  lemma NumConnectionsKind(cat: Catalog, c: Castle, kind: Kind)
    requires Wf(cat, c)
    ensures NumConnections(cat, c).Ok?
    ensures Count(NumConnections(cat, c).value, kind) == |Forward(Edges(cat, c.rows, 4, kind, 0))|
  {
    OuterTallySpec(cat, c, 4, kind, 0, NoLinks);
    EdgesCountedTwice(cat, c, kind);
    var t := OuterTally(cat, c.rows, 4, 0, NoLinks).value;
    assert Count(NumConnections(cat, c).value, kind) == Count(t, kind) / 2;
  }

  /** On a well-formed castle `num_connections` returns, for each kind, the
      number of adjacent pairs of rooms linked with that kind. */
  lemma NumConnectionsCountsLinks(cat: Catalog, c: Castle)
    requires Wf(cat, c)
    ensures NumConnections(cat, c) == Ok(Tally(
              |Forward(Edges(cat, c.rows, 4, DiamondLink, 0))|,
              |Forward(Edges(cat, c.rows, 4, CrossLink, 0))|,
              |Forward(Edges(cat, c.rows, 4, MoonLink, 0))|,
              |Forward(Edges(cat, c.rows, 4, Wild, 0))|))
  {
    NumConnectionsKind(cat, c, DiamondLink);
    NumConnectionsKind(cat, c, CrossLink);
    NumConnectionsKind(cat, c, MoonLink);
    NumConnectionsKind(cat, c, Wild);
  }

  /** The connector of disastle/rooms.py that each character stands for. */
  function ToConnection(ch: char): Rooms.Connection {
    match ch
    case '*' => Rooms.Any
    case 'd' => Rooms.Diamond
    case 'D' => Rooms.GoldDiamond
    case 'x' => Rooms.Cross
    case 'X' => Rooms.GoldCross
    case 'm' => Rooms.Moon
    case 'M' => Rooms.GoldMoon
    case _ => Rooms.Blank
  }

  /** The tally a link of disastle/rooms.py feeds; golden kinds count as
      their plain kind. */
  function KindOf(conn: Rooms.Connection): Option<Kind> {
    match Rooms.ToBase(conn)
    case Blank => None
    case Any => Some(Wild)
    case Diamond => Some(DiamondLink)
    case Cross => Some(CrossLink)
    case _ => Some(MoonLink)
  }

  /** The two implementations tally links alike: `num_connections` counts a
      pair of characters exactly as `link_connection` classifies the
      corresponding connectors. */
  lemma LinkKindAgreesWithRooms(a: char, b: char)
    requires a in AllConnections && b in AllConnections
    ensures LinkKind(a, b) == KindOf(Rooms.LinkConnection(ToConnection(a), ToConnection(b)))
  {
  }

  /** `to_json_obj`: the table as a list of four-integer rows. */
  function ToJson(c: Castle): (j: seq<seq<int>>)
    ensures |j| == |c.rows|
    ensures forall k :: 0 <= k < |j| ==> j[k] == [c.rows[k].placed, c.rows[k].x, c.rows[k].y, c.rows[k].rotation]
  {
    seq(|c.rows|, k requires 0 <= k < |c.rows| => [c.rows[k].placed, c.rows[k].x, c.rows[k].y, c.rows[k].rotation])
  }

  /** `from_json_obj`: a fresh castle for the throne, with its checks, whose
      table is then replaced by the rows given. Rows that are not all four
      long are refused with `ValueError`. */
  function FromJson(cat: Catalog, throne: int, j: seq<seq<int>>): (r: Result<Castle>)
    ensures r.Ok? <==> Init(cat, throne).Ok? && forall k :: 0 <= k < |j| ==> |j[k]| == 4
    ensures r.Ok? ==> r.value.throne == throne && ToJson(r.value) == j
  {
    var _ :- Init(cat, throne);
    if exists k :: 0 <= k < |j| && |j[k]| != 4 then Err(ValueError)
    else
      var c := Castle(throne, seq(|j|, k requires 0 <= k < |j| => Row(j[k][0], j[k][1], j[k][2], j[k][3])));
      assert forall k :: 0 <= k < |j| ==> j[k] == [j[k][0], j[k][1], j[k][2], j[k][3]];
      assert ToJson(c) == j;
      Ok(c)
  }

  /** Saving then loading a castle gives it back. */
  lemma JsonRoundTrip(cat: Catalog, c: Castle)
    requires Init(cat, c.throne).Ok?
    ensures FromJson(cat, c.throne, ToJson(c)) == Ok(c)
  {
    var c' := FromJson(cat, c.throne, ToJson(c)).value;
    assert c'.rows == c.rows;
  }

  /** A fresh castle is well-formed over a catalogue of non-negative ids. */
  lemma InitWf(cat: Catalog, throne: int)
    requires Init(cat, throne).Ok? && forall id :: id in cat ==> 0 <= id
    ensures Wf(cat, Init(cat, throne).value)
  {
  }

  lemma {:induction false} DiscardStepsPreservesWf(cat: Catalog, c: Castle, ids: seq<int>)
    requires Wf(cat, c)
    ensures Wf(cat, DiscardSteps(cat, c, ids).castle)
    decreases |ids|
  {
    if |ids| > 0 && IsOuterRoom(cat, c, ids[0]) == Ok(true) && Remove(c, ids[0]).Ok? {
      RemovePreservesWf(cat, c, ids[0]);
      DiscardStepsPreservesWf(cat, Remove(c, ids[0]).value, ids[1..]);
    }
  }

  /** Every composite operation leaves a well-formed castle well-formed,
      whether it succeeds, rolls back or fails part way. */
  lemma DiscardPreservesWf(cat: Catalog, c: Castle, ids: seq<int>)
    requires Wf(cat, c)
    ensures Wf(cat, Discard(cat, c, ids).castle)
  {
    DiscardStepsPreservesWf(cat, c, ids);
  }

  lemma SwapPreservesWf(cat: Catalog, c: Castle, a: int, b: int, rotA: int, rotB: int)
    requires Wf(cat, c)
    ensures Wf(cat, Swap(cat, c, a, b, rotA, rotB).castle)
  {
    if Remove(c, a).Ok? {
      var c1 := Remove(c, a).value;
      RemovePreservesWf(cat, c, a);
      if Remove(c1, b).Ok? {
        var c2 := Remove(c1, b).value;
        RemovePreservesWf(cat, c1, b);
        var ia := RowIndex(c, a).value;
        if Place(cat, c2, b, c.rows[ia].x, c.rows[ia].y, rotA).Ok? {
          PlacePreservesWf(4, cat, c2, b, c.rows[ia].x, c.rows[ia].y, rotA);
          var c3 := Place(cat, c2, b, c.rows[ia].x, c.rows[ia].y, rotA).value;
          var ib := RowIndex(c, b).value;
          if Place(cat, c3, a, c.rows[ib].x, c.rows[ib].y, rotB).Ok? {
            PlacePreservesWf(4, cat, c3, a, c.rows[ib].x, c.rows[ib].y, rotB);
          }
        }
      }
    }
  }

  lemma RotatePreservesWf(cat: Catalog, c: Castle, id: int, rotation: int)
    requires Wf(cat, c)
    ensures Wf(cat, Rotate(cat, c, id, rotation).castle)
  {
    if Remove(c, id).Ok? {
      var c1 := Remove(c, id).value;
      RemovePreservesWf(cat, c, id);
      var i := RowIndex(c, id).value;
      if Place(cat, c1, id, c.rows[i].x, c.rows[i].y, rotation).Ok? {
        PlacePreservesWf(4, cat, c1, id, c.rows[i].x, c.rows[i].y, rotation);
      }
    }
  }

  lemma MovePreservesWf(cat: Catalog, c: Castle, id: int, x: int, y: int, rotation: int)
    requires Wf(cat, c)
    ensures Wf(cat, Move(cat, c, id, x, y, rotation).castle)
  {
    if Remove(c, id).Ok? {
      RemovePreservesWf(cat, c, id);
      if Place(cat, Remove(c, id).value, id, x, y, rotation).Ok? {
        PlacePreservesWf(4, cat, Remove(c, id).value, id, x, y, rotation);
      }
    }
  }
}

=== FILE: disasters.dfy ===
/** Disaster and catastrophe cards of disastle/disasters.py.

    A card carries one damage formula per base connector kind. A formula is
    a function of x, the number of disasters already resolved. Damage is
    computed with exact reals in place of Python floats. */
module Disasters {
  import opened Outcomes
  import opened Text

  datatype Formula = Const(k: int) | X | OnePlusX | TwoX

  function Eval(f: Formula, x: int): int {
    match f
    case Const(k) => k
    case X => x
    case OnePlusX => 1 + x
    case TwoX => 2 * x
  }

  /** The encoding the card lists use for each formula. */
  function ShowFormula(f: Formula): string {
    match f
    case Const(k) => ShowInt(k)
    case X => "x"
    case OnePlusX => "1+x"
    case TwoX => "2x"
  }

  /** `translate_damage`: an integer numeral is a constant formula, and
      "x", "1+x" and "2x" are the three scaling ones. Anything else raises
      `ValueError` when the card is built. */
  function TranslateDamage(s: string): (r: Result<Formula>)
    ensures r.Ok? <==> IsNumeral(s) || s == "x" || s == "1+x" || s == "2x"
    ensures r.Err? ==> r.error == ValueError
    ensures r.Ok? && IsNumeral(s) ==> r.value.Const? && ParseInt(s) == Ok(r.value.k)
    ensures r.Ok? && !IsNumeral(s) ==> ShowFormula(r.value) == s
  {
    match ParseInt(s)
    case Ok(k) => Ok(Const(k))
    case Err(_) =>
      if s == "x" then Ok(X)
      else if s == "1+x" then Ok(OnePlusX)
      else if s == "2x" then Ok(TwoX)
      else Err(ValueError)
  }

  /** Every formula is read back from its encoding. */
  lemma TranslateShow(f: Formula)
    ensures TranslateDamage(ShowFormula(f)) == Ok(f)
  {
    if f.Const? {
      ParseShowInt(f.k);
    }
  }

  /** A disaster card, or a catastrophe card when `catastrophe` holds. */
  datatype Card = Card(name: string, diamond: Formula, cross: Formula, moon: Formula, catastrophe: bool)

  /** `Disaster.make` (`catastrophe` false) and `Catastrophe.make`: the
      three encodings are translated in the order diamond, cross, moon. */
  function MakeCard(name: string, diamond: string, cross: string, moon: string, catastrophe: bool): (r: Result<Card>)
    ensures r.Ok? <==> TranslateDamage(diamond).Ok? && TranslateDamage(cross).Ok? && TranslateDamage(moon).Ok?
    ensures r.Err? ==> r.error == ValueError
    ensures r.Ok? ==> r.value == Card(name, TranslateDamage(diamond).value, TranslateDamage(cross).value,
                                      TranslateDamage(moon).value, catastrophe)
  {
    var d :- TranslateDamage(diamond);
    var c :- TranslateDamage(cross);
    var m :- TranslateDamage(moon);
    Ok(Card(name, d, c, m, catastrophe))
  }

  function Max0(v: real): real {
    if v > 0.0 then v else 0.0
  }

  /** `diamond_damage`, `cross_damage`, `moon_damage`: the formula's value,
      scaled, less the matching links of the castle, never below zero. */
  function ConnectorDamage(f: Formula, x: int, link: real, multiplier: real): (r: real)
    ensures r >= 0.0
    ensures r >= Eval(f, x) as real * multiplier - link
    ensures r == 0.0 || r == Eval(f, x) as real * multiplier - link
  {
    Max0(Eval(f, x) as real * multiplier - link)
  }

  datatype Damage = Damage(diamond: real, cross: real, moon: real, total: real)

  /** `Disaster.damage`: the three per-connector damages and their sum less
      the castle's damage reduction, never below zero. */
  function CardDamage(card: Card, x: int, links: (real, real, real), reduction: real, multiplier: real): (r: Damage)
    ensures r.diamond == ConnectorDamage(card.diamond, x, links.0, multiplier)
    ensures r.cross == ConnectorDamage(card.cross, x, links.1, multiplier)
    ensures r.moon == ConnectorDamage(card.moon, x, links.2, multiplier)
    ensures r.total == Max0(r.diamond + r.cross + r.moon - reduction)
    ensures r.diamond >= 0.0 && r.cross >= 0.0 && r.moon >= 0.0 && r.total >= 0.0
    ensures r.total >= r.diamond + r.cross + r.moon - reduction
    ensures r.total == 0.0 || r.total == r.diamond + r.cross + r.moon - reduction
    ensures reduction <= 0.0 ==> r.total >= r.diamond + r.cross + r.moon
    ensures reduction == 0.0 ==> r.total == r.diamond + r.cross + r.moon
  {
    var d := ConnectorDamage(card.diamond, x, links.0, multiplier);
    var c := ConnectorDamage(card.cross, x, links.1, multiplier);
    var m := ConnectorDamage(card.moon, x, links.2, multiplier);
    Damage(d, c, m, Max0(d + c + m - reduction))
  }

  /** More links never raise a connector's damage, and more reduction never
      raises the total. */
  lemma DamageMonotone(card: Card, x: int, links: (real, real, real), links': (real, real, real),
                       reduction: real, reduction': real, multiplier: real)
    requires links.0 <= links'.0 && links.1 <= links'.1 && links.2 <= links'.2
    requires reduction <= reduction'
    ensures CardDamage(card, x, links', reduction', multiplier).diamond <= CardDamage(card, x, links, reduction, multiplier).diamond
    ensures CardDamage(card, x, links', reduction', multiplier).cross <= CardDamage(card, x, links, reduction, multiplier).cross
    ensures CardDamage(card, x, links', reduction', multiplier).moon <= CardDamage(card, x, links, reduction, multiplier).moon
    ensures CardDamage(card, x, links', reduction', multiplier).total <= CardDamage(card, x, links, reduction, multiplier).total
  {
  }

  /** A "2x" connector with x = 3 against 4 links takes 2 damage. */
  lemma TwoXExample()
    ensures TranslateDamage("2x") == Ok(TwoX)
    ensures ConnectorDamage(TranslateDamage("2x").value, 3, 4.0, 1.0) == 2.0
  {
    assert !IsNumeral("2x") by {
      assert !IsDigit("2x"[1]);
    }
  }

  /** A catastrophe deals exactly the damage of a disaster built from the
      same encodings; only the pool it is drawn from differs. */
  lemma CatastropheDamagesLikeDisaster(name: string, diamond: string, cross: string, moon: string,
                                       x: int, links: (real, real, real), reduction: real, multiplier: real)
    ensures MakeCard(name, diamond, cross, moon, true).Ok? <==> MakeCard(name, diamond, cross, moon, false).Ok?
    ensures MakeCard(name, diamond, cross, moon, true).Ok? ==>
              && MakeCard(name, diamond, cross, moon, true).value.catastrophe
              && !MakeCard(name, diamond, cross, moon, false).value.catastrophe
              && CardDamage(MakeCard(name, diamond, cross, moon, true).value, x, links, reduction, multiplier) ==
                 CardDamage(MakeCard(name, diamond, cross, moon, false).value, x, links, reduction, multiplier)
  {
  }
}

=== FILE: distribution.dfy ===
/** Probability distributions of disastle_forecast.py.

    A distribution is a Python dict from a count to its weight. It is
    modelled as an association list in the dict's insertion order, with
    exact reals in place of floats. */
module Distribution {
  import opened Outcomes
  import opened Forecast

  type Dist = seq<(int, real)>

  /** The keys in insertion order. */
  function Keys(d: Dist): (ks: seq<int>)
    ensures |ks| == |d| && forall i :: 0 <= i < |d| ==> ks[i] == d[i].0
  {
    if |d| == 0 then [] else [d[0].0] + Keys(d[1..])
  }

  /** `sum(d.values())`, added left to right. */
  function Mass(d: Dist): real {
    if |d| == 0 then 0.0 else d[0].1 + Mass(d[1..])
  }

  predicate NonNegative(d: Dist) {
    forall i :: 0 <= i < |d| ==> d[i].1 >= 0.0
  }

  /** Indexing a `defaultdict(lambda: 0.0)`: the weight of the first entry
      with key `k`, or 0 when there is none. */
  function Lookup(d: Dist, k: int): (w: real)
    ensures k !in Keys(d) ==> w == 0.0
    ensures k in Keys(d) ==> exists i :: 0 <= i < |d| && d[i] == (k, w)
  {
    if |d| == 0 then 0.0
    else if d[0].0 == k then d[0].1
    else Lookup(d[1..], k)
  }

  /** `d[k] += w` on a `defaultdict(lambda: 0.0)`: an existing entry is
      updated where it stands, a new key goes at the end. */
  function AddTo(d: Dist, k: int, w: real): (r: Dist)
    ensures k in Keys(d) ==> Keys(r) == Keys(d)
    ensures k !in Keys(d) ==> Keys(r) == Keys(d) + [k]
  {
    if |d| == 0 then [(k, w)]
    else if d[0].0 == k then [(k, d[0].1 + w)] + d[1..]
    else [d[0]] + AddTo(d[1..], k, w)
  }

  /** Adding to a key adds to the total weight. */
  lemma {:induction false} AddToMass(d: Dist, k: int, w: real)
    ensures Mass(AddTo(d, k, w)) == Mass(d) + w
  {
    var r := AddTo(d, k, w);
    if |d| == 0 {
      assert Mass(r[1..]) == 0.0;
    } else if d[0].0 == k {
      assert r[1..] == d[1..];
    } else {
      AddToMass(d[1..], k, w);
      assert r[1..] == AddTo(d[1..], k, w);
    }
  }

  /** Adding to a key changes the weight under that key and no other. */
  lemma {:induction false} AddToLookup(d: Dist, k: int, w: real, j: int)
    ensures Lookup(AddTo(d, k, w), j) == Lookup(d, j) + (if j == k then w else 0.0)
  {
    var r := AddTo(d, k, w);
    if |d| > 0 && d[0].0 != k {
      AddToLookup(d[1..], k, w, j);
      assert r[1..] == AddTo(d[1..], k, w);
    }
  }

  /** Every weight divided by `total`. */
  function Scale(d: Dist, total: real): (r: Dist)
    requires total != 0.0
    ensures |r| == |d| && Keys(r) == Keys(d)
    ensures forall i :: 0 <= i < |d| ==> r[i].1 == d[i].1 / total
  {
    if |d| == 0 then [] else [(d[0].0, d[0].1 / total)] + Scale(d[1..], total)
  }

  lemma {:induction false} ScaleMass(d: Dist, total: real)
    requires total != 0.0
    ensures Mass(Scale(d, total)) == Mass(d) / total
  {
    if |d| > 0 {
      ScaleMass(d[1..], total);
      assert Scale(d, total)[1..] == Scale(d[1..], total);
    }
  }

  /** `to_distribution`: each weight divided by the total weight. A
      non-empty population of total weight 0 raises `ZeroDivisionError`. */
  function ToDistribution(population: Dist): (r: Result<Dist>)
    ensures r.Err? <==> |population| > 0 && Mass(population) == 0.0
    ensures r.Err? ==> r.error == ZeroDivisionError
    ensures r.Ok? ==> Keys(r.value) == Keys(population)
    ensures r.Ok? ==> forall i :: 0 <= i < |population| ==> r.value[i].1 == population[i].1 / Mass(population)
  {
    if |population| == 0 then Ok([])
    else if Mass(population) == 0.0 then Err(ZeroDivisionError)
    else Ok(Scale(population, Mass(population)))
  }

  /** A normalised non-empty population has total weight 1. */
  lemma ToDistributionMass(population: Dist)
    requires |population| > 0 && Mass(population) != 0.0
    ensures ToDistribution(population).Ok?
    ensures Mass(ToDistribution(population).value) == 1.0
  {
    var m := Mass(population);
    SelfQuotient(m);
    ScaleMass(population, m);
  }

  lemma SelfQuotient(m: real)
    requires m != 0.0
    ensures m / m == 1.0
  {
  }

  /** `expected_value`: the sum of key times weight. */
  function ExpectedValue(d: Dist): real {
    if |d| == 0 then 0.0 else d[0].0 as real * d[0].1 + ExpectedValue(d[1..])
  }

  /** All weight on one count `k`: the expected value is `k` times the
      total weight. */
  lemma {:induction false} ExpectedValueOneKey(d: Dist, k: int)
    requires OneKey(d, k)
    ensures ExpectedValue(d) == k as real * Mass(d)
  {
    if |d| > 0 {
      assert OneKey(d[1..], k);
      ExpectedValueOneKey(d[1..], k);
      assert k as real * Mass(d) == k as real * d[0].1 + k as real * Mass(d[1..]);
    }
  }

  /** Every entry of `d` has key `k`. */
  predicate OneKey(d: Dist, k: int) {
    forall i :: 0 <= i < |d| ==> d[i].0 == k
  }

  predicate KeysWithin(d: Dist, lo: int, hi: int) {
    forall i :: 0 <= i < |d| ==> lo <= d[i].0 <= hi
  }

  lemma {:induction false} ExpectedValueScaled(d: Dist, lo: int, hi: int)
    requires NonNegative(d) && KeysWithin(d, lo, hi)
    ensures lo as real * Mass(d) <= ExpectedValue(d) <= hi as real * Mass(d)
  {
    if |d| > 0 {
      ExpectedValueScaled(d[1..], lo, hi);
      BoundsStep(lo as real, hi as real, d[0].0 as real, d[0].1, Mass(d[1..]), ExpectedValue(d[1..]));
    }
  }

  /** One entry more keeps the weighted bounds. */
  lemma BoundsStep(lo: real, hi: real, k: real, w: real, m: real, ev: real)
    requires lo <= k <= hi && w >= 0.0
    requires lo * m <= ev <= hi * m
    ensures lo * (w + m) <= k * w + ev <= hi * (w + m)
  {
    assert lo * w <= k * w <= hi * w;
  }

  /** A probability distribution over counts in [lo, hi] has its expected
      value in [lo, hi]. */
  lemma ExpectedValueBounds(d: Dist, lo: int, hi: int)
    requires NonNegative(d) && KeysWithin(d, lo, hi) && Mass(d) == 1.0
    ensures lo as real <= ExpectedValue(d) <= hi as real
  {
    ExpectedValueScaled(d, lo, hi);
  }

  /** The total weight recorded under key `k`; for a dict, whose keys are
      distinct, this is `Lookup`. */
  function Weight(d: Dist, k: int): real {
    if |d| == 0 then 0.0 else (if d[0].0 == k then d[0].1 else 0.0) + Weight(d[1..], k)
  }

  /** `d[k] += v` for every entry `(k, v)` of `xs`, in order. */
  function AddAll(acc: Dist, xs: Dist): Dist
    decreases |xs|
  {
    if |xs| == 0 then acc else AddAll(AddTo(acc, xs[0].0, xs[0].1), xs[1..])
  }

  lemma {:induction false} AddAllMass(acc: Dist, xs: Dist)
    ensures Mass(AddAll(acc, xs)) == Mass(acc) + Mass(xs)
    decreases |xs|
  {
    if |xs| > 0 {
      AddToMass(acc, xs[0].0, xs[0].1);
      AddAllMass(AddTo(acc, xs[0].0, xs[0].1), xs[1..]);
    }
  }

  lemma {:induction false} AddAllLookup(acc: Dist, xs: Dist, j: int)
    ensures Lookup(AddAll(acc, xs), j) == Lookup(acc, j) + Weight(xs, j)
    decreases |xs|
  {
    if |xs| > 0 {
      AddToLookup(acc, xs[0].0, xs[0].1, j);
      AddAllLookup(AddTo(acc, xs[0].0, xs[0].1), xs[1..], j);
    }
  }

  /** Every key moved by `shift` and every weight multiplied by `w`. */
  function Shifted(child: Dist, shift: int, w: real): (r: Dist)
    ensures |r| == |child|
    ensures forall i :: 0 <= i < |child| ==> r[i].0 == shift + child[i].0
  {
    if |child| == 0 then [] else [(shift + child[0].0, w * child[0].1)] + Shifted(child[1..], shift, w)
  }

  lemma {:induction false} ShiftedMass(child: Dist, shift: int, w: real)
    ensures Mass(Shifted(child, shift, w)) == w * Mass(child)
  {
    if |child| > 0 {
      ShiftedMass(child[1..], shift, w);
      assert Shifted(child, shift, w)[1..] == Shifted(child[1..], shift, w);
    }
  }

  lemma {:induction false} ShiftedWeight(child: Dist, shift: int, w: real, j: int)
    ensures Weight(Shifted(child, shift, w), j) == w * Weight(child, j - shift)
  {
    if |child| > 0 {
      ShiftedWeight(child[1..], shift, w, j);
      assert Shifted(child, shift, w)[1..] == Shifted(child[1..], shift, w);
    }
  }

  /** The loops of `disaster_distribution` and `exploding_distribution`
      that add `w` times every entry of `child`, shifted by `shift`, into a
      `defaultdict(lambda: 0.0)`. */
  function Accumulate(acc: Dist, child: Dist, shift: int, w: real): Dist {
    AddAll(acc, Shifted(child, shift, w))
  }

  /** Accumulating adds `w` times the child's total weight. */
  lemma AccumulateMass(acc: Dist, child: Dist, shift: int, w: real)
    ensures Mass(Accumulate(acc, child, shift, w)) == Mass(acc) + w * Mass(child)
  {
    AddAllMass(acc, Shifted(child, shift, w));
    ShiftedMass(child, shift, w);
  }

  /** Accumulating adds, under every key `j`, `w` times the child's weight
      under `j - shift`, and nothing else. */
  lemma AccumulateLookup(acc: Dist, child: Dist, shift: int, w: real, j: int)
    ensures Lookup(Accumulate(acc, child, shift, w), j) == Lookup(acc, j) + w * Weight(child, j - shift)
  {
    AddAllLookup(acc, Shifted(child, shift, w), j);
    ShiftedWeight(child, shift, w, j);
  }

  /** One term of the `explodes == 1` branch: the chance that exactly `e`
      further marked cards follow, out of `subjects` marked among
      `objects`. */
  function OneTerm(e: nat, subjects: nat, objects: nat): real
    requires e <= subjects < objects
  {
    OneTermOf((objects - subjects) as real, Fact(subjects) as real, Fact(subjects - e) as real,
              Fact(objects - e - 1) as real, Fact(objects) as real)
  }

  /** `float(os) * a / b * c / d`, the operations left to right as in the
      source. */
  function OneTermOf(os: real, a: real, b: real, c: real, d: real): real
    requires b != 0.0 && d != 0.0
  {
    os * a / b * c / d
  }

  /** The entries `e, e + 1, ..., subjects` of the `explodes == 1` branch. */
  function OneTerms(e: nat, subjects: int, objects: int): (r: Dist)
    requires subjects < objects
    ensures |r| == if e <= subjects then subjects - e + 1 else 0
    ensures forall i :: 0 <= i < |r| ==> r[i].0 == e + i
    decreases subjects - e + 1
  {
    if e > subjects then []
    else [(e, OneTerm(e, subjects, objects))] + OneTerms(e + 1, subjects, objects)
  }

  /** The chance that the first `k` cards are all marked, which the terms
      from `k` on add up to. */
  function Marked(k: nat, subjects: nat, objects: nat): real
    requires k <= subjects <= objects
  {
    MarkedOf(Fact(subjects) as real, Fact(subjects - k) as real, Fact(objects - k) as real, Fact(objects) as real)
  }

  function MarkedOf(a: real, b: real, c: real, d: real): real
    requires b != 0.0 && d != 0.0
  {
    a / b * c / d
  }

  lemma TelescopeAlgebra(a: real, b: real, b1: real, c: real, c1: real, d: real, sk: real, ok: real, os: real)
    requires b1 > 0.0 && c1 > 0.0 && d > 0.0 && sk > 0.0
    requires b == Product(sk, b1) && c == Product(ok, c1) && os == ok - sk
    ensures b != 0.0
    ensures OneTermOf(os, a, b, c1, d) + MarkedOf(a, b1, c1, d) == MarkedOf(a, b, c, d)
  {
    assert a / b1 == sk * (a / b);
    assert os * a / b * c1 / d == os * (a / b) * c1 / d;
    assert a / b * c / d == ok * (a / b) * c1 / d;
  }

  lemma {:induction false} TelescopeStep(e: nat, subjects: nat, objects: nat)
    requires e < subjects < objects
    ensures OneTerm(e, subjects, objects) + Marked(e + 1, subjects, objects) == Marked(e, subjects, objects)
  {
    assert subjects - (e + 1) == subjects - e - 1 && objects - (e + 1) == objects - e - 1;
    TelescopeNamed(e, subjects, objects, Fact(subjects), Fact(subjects - e), Fact(subjects - e - 1),
                   Fact(objects - e), Fact(objects - e - 1), Fact(objects));
  }

  /** The telescoping step over named factorials. */
  lemma {:induction false} TelescopeNamed(e: nat, subjects: nat, objects: nat, a: nat, b: nat, b1: nat, c: nat, c1: nat, d: nat)
    requires e < subjects < objects
    requires a == Fact(subjects) && b == Fact(subjects - e) && b1 == Fact(subjects - e - 1)
    requires c == Fact(objects - e) && c1 == Fact(objects - e - 1) && d == Fact(objects)
    ensures b > 0 && b1 > 0 && d > 0
    ensures OneTermOf((objects - subjects) as real, a as real, b as real, c1 as real, d as real) +
            MarkedOf(a as real, b1 as real, c1 as real, d as real) == MarkedOf(a as real, b as real, c as real, d as real)
  {
    FactStepOf(subjects - e, b, b1);
    FactStepOf(objects - e, c, c1);
    TelescopeAlgebra(a as real, b as real, b1 as real, c as real, c1 as real, d as real,
                     (subjects - e) as real, (objects - e) as real, (objects - subjects) as real);
  }

  lemma LastTermAlgebra(a: real, c: real, c1: real, d: real, os: real)
    requires c1 > 0.0 && d > 0.0 && c == Product(os, c1)
    ensures OneTermOf(os, a, 1.0, c1, d) == MarkedOf(a, 1.0, c, d)
  {
  }

  lemma {:induction false} LastTerm(subjects: nat, objects: nat)
    requires subjects < objects
    ensures OneTerm(subjects, subjects, objects) == Marked(subjects, subjects, objects)
  {
    assert Fact(0) == 1;
    FactStepOf(objects - subjects, Fact(objects - subjects), Fact(objects - subjects - 1));
    LastTermAlgebra(Fact(subjects) as real, Fact(objects - subjects) as real, Fact(objects - subjects - 1) as real,
                    Fact(objects) as real, (objects - subjects) as real);
  }

  lemma {:induction false} OneTermsMass(e: nat, subjects: nat, objects: nat)
    requires e <= subjects < objects
    ensures Mass(OneTerms(e, subjects, objects)) == Marked(e, subjects, objects)
    decreases subjects - e
  {
    var r := OneTerms(e, subjects, objects);
    assert r[1..] == OneTerms(e + 1, subjects, objects);
    if e == subjects {
      LastTerm(subjects, objects);
    } else {
      OneTermsMass(e + 1, subjects, objects);
      TelescopeStep(e, subjects, objects);
    }
  }

  lemma MarkedNone(subjects: nat, objects: nat)
    requires subjects <= objects
    ensures Marked(0, subjects, objects) == 1.0
  {
    MarkedSelf(Fact(subjects) as real, Fact(objects) as real);
  }

  lemma MarkedSelf(a: real, d: real)
    requires a > 0.0 && d > 0.0
    ensures MarkedOf(a, a, d, d) == 1.0
  {
    SelfQuotient(a);
    SelfQuotient(d);
  }

  /** The `explodes == 1` branch is a probability distribution. */
  lemma OneTermsDistribution(subjects: nat, objects: nat)
    requires subjects < objects
    ensures Mass(OneTerms(0, subjects, objects)) == 1.0
  {
    OneTermsMass(0, subjects, objects);
    MarkedNone(subjects, objects);
  }

  lemma QuotientPositive(a: real, b: real, c: real)
    requires a > 0.0 && b > 0.0 && c > 0.0
    ensures a / b / c > 0.0
  {
    assert a / b > 0.0;
  }

  /** `num_different_positions` as written, of a non-negative count, is a
      positive number. */
  lemma NdpAsWrittenPositive(objects: nat, slots: int)
    ensures NdpAsWritten(objects, slots).Ok? && NdpAsWritten(objects, slots).value > 0.0
  {
    if objects != 0 && slots > objects {
      QuotientPositive(Fact(slots) as real, Fact(slots - objects) as real, objects as real);
    }
  }

  /** `exploding_pos_counter`: the entries `e, ..., m - 1`, each weighted by
      `num_different_positions(e, explodes)` as written. */
  function PositionCounts(explodes: int, e: nat, m: int): (r: Dist)
    ensures |r| == if e < m then m - e else 0
    ensures forall i :: 0 <= i < |r| ==> r[i].0 == e + i && r[i].1 > 0.0
    decreases m - e
  {
    if e >= m then []
    else
      NdpAsWrittenPositive(e, explodes);
      [(e, NdpAsWritten(e, explodes).value)] + PositionCounts(explodes, e + 1, m)
  }

  /** Four explosions spread over four positions: three of them together
      are weighted 8 as written, where there are only 4 ways to place
      them. */
  lemma PositionCountsFour(explodes: int)
    requires explodes == 4
    ensures PositionCounts(explodes, 0, 4) == [(0, 1.0), (1, 4.0), (2, 6.0), (3, 8.0)]
    ensures Ndp(3, explodes) == Ok(4.0)
  {
    assert Fact(4) == 24 && Fact(3) == 6 && Fact(2) == 2 && Fact(1) == 1;
    assert PositionCounts(explodes, 4, 4) == [];
    assert PositionCounts(explodes, 3, 4) == [(3, 8.0)];
    assert PositionCounts(explodes, 2, 4) == [(2, 6.0), (3, 8.0)];
    assert PositionCounts(explodes, 1, 4) == [(1, 4.0), (2, 6.0), (3, 8.0)];
  }

  lemma {:induction false} PositiveMass(d: Dist)
    requires forall i :: 0 <= i < |d| ==> d[i].1 > 0.0
    ensures |d| > 0 ==> Mass(d) > 0.0
  {
    if |d| > 0 {
      PositiveMass(d[1..]);
    }
  }

  function Min(a: int, b: int): int {
    if a < b then a else b
  }

  /** `exploding_distribution`: the distribution of the number of marked
      cards among `subjects` drawn when `explodes` cards explode, out of
      `objects`. With more than one explosion, the explosions are first
      spread over the positions, each spread weighted by its number of
      arrangements, and each spread continues with the cards left. */
  function Exploding(explodes: int, subjects: int, objects: int): (r: Result<Dist>)
    ensures objects < subjects ==> r == Err(ValueError)
    ensures r.Err? ==> r.error == ValueError
    ensures objects >= subjects && (explodes == 0 || subjects == 0) ==> r == Ok([(0, 1.0)])
    ensures objects == subjects && explodes != 0 && subjects != 0 ==> r == Ok([(subjects, 1.0)])
    decreases if explodes > 0 then explodes else 0, 1
  {
    if objects < subjects then Err(ValueError)
    else if explodes == 0 || subjects == 0 then Ok([(0, 1.0)])
    else if objects == subjects then Ok([(subjects, 1.0)])
    else if explodes == 1 then Ok(OneTerms(0, subjects, objects))
    else
      var m := Min(explodes, subjects);
      var counts := PositionCounts(explodes, 0, m);
      PositiveMass(counts);
      // The counts are positive, so normalising them cannot fail.
      var pos := ToDistribution(counts).value;
      MixChildren(explodes, subjects, objects, pos, 0, m, [])
  }

  /** A single explosion among more cards than marked ones is the
      distribution of the `explodes == 1` branch: its terms, which add up
      to 1. */
  lemma ExplodingOnce(subjects: nat, objects: int)
    requires 0 < subjects < objects
    ensures Exploding(1, subjects, objects) == Ok(OneTerms(0, subjects, objects))
    ensures Mass(Exploding(1, subjects, objects).value) == 1.0
  {
    OneTermsDistribution(subjects, objects);
  }

  /** With a negative number of marked cards a single explosion yields an
      empty dict, of total weight 0; this is why the total-weight lemmas
      are stated for non-negative counts. */
  lemma ExplodingNegativeSubjects(subjects: int, objects: int)
    requires subjects < 0 && subjects < objects
    ensures Exploding(1, subjects, objects) == Ok([])
    ensures Mass(Exploding(1, subjects, objects).value) == 0.0
  {
  }

  /** The second loop of `exploding_distribution`, from spread `e` on: the
      continuation after `e` explosions, weighted by the chance of that
      spread and shifted by `e`. */
  function MixChildren(explodes: int, subjects: int, objects: int, pos: Dist, e: nat, m: int, acc: Dist): (r: Result<Dist>)
    requires m <= explodes
    ensures r.Err? ==> r.error == ValueError
    ensures e >= m ==> r == Ok(acc)
    decreases if explodes > 0 then explodes else 0, 0, m - e
  {
    if e >= m then Ok(acc)
    else
      var child :- Exploding(e, subjects - e, objects - explodes);
      MixChildren(explodes, subjects, objects, pos, e + 1, m, Accumulate(acc, child, e, Lookup(pos, e)))
  }

  /** Reading a key of a dict whose keys are its positions. */
  lemma LookupIndexed(d: Dist, e: nat)
    requires e < |d| && forall i :: 0 <= i < |d| ==> d[i].0 == i
    ensures Lookup(d, e) == d[e].1
  {
    assert Keys(d)[e] == e;
  }

  /** Every distribution `exploding_distribution` returns for non-negative
      counts has total weight 1. */
  lemma {:induction false} ExplodingMass(explodes: nat, subjects: nat, objects: int)
    requires Exploding(explodes, subjects, objects).Ok?
    ensures Mass(Exploding(explodes, subjects, objects).value) == 1.0
    decreases explodes, 1
  {
    if objects < subjects || explodes == 0 || subjects == 0 || objects == subjects {
    } else if explodes == 1 {
      OneTermsDistribution(subjects, objects);
    } else {
      var m := Min(explodes, subjects);
      var counts := PositionCounts(explodes, 0, m);
      PositiveMass(counts);
      ToDistributionMass(counts);
      var pos := ToDistribution(counts).value;
      assert forall i :: 0 <= i < |pos| ==> pos[i].0 == i by {
        assert Keys(pos) == Keys(counts);
        forall i | 0 <= i < |pos| ensures pos[i].0 == i {
          assert Keys(pos)[i] == Keys(counts)[i];
        }
      }
      ChildrenMassBelow(explodes, subjects, objects, m);
      MixMass(explodes, subjects, objects, pos, 0, m, []);
      assert pos[0..] == pos;
    }
  }

  /** The continuation after `k` explosions, when it exists, has total
      weight 1. */
  ghost predicate ChildMass(k: nat, explodes: int, subjects: int, objects: int) {
    Exploding(k, subjects - k, objects - explodes).Ok? ==> Mass(Exploding(k, subjects - k, objects - explodes).value) == 1.0
  }

  ghost predicate ChildrenMass(explodes: int, subjects: int, objects: int, lo: nat, m: int) {
    forall k :: lo <= k < m ==> ChildMass(k, explodes, subjects, objects)
  }

  /** Every continuation after fewer than `m` explosions has total weight 1. */
  lemma ChildrenMassBelow(explodes: nat, subjects: nat, objects: int, m: nat)
    requires m <= explodes && m <= subjects
    ensures ChildrenMass(explodes, subjects, objects, 0, m)
    decreases explodes, 0
  {
    forall k | 0 <= k < m ensures ChildMass(k, explodes, subjects, objects) {
      if Exploding(k, subjects - k, objects - explodes).Ok? {
        ExplodingMass(k, subjects - k, objects - explodes);
      }
    }
  }

  lemma ChildrenMassTail(explodes: int, subjects: int, objects: int, lo: nat, m: int)
    requires ChildrenMass(explodes, subjects, objects, lo, m) && lo < m
    ensures ChildMass(lo, explodes, subjects, objects)
    ensures ChildrenMass(explodes, subjects, objects, lo + 1, m)
  {
  }

  lemma {:induction false} MixMass(explodes: nat, subjects: nat, objects: int, pos: Dist, e: nat, m: nat, acc: Dist)
    requires m <= explodes && m <= subjects && m == |pos| && e <= m
    requires forall i :: 0 <= i < |pos| ==> pos[i].0 == i
    requires ChildrenMass(explodes, subjects, objects, e, m)
    requires MixChildren(explodes, subjects, objects, pos, e, m, acc).Ok?
    ensures Mass(MixChildren(explodes, subjects, objects, pos, e, m, acc).value) == Mass(acc) + Mass(pos[e..])
    decreases m - e
  {
    if e < m {
      MixChildrenStep(explodes, subjects, objects, pos, e, m, acc);
      ChildrenMassTail(explodes, subjects, objects, e, m);
      var child := Exploding(e, subjects - e, objects - explodes).value;
      var w := Lookup(pos, e);
      var next := Accumulate(acc, child, e, w);
      AccumulateMass(acc, child, e, w);
      MixMass(explodes, subjects, objects, pos, e + 1, m, next);
      LookupIndexed(pos, e);
      MassFront(pos, e);
    }
  }

  /** One round of the second loop: the continuation after `e` explosions
      exists and is accumulated before the loop moves on. */
  lemma MixChildrenStep(explodes: int, subjects: int, objects: int, pos: Dist, e: nat, m: int, acc: Dist)
    requires m <= explodes && e < m
    requires MixChildren(explodes, subjects, objects, pos, e, m, acc).Ok?
    ensures Exploding(e, subjects - e, objects - explodes).Ok?
    ensures MixChildren(explodes, subjects, objects, pos, e, m, acc) ==
            MixChildren(explodes, subjects, objects, pos, e + 1, m,
                        Accumulate(acc, Exploding(e, subjects - e, objects - explodes).value, e, Lookup(pos, e)))
  {
  }

  /** The weight from entry `e` on is entry `e`'s plus the weight after it. */
  lemma MassFront(d: Dist, e: nat)
    requires e < |d|
    ensures Mass(d[e..]) == d[e].1 + Mass(d[e + 1..])
  {
    assert d[e..][1..] == d[e + 1..];
  }

  /** A table of chances over counts from `lo` to `hi`. */
  predicate Shaped(d: Dist, lo: int, hi: int) {
    NonNegative(d) && KeysWithin(d, lo, hi)
  }

  lemma {:induction false} AddToShaped(d: Dist, k: int, w: real, lo: int, hi: int)
    requires Shaped(d, lo, hi) && w >= 0.0 && lo <= k <= hi
    ensures Shaped(AddTo(d, k, w), lo, hi)
  {
    if |d| > 0 && d[0].0 != k {
      AddToShaped(d[1..], k, w, lo, hi);
      var r := AddTo(d, k, w);
      assert r == [d[0]] + AddTo(d[1..], k, w);
    }
  }

  lemma {:induction false} AddAllShaped(acc: Dist, xs: Dist, lo: int, hi: int)
    requires Shaped(acc, lo, hi) && Shaped(xs, lo, hi)
    ensures Shaped(AddAll(acc, xs), lo, hi)
    decreases |xs|
  {
    if |xs| > 0 {
      AddToShaped(acc, xs[0].0, xs[0].1, lo, hi);
      AddAllShaped(AddTo(acc, xs[0].0, xs[0].1), xs[1..], lo, hi);
    }
  }

  lemma ShiftedShaped(child: Dist, shift: int, w: real, lo: int, hi: int)
    requires Shaped(child, lo - shift, hi - shift) && w >= 0.0
    ensures Shaped(Shifted(child, shift, w), lo, hi)
  {
    var r := Shifted(child, shift, w);
    forall i | 0 <= i < |r| ensures r[i].1 >= 0.0 {
      ShiftedEntry(child, shift, w, i);
      NonNegativeProduct(w, child[i].1);
    }
  }

  lemma {:induction false} ShiftedEntry(child: Dist, shift: int, w: real, i: nat)
    requires i < |child|
    ensures Shifted(child, shift, w)[i].1 == w * child[i].1
  {
    if i > 0 {
      ShiftedEntry(child[1..], shift, w, i - 1);
    }
  }

  lemma NonNegativeProduct(a: real, b: real)
    requires a >= 0.0 && b >= 0.0
    ensures a * b >= 0.0
  {
  }

  /** Accumulating a table of chances, shifted into range, with a
      non-negative weight keeps a table of chances. */
  lemma AccumulateShaped(acc: Dist, child: Dist, shift: int, w: real, lo: int, hi: int)
    requires Shaped(acc, lo, hi) && Shaped(child, lo - shift, hi - shift) && w >= 0.0
    ensures Shaped(Accumulate(acc, child, shift, w), lo, hi)
  {
    ShiftedShaped(child, shift, w, lo, hi);
    AddAllShaped(acc, Shifted(child, shift, w), lo, hi);
  }

  lemma OneTermsShaped(subjects: nat, objects: nat)
    requires subjects < objects
    ensures Shaped(OneTerms(0, subjects, objects), 0, subjects)
  {
    var r := OneTerms(0, subjects, objects);
    forall i | 0 <= i < |r| ensures r[i].1 >= 0.0 {
      assert r[i].1 == OneTerm(i, subjects, objects) by {
        OneTermsEntry(0, subjects, objects, i);
      }
      OneTermNonNegative((objects - subjects) as real, Fact(subjects) as real, Fact(subjects - i) as real,
                         Fact(objects - i - 1) as real, Fact(objects) as real);
    }
  }

  lemma {:induction false} OneTermsEntry(e: nat, subjects: int, objects: int, i: nat)
    requires subjects < objects && e + i <= subjects
    ensures OneTerms(e, subjects, objects)[i].1 == OneTerm(e + i, subjects, objects)
    decreases i
  {
    if i > 0 {
      OneTermsEntry(e + 1, subjects, objects, i - 1);
    }
  }

  lemma OneTermNonNegative(os: real, a: real, b: real, c: real, d: real)
    requires os >= 0.0 && a > 0.0 && b > 0.0 && c > 0.0 && d > 0.0
    ensures OneTermOf(os, a, b, c, d) >= 0.0
  {
    assert os * a >= 0.0;
    assert os * a / b >= 0.0;
    assert os * a / b * c >= 0.0;
  }

  /** `exploding_distribution` of non-negative counts yields chances over
      0 to `subjects` marked cards. */
  lemma {:induction false} ExplodingShaped(explodes: nat, subjects: nat, objects: int)
    requires Exploding(explodes, subjects, objects).Ok?
    ensures Shaped(Exploding(explodes, subjects, objects).value, 0, subjects)
    decreases explodes, 1
  {
    if objects < subjects || explodes == 0 || subjects == 0 || objects == subjects {
    } else if explodes == 1 {
      OneTermsShaped(subjects, objects);
    } else {
      var m := Min(explodes, subjects);
      var counts := PositionCounts(explodes, 0, m);
      PositiveMass(counts);
      var pos := ToDistribution(counts).value;
      assert NonNegative(pos) by {
        forall i | 0 <= i < |pos| ensures pos[i].1 >= 0.0 {
          QuotientNonNegative(counts[i].1, Mass(counts));
        }
      }
      ChildrenShapedBelow(explodes, subjects, objects, m);
      MixShaped(explodes, subjects, objects, pos, m);
    }
  }

  lemma QuotientNonNegative(a: real, b: real)
    requires a >= 0.0 && b > 0.0
    ensures a / b >= 0.0
  {
  }

  /** The continuation after `k` explosions, when it exists, is a table of
      chances over 0 to the marked cards left. */
  ghost predicate ChildShaped(k: nat, explodes: int, subjects: int, objects: int) {
    Exploding(k, subjects - k, objects - explodes).Ok? ==>
      Shaped(Exploding(k, subjects - k, objects - explodes).value, 0, subjects - k)
  }

  ghost predicate ChildrenShaped(explodes: int, subjects: int, objects: int, lo: nat, m: int) {
    forall k :: lo <= k < m ==> ChildShaped(k, explodes, subjects, objects)
  }

  /** Every continuation after fewer than `m` explosions is a table of
      chances. */
  lemma ChildrenShapedBelow(explodes: nat, subjects: nat, objects: int, m: nat)
    requires m <= explodes && m <= subjects
    ensures ChildrenShaped(explodes, subjects, objects, 0, m)
    decreases explodes, 0
  {
    forall k | 0 <= k < m ensures ChildShaped(k, explodes, subjects, objects) {
      if Exploding(k, subjects - k, objects - explodes).Ok? {
        ExplodingShaped(k, subjects - k, objects - explodes);
      }
    }
  }

  lemma ChildrenShapedTail(explodes: int, subjects: int, objects: int, lo: nat, m: int)
    requires ChildrenShaped(explodes, subjects, objects, lo, m) && lo < m
    ensures ChildShaped(lo, explodes, subjects, objects)
    ensures ChildrenShaped(explodes, subjects, objects, lo + 1, m)
  {
  }

  /** The second loop of `exploding_distribution` keeps a table of chances
      over 0 to `subjects` marked cards. */
  lemma MixShaped(explodes: nat, subjects: nat, objects: int, pos: Dist, m: nat)
    requires m <= explodes && m <= subjects && NonNegative(pos)
    requires ChildrenShaped(explodes, subjects, objects, 0, m)
    requires MixChildren(explodes, subjects, objects, pos, 0, m, []).Ok?
    ensures Shaped(MixChildren(explodes, subjects, objects, pos, 0, m, []).value, 0, subjects)
  {
    var e: nat, acc: Dist := 0, [];
    while e < m
      invariant e <= m && Shaped(acc, 0, subjects)
      invariant ChildrenShaped(explodes, subjects, objects, e, m)
      invariant MixChildren(explodes, subjects, objects, pos, e, m, acc) == MixChildren(explodes, subjects, objects, pos, 0, m, [])
      decreases m - e
    {
      MixChildrenStep(explodes, subjects, objects, pos, e, m, acc);
      ChildrenShapedTail(explodes, subjects, objects, e, m);
      var child := Exploding(e, subjects - e, objects - explodes).value;
      var w := Lookup(pos, e);
      LookupNonNegative(pos, e);
      AccumulateShaped(acc, child, e, w, 0, subjects);
      e, acc := e + 1, Accumulate(acc, child, e, w);
    }
  }

  /** A key read from a table of chances is a chance. */
  lemma LookupNonNegative(d: Dist, k: int)
    requires NonNegative(d)
    ensures Lookup(d, k) >= 0.0
  {
    if k in Keys(d) {
      var i :| 0 <= i < |d| && d[i] == (k, Lookup(d, k));
    }
  }

  /** The expected number of marked cards an explosion brings lies between
      0 and `subjects`. */
  lemma ExplodingExpectation(explodes: nat, subjects: nat, objects: int)
    requires Exploding(explodes, subjects, objects).Ok?
    ensures 0.0 <= ExpectedValue(Exploding(explodes, subjects, objects).value) <= subjects as real
  {
    ExplodingShaped(explodes, subjects, objects);
    ExplodingMass(explodes, subjects, objects);
    ExpectedValueBounds(Exploding(explodes, subjects, objects).value, 0, subjects);
  }

  /** `disaster_distribution`: the distribution of the number of disasters
      met while `deck` cards remain. Five cards are dealt: no disaster, one
      disaster that explodes once, or a redeal whose four cards explode. */
  function DisasterDistribution(f: Forecast, deck: int): (r: Result<Dist>)
    ensures DisastersLeft(f) + CatastrophesLeft(f) == 0 ==> r == Ok([(0, 1.0)])
    ensures r.Err? ==> r.error == ValueError
    ensures DisastersLeft(f) + CatastrophesLeft(f) != 0 && deck < DisastersLeft(f) + CatastrophesLeft(f) ==> r.Err?
    ensures DisastersLeft(f) + CatastrophesLeft(f) != 0 && r.Ok? ==>
              var left := DisastersLeft(f) + CatastrophesLeft(f);
              && SelectProb(0, 5, left, deck).Ok? && SelectProb(1, 5, left, deck).Ok?
              && r == Deal(SelectProb(0, 5, left, deck).value, SelectProb(1, 5, left, deck).value, left - 1, deck)
  {
    var left := DisastersLeft(f) + CatastrophesLeft(f);
    if left == 0 then Ok([(0, 1.0)])
    else
      var none :- SelectProb(0, 5, left, deck);
      // `select_prob` accepts one hit whenever it accepts none.
      Deal(none, SelectProb(1, 5, left, deck).value, left - 1, deck)
  }

  /** The rest of `disaster_distribution` once the chances of no disaster
      and of one disaster among the five cards are known: `others` marked
      cards remain besides the one met. */
  function Deal(none: real, one: real, others: int, deck: int): (r: Result<Dist>)
    ensures r.Err? ==> r.error == ValueError
    ensures r.Ok? <==> Exploding(1, others, deck).Ok? && Exploding(4, others, deck).Ok?
  {
    var oneExploding :- Exploding(1, others, deck);
    var afterOne := Accumulate([(0, none)], oneExploding, 1, one);
    var redealExploding :- Exploding(4, others, deck);
    Ok(Accumulate(afterOne, redealExploding, 1, 1.0 - none - one))
  }

  /** While disasters remain, the forecast is a distribution: its chances
      add up to 1. */
  lemma DisasterDistributionMass(f: Forecast, deck: int)
    requires DisastersLeft(f) + CatastrophesLeft(f) >= 0
    requires DisasterDistribution(f, deck).Ok?
    ensures Mass(DisasterDistribution(f, deck).value) == 1.0
  {
    var left := DisastersLeft(f) + CatastrophesLeft(f);
    if left > 0 {
      var none, one := SelectProb(0, 5, left, deck).value, SelectProb(1, 5, left, deck).value;
      var d := Deal(none, one, left - 1, deck);
      assert DisasterDistribution(f, deck) == d;
      assert Mass(d.value) == 1.0 by { DealMass(none, one, left - 1, deck); }
    } else {
      assert DisasterDistribution(f, deck).value == [(0, 1.0)];
      assert Mass([(0, 1.0)]) == 1.0 + Mass([]);
    }
  }

  /** The three branches of a deal, each continued by a distribution,
      together make a distribution. */
  lemma DealMass(none: real, one: real, others: nat, deck: int)
    requires Deal(none, one, others, deck).Ok?
    ensures Mass(Deal(none, one, others, deck).value) == 1.0
  {
    var oneExploding := Exploding(1, others, deck).value;
    var redealExploding := Exploding(4, others, deck).value;
    ExplodingMass(1, others, deck);
    ExplodingMass(4, others, deck);
    var afterOne := Accumulate([(0, none)], oneExploding, 1, one);
    AccumulateMass([(0, none)], oneExploding, 1, one);
    AccumulateMass(afterOne, redealExploding, 1, 1.0 - none - one);
    assert Mass([(0, none)]) == none + Mass([(0, none)][1..]);
  }
}

=== FILE: forecast.dfy ===
/** The disaster forecast of disastle_forecast.py: exact probabilities for
    how many disaster cards a shop refill brings up.

    Probabilities are exact reals in place of Python floats. A distribution
    is a list of (value, weight) pairs in the insertion order of the Python
    dict it stands for. */
module Forecast {
  import opened Outcomes
  import Disasters

  /** `DisasterForecast`: the pool sizes and the names already drawn. */
  datatype Forecast = Forecast(numDisasters: int, numCatastrophes: int,
                               prevDisasters: seq<string>, prevCatastrophes: seq<string>)

  function NewForecast(numDisasters: int, numCatastrophes: int): (f: Forecast)
    ensures f.numDisasters == numDisasters && f.numCatastrophes == numCatastrophes
    ensures f.prevDisasters == [] && f.prevCatastrophes == []
  {
    Forecast(numDisasters, numCatastrophes, [], [])
  }

  /** `draw_disaster`: records the names, in argument order. */
  function DrawDisaster(f: Forecast, names: seq<string>): (r: Forecast)
    ensures r.prevDisasters == f.prevDisasters + names
    ensures r.numDisasters == f.numDisasters && r.numCatastrophes == f.numCatastrophes
    ensures r.prevCatastrophes == f.prevCatastrophes
  {
    f.(prevDisasters := f.prevDisasters + names)
  }

  function DisastersLeft(f: Forecast): int {
    f.numDisasters - |f.prevDisasters|
  }

  function CatastrophesLeft(f: Forecast): int {
    f.numCatastrophes - |f.prevCatastrophes|
  }

  /** Each recorded draw lowers the disasters left by one and leaves the
      catastrophes left alone. */
  lemma DrawLowersLeft(f: Forecast, names: seq<string>)
    ensures DisastersLeft(DrawDisaster(f, names)) == DisastersLeft(f) - |names|
    ensures CatastrophesLeft(DrawDisaster(f, names)) == CatastrophesLeft(f)
    ensures DisastersLeft(NewForecast(f.numDisasters, f.numCatastrophes)) == f.numDisasters
  {
  }

  /** The cards of `catalog` whose names have not been drawn, in catalogue
      order; none at all when no card of the kind is left. */
  function Candidates(catalog: seq<Disasters.Card>, drawn: seq<string>, left: int): (r: seq<Disasters.Card>)
    ensures left <= 0 ==> r == []
    ensures forall c :: c in r ==> c in catalog && c.name !in drawn
    ensures left > 0 ==> forall c :: c in catalog && c.name !in drawn ==> c in r
    ensures |r| <= |catalog|
  {
    if left <= 0 then []
    else
      NotDrawnMembers(catalog, drawn);
      NotDrawn(catalog, drawn)
  }

  /** The loop of `disasters_prob` over the catalogue: the undrawn cards in
      catalogue order. */
  function NotDrawn(catalog: seq<Disasters.Card>, drawn: seq<string>): seq<Disasters.Card> {
    if |catalog| == 0 then []
    else (if catalog[0].name !in drawn then [catalog[0]] else []) + NotDrawn(catalog[1..], drawn)
  }

  lemma {:induction false} NotDrawnMembers(catalog: seq<Disasters.Card>, drawn: seq<string>)
    ensures forall c :: c in NotDrawn(catalog, drawn) <==> c in catalog && c.name !in drawn
    ensures |NotDrawn(catalog, drawn)| <= |catalog|
    decreases |catalog|
  {
    if |catalog| > 0 {
      NotDrawnMembers(catalog[1..], drawn);
      assert catalog == [catalog[0]] + catalog[1..];
    }
  }

  lemma {:induction false} NotDrawnConcat(a: seq<Disasters.Card>, b: seq<Disasters.Card>, drawn: seq<string>)
    ensures NotDrawn(a + b, drawn) == NotDrawn(a, drawn) + NotDrawn(b, drawn)
    decreases |a|
  {
    if |a| > 0 {
      assert (a + b)[0] == a[0] && (a + b)[1..] == a[1..] + b;
      NotDrawnConcat(a[1..], b, drawn);
    } else {
      assert a + b == b;
    }
  }

  /** Candidates of a catalogue in two parts are the candidates of each
      part, in order. */
  lemma CandidatesConcat(a: seq<Disasters.Card>, b: seq<Disasters.Card>, drawn: seq<string>, left: int)
    requires left > 0
    ensures Candidates(a + b, drawn, left) == Candidates(a, drawn, left) + Candidates(b, drawn, left)
  {
    NotDrawnConcat(a, b, drawn);
  }

  /** The loop of `disasters_prob`: walking the catalogue, each card not yet
      drawn is appended to the candidates. */
  lemma CandidatesStep(catalog: seq<Disasters.Card>, drawn: seq<string>, left: int, k: nat)
    requires left > 0 && k < |catalog|
    ensures Candidates(catalog[..k + 1], drawn, left) ==
            Candidates(catalog[..k], drawn, left) + (if catalog[k].name !in drawn then [catalog[k]] else [])
  {
    assert catalog[..k + 1] == catalog[..k] + [catalog[k]];
    NotDrawnConcat(catalog[..k], [catalog[k]], drawn);
    assert [catalog[k]][1..] == [];
  }

  /** The positions of the catalogue's undrawn cards below `n`. */
  function Undrawn(catalog: seq<Disasters.Card>, drawn: seq<string>, n: nat): set<nat>
    requires n <= |catalog|
  {
    set k: nat | k < n && catalog[k].name !in drawn
  }

  /** There are exactly as many candidates as undrawn cards in the
      catalogue, counted with repetition. */
  lemma CandidatesCount(catalog: seq<Disasters.Card>, drawn: seq<string>, left: int, n: nat)
    requires left > 0 && n <= |catalog|
    ensures |Candidates(catalog[..n], drawn, left)| == |Undrawn(catalog, drawn, n)|
  {
    NotDrawnCount(catalog, drawn, n);
  }

  lemma {:induction false} NotDrawnCount(catalog: seq<Disasters.Card>, drawn: seq<string>, n: nat)
    requires n <= |catalog|
    ensures |NotDrawn(catalog[..n], drawn)| == |Undrawn(catalog, drawn, n)|
    decreases n
  {
    if n == 0 {
      assert Undrawn(catalog, drawn, 0) == {};
    } else {
      var step := if catalog[n - 1].name !in drawn then 1 else 0;
      var c, c1 := |NotDrawn(catalog[..n], drawn)|, |NotDrawn(catalog[..n - 1], drawn)|;
      var u, u1 := |Undrawn(catalog, drawn, n)|, |Undrawn(catalog, drawn, n - 1)|;
      assert c1 == u1 by {
        NotDrawnCount(catalog, drawn, n - 1);
      }
      assert c == c1 + step by {
        assert catalog[..n] == catalog[..n - 1] + [catalog[n - 1]];
        NotDrawnConcat(catalog[..n - 1], [catalog[n - 1]], drawn);
        assert [catalog[n - 1]][1..] == [];
      }
      assert u == u1 + step by {
        UndrawnStep(catalog, drawn, n);
      }
    }
  }

  lemma UndrawnStep(catalog: seq<Disasters.Card>, drawn: seq<string>, n: nat)
    requires 0 < n <= |catalog|
    ensures |Undrawn(catalog, drawn, n)| == |Undrawn(catalog, drawn, n - 1)| + if catalog[n - 1].name !in drawn then 1 else 0
  {
    var below := Undrawn(catalog, drawn, n - 1);
    assert n - 1 !in below;
    if catalog[n - 1].name !in drawn {
      assert Undrawn(catalog, drawn, n) == below + {n - 1};
    } else {
      assert Undrawn(catalog, drawn, n) == below;
    }
  }

  /** The chance of any one disaster card, and of any one catastrophe card,
      with the candidate lists they apply to. */
  datatype CardOdds = CardOdds(disasterProb: real, disasters: seq<Disasters.Card>,
                               catastropheProb: real, catastrophes: seq<Disasters.Card>)

  /** One card's share: left² spread over `n` candidates and over the cards
      left of both kinds; 0 without candidates. */
  function Share(left: int, both: int, n: nat): (p: real)
    requires n > 0 ==> both != 0
    ensures n > 0 ==> p * n as real * both as real == (left * left) as real
    ensures n == 0 ==> p == 0.0
  {
    if n == 0 then 0.0
    else
      var p := (left * left) as real / (both * n) as real;
      assert p * (both * n) as real == (left * left) as real;
      p
  }

  /** `disasters_prob`, with the two card lists as parameters. The division
      fails when some kind has candidates but no card of either kind is
      left in total. */
  function DisastersProb(f: Forecast, disasterCards: seq<Disasters.Card>, catastropheCards: seq<Disasters.Card>): (r: Result<CardOdds>)
    ensures r.Ok? <==> DisastersLeft(f) + CatastrophesLeft(f) != 0 ||
                       (Candidates(disasterCards, f.prevDisasters, DisastersLeft(f)) == [] &&
                        Candidates(catastropheCards, f.prevCatastrophes, CatastrophesLeft(f)) == [])
    ensures r.Err? ==> r.error == ZeroDivisionError
    ensures r.Ok? ==> r.value.disasters == Candidates(disasterCards, f.prevDisasters, DisastersLeft(f))
    ensures r.Ok? ==> r.value.catastrophes == Candidates(catastropheCards, f.prevCatastrophes, CatastrophesLeft(f))
    ensures r.Ok? ==> r.value.disasterProb == Share(DisastersLeft(f), DisastersLeft(f) + CatastrophesLeft(f), |r.value.disasters|)
    ensures r.Ok? ==> r.value.catastropheProb == Share(CatastrophesLeft(f), DisastersLeft(f) + CatastrophesLeft(f), |r.value.catastrophes|)
  {
    var dis := Candidates(disasterCards, f.prevDisasters, DisastersLeft(f));
    var catas := Candidates(catastropheCards, f.prevCatastrophes, CatastrophesLeft(f));
    var both := DisastersLeft(f) + CatastrophesLeft(f);
    if both == 0 && (|dis| > 0 || |catas| > 0) then Err(ZeroDivisionError)
    else Ok(CardOdds(Share(DisastersLeft(f), both, |dis|), dis, Share(CatastrophesLeft(f), both, |catas|), catas))
  }

  /** a · b as repeated addition, so that unfolding a factorial stays
      linear arithmetic. */
  function Times(a: nat, b: nat): nat {
    if a == 0 then 0 else b + Times(a - 1, b)
  }

  /** x · y among the reals, named so that a product stated in one lemma is
      recognised, factor for factor, where another lemma needs it. */
  function Product(x: real, y: real): real {
    x * y
  }

  lemma {:induction false} TimesIsProduct(a: nat, b: nat)
    ensures Times(a, b) == a * b
  {
    if a > 0 {
      TimesIsProduct(a - 1, b);
    }
  }

  /** n!. */
  function Fact(n: nat): (r: nat)
    ensures r >= 1
  {
    if n == 0 then 1 else Times(n, Fact(n - 1))
  }

  lemma FactStep(n: nat)
    requires n > 0
    ensures Fact(n) == n * Fact(n - 1)
  {
    TimesIsProduct(n, Fact(n - 1));
  }

  /** `math.factorial`, which raises `ValueError` on a negative argument. */
  function Factorial(n: int): (r: Result<real>)
    ensures r.Ok? <==> n >= 0
    ensures r.Err? ==> r.error == ValueError
    ensures r.Ok? ==> r.value == Fact(n) as real && r.value >= 1.0
  {
    if n < 0 then Err(ValueError) else Ok(Fact(n) as real)
  }

  /** Binomial coefficients by Pascal's rule. */
  function Binom(n: nat, k: nat): nat
    decreases n
  {
    if k == 0 then 1
    else if n == 0 then 0
    else Binom(n - 1, k - 1) + Binom(n - 1, k)
  }

  lemma {:induction false} BinomAbove(n: nat, k: nat)
    requires k > n
    ensures Binom(n, k) == 0
    decreases n
  {
    if n > 0 {
      BinomAbove(n - 1, k - 1);
      BinomAbove(n - 1, k);
    }
  }

  lemma {:induction false} BinomDiagonal(n: nat)
    ensures Binom(n, n) == 1
  {
    if n > 0 {
      BinomDiagonal(n - 1);
      BinomAbove(n - 1, n);
    }
  }

  lemma {:induction false} BinomPositive(n: nat, k: nat)
    requires k <= n
    ensures Binom(n, k) > 0
  {
    if k > 0 {
      BinomPositive(n - 1, k - 1);
    }
  }

  lemma PascalAlgebra(n: int, k: int, m: int, b1: int, b2: int, fk1: int, fk: int, fm1: int, fm: int, fn1: int)
    requires fk == k * fk1 && fm == m * fm1 && n == k + m
    requires fn1 == b1 * fk1 * fm && fn1 == b2 * fk * fm1
    ensures (b1 + b2) * fk * fm == n * fn1
  {
    assert b1 * fk * fm == k * (b1 * fk1 * fm);
    assert b2 * fk * fm == m * (b2 * fk * fm1);
  }

  /** One step of the factorial identity n! = C(n, k) · k! · m!, k + m = n. */
  lemma PascalStep(n: nat, k: nat, m: nat, b1: nat, b2: nat)
    requires 0 < k && 0 < m && k + m == n
    requires Fact(n - 1) == b1 * Fact(k - 1) * Fact(m)
    requires Fact(n - 1) == b2 * Fact(k) * Fact(m - 1)
    ensures Fact(n) == (b1 + b2) * Fact(k) * Fact(m)
  {
    FactStep(n);
    FactStep(k);
    FactStep(m);
    PascalAlgebra(n, k, m, b1, b2, Fact(k - 1), Fact(k), Fact(m - 1), Fact(m), Fact(n - 1));
  }

  /** n! = C(n, k) · k! · m! when k + m = n. */
  lemma {:induction false} FactBinom(n: nat, k: nat, m: nat)
    requires k + m == n
    ensures Fact(n) == Binom(n, k) * Fact(k) * Fact(m)
    decreases n
  {
    if k == 0 {
    } else if m == 0 {
      BinomDiagonal(n);
    } else {
      FactBinom(n - 1, k - 1, m);
      FactBinom(n - 1, k, m - 1);
      PascalStep(n, k, m, Binom(n - 1, k - 1), Binom(n - 1, k));
    }
  }

  /** n! / m! = C(n, k) · k! among the reals, k + m = n. */
  lemma {:induction false} FactQuotient(n: nat, k: nat, m: nat)
    requires k + m == n
    ensures Fact(n) as real / Fact(m) as real == Binom(n, k) as real * Fact(k) as real
  {
    var f, b, fk, fm := Fact(n), Binom(n, k), Fact(k), Fact(m);
    assert f == b * fk * fm by {
      FactBinom(n, k, m);
    }
    QuotientOfProduct(f, b, fk, fm);
  }

  lemma QuotientOfProduct(n: nat, b: nat, k: nat, m: nat)
    requires m > 0 && n == b * k * m
    ensures n as real / m as real == Product(b as real, k as real)
  {
    assert n as real == (b as real * k as real) * m as real;
    DivideOut(n as real, b as real * k as real, m as real);
  }

  /** `num_different_positions` as written: the last division is by
      `objects` where the number of ways to choose the positions needs
      `objects!`. */
  function NdpAsWritten(objects: int, slots: int): (r: Result<real>)
    ensures objects == 0 || slots <= objects ==> r == Ok(1.0)
    ensures r.Err? <==> objects != 0 && objects < slots < 0
    ensures r.Err? ==> r.error == ValueError
  {
    if objects == 0 || slots <= objects then Ok(1.0)
    else
      var a :- Factorial(slots);
      Ok(a / Fact(slots - objects) as real / objects as real)
  }

  /** `num_different_positions` as intended: `objects!` in the last
      division. */
  function Ndp(objects: int, slots: int): (r: Result<real>)
    ensures objects == 0 || slots <= objects ==> r == Ok(1.0)
    ensures r.Err? <==> objects < 0 && slots > objects
    ensures r.Err? ==> r.error == ValueError
  {
    if objects == 0 || slots <= objects then Ok(1.0)
    else if slots < 0 || objects < 0 then Err(ValueError)
    else Ok(Fact(slots) as real / Fact(slots - objects) as real / Fact(objects) as real)
  }

  lemma DivideOut(q: real, b: real, k: real)
    requires k > 0.0 && q == b * k
    ensures q / k == b
  {
  }

  /** The intended count is the number of ways to choose `objects` of
      `slots` positions. */
  lemma NdpIsBinomial(objects: nat, slots: nat)
    requires objects <= slots
    ensures Ndp(objects, slots) == Ok(Binom(slots, objects) as real)
  {
    if objects == slots {
      BinomDiagonal(slots);
    } else if objects > 0 {
      ChooseQuotient(objects, slots);
    }
  }

  lemma ChooseQuotient(objects: nat, slots: nat)
    requires 0 < objects < slots
    ensures Fact(slots) as real / Fact(slots - objects) as real / Fact(objects) as real == Binom(slots, objects) as real
  {
    FactQuotient(slots, objects, slots - objects);
    DivideOut(Fact(slots) as real / Fact(slots - objects) as real, Binom(slots, objects) as real, Fact(objects) as real);
  }

  /** The two agree up to two objects, where k = k!; they part at three:
      choosing 3 of 5 positions gives 20 as written and 10 as intended. */
  lemma NdpAsWrittenDiffers()
    ensures forall s :: NdpAsWritten(1, s) == Ndp(1, s) && NdpAsWritten(2, s) == Ndp(2, s)
    ensures NdpAsWritten(3, 5) == Ok(20.0)
    ensures Ndp(3, 5) == Ok(10.0)
  {
    forall s ensures NdpAsWritten(1, s) == Ndp(1, s) && NdpAsWritten(2, s) == Ndp(2, s) {
      assert Fact(1) == 1 && Fact(2) == 2;
    }
    assert Fact(5) == 120 && Fact(2) == 2 && Fact(3) == 6;
  }

  /** `select_prob`: the chance that exactly `count` of `subjects` marked
      cards are among `selects` cards drawn from `objects`. The checks run
      in the source's order; `factorial` then rejects a negative number of
      marked cards, or more hits than marked cards. The count of positions
      comes from `num_different_positions` as written, or with `intended`
      from the corrected count; only the corrected one rejects a negative
      `count`. */
  function SelectProbWith(intended: bool, count: int, selects: int, subjects: int, objects: int): (r: Result<real>)
    ensures count > selects || objects < subjects || objects < selects || selects < 0 ==> r == Err(ValueError)
    ensures r.Ok? && (selects == 0 || selects - count > objects - subjects) ==> r.value == 0.0
    ensures r.Err? ==> r.error == ValueError
    ensures r.Err? <==> count > selects || objects < subjects || objects < selects || selects < 0 ||
                        (selects != 0 && selects - count <= objects - subjects &&
                         (subjects < 0 || subjects < count || (intended && count < 0)))
  {
    if count > selects || objects < subjects || objects < selects || selects < 0 then Err(ValueError)
    else if selects == 0 || selects - count > objects - subjects then Ok(0.0)
    else
      var a :- Factorial(subjects);
      var b :- Factorial(subjects - count);
      var n :- if intended then Ndp(count, selects) else NdpAsWritten(count, selects);
      Ok(SelectTerms(a, b, Fact(objects - selects) as real, Fact(objects) as real, Fact(objects - subjects) as real,
                     Fact((objects - subjects) - (selects - count)) as real, n))
  }

  /** `select_prob` as written. */
  function SelectProb(count: int, selects: int, subjects: int, objects: int): (r: Result<real>)
    ensures r.Err? <==> count > selects || objects < subjects || objects < selects || selects < 0 ||
                        (selects != 0 && selects - count <= objects - subjects && (subjects < 0 || subjects < count))
    ensures r.Err? ==> r.error == ValueError
  {
    SelectProbWith(false, count, selects, subjects, objects)
  }

  /** `select_prob` over the corrected count of positions. */
  function SelectProbIntended(count: int, selects: int, subjects: int, objects: int): (r: Result<real>)
    ensures r.Err? <==> count > selects || objects < subjects || objects < selects || selects < 0 ||
                        (selects != 0 && selects - count <= objects - subjects &&
                         (subjects < 0 || subjects < count || count < 0))
    ensures r.Err? ==> r.error == ValueError
  {
    SelectProbWith(true, count, selects, subjects, objects)
  }

  /** Up to two hits the two readings of `select_prob` agree, since the
      counts of positions do. */
  lemma SelectProbAgreesBelowThree(count: int, selects: int, subjects: int, objects: int)
    requires 0 <= count <= 2
    ensures SelectProb(count, selects, subjects, objects) == SelectProbIntended(count, selects, subjects, objects)
  {
    NdpAsWrittenDiffers();
  }

  /** A negative number of hits slips past the checks as written and
      yields a negative "probability"; the corrected count of positions
      rejects it. */
  lemma SelectProbNegativeCount()
    ensures SelectProb(-1, 1, 0, 5).Ok? && SelectProb(-1, 1, 0, 5).value == -2.0
    ensures SelectProbIntended(-1, 1, 0, 5) == Err(ValueError)
  {
    assert Fact(5) == 120 && Fact(4) == 24 && Fact(3) == 6 && Fact(2) == 2 && Fact(1) == 1 && Fact(0) == 1;
    assert NdpAsWritten(-1, 1) == Ok(-0.5);
  }

  /** From three hits on they part: as written, `select_prob` is
      (count - 1)! times the hypergeometric chance whenever fewer cards are
      hit than drawn. */
  lemma {:induction false} SelectProbAsWrittenScaled(count: nat, selects: nat, subjects: nat, objects: nat)
    requires 0 < count < selects <= objects && subjects <= objects
    requires count <= subjects && selects - count <= objects - subjects
    ensures SelectProb(count, selects, subjects, objects).Ok?
    ensures SelectProb(count, selects, subjects, objects).value ==
            Fact(count - 1) as real * Hypergeometric(count, selects, subjects, objects)
  {
    ScaledParts(count, selects, subjects, objects);
  }

  lemma {:induction false} ScaledParts(count: nat, selects: nat, subjects: nat, objects: nat)
    requires 0 < count < selects <= objects && subjects <= objects
    requires count <= subjects && selects - count <= objects - subjects
    ensures SelectProb(count, selects, subjects, objects).Ok?
    ensures SelectProbIntended(count, selects, subjects, objects) == Ok(Hypergeometric(count, selects, subjects, objects))
    ensures SelectProb(count, selects, subjects, objects).value ==
            Fact(count - 1) as real * SelectProbIntended(count, selects, subjects, objects).value
  {
    var i := ScaledRatio(count, selects, subjects, objects);
    SelectProbHypergeometric(count, selects, subjects, objects);
    CancelFactor(SelectProb(count, selects, subjects, objects).value,
                 SelectProbIntended(count, selects, subjects, objects).value, i, Fact(count - 1) as real);
  }

  lemma {:induction false} ScaledRatio(count: nat, selects: nat, subjects: nat, objects: nat) returns (i: real)
    requires 0 < count < selects <= objects && subjects <= objects
    requires count <= subjects && selects - count <= objects - subjects
    ensures i > 0.0
    ensures SelectProb(count, selects, subjects, objects).Ok? && SelectProbIntended(count, selects, subjects, objects).Ok?
    ensures SelectProb(count, selects, subjects, objects).value * i ==
            SelectProbIntended(count, selects, subjects, objects).value * (i * Fact(count - 1) as real)
  {
    i := NdpCounts(count, selects);
    SelectProbScales(count, selects, subjects, objects, i * Fact(count - 1) as real, i);
  }

  /** Both counts of positions, named: the intended one positive, the one
      as written (objects - 1)! times it. */
  lemma NdpCounts(objects: nat, slots: nat) returns (i: real)
    requires 0 < objects < slots
    ensures i > 0.0
    ensures Ndp(objects, slots).Ok? && Ndp(objects, slots).value == i
    ensures NdpAsWritten(objects, slots).Ok? && NdpAsWritten(objects, slots).value == i * Fact(objects - 1) as real
  {
    NdpAsWrittenRatio(objects, slots);
    NdpIsBinomial(objects, slots);
    BinomPositive(slots, objects);
    i := Ndp(objects, slots).value;
  }

  /** Three hits among five drawn: twice the hypergeometric chance, for
      instance for three marked cards among twenty. */
  lemma {:induction false} SelectProbAsWrittenDoubles(selects: nat, subjects: nat, objects: nat)
    requires 3 < selects <= objects && 3 <= subjects <= objects && selects - 3 <= objects - subjects
    ensures Hypergeometric(3, selects, subjects, objects) > 0.0
    ensures SelectProbIntended(3, selects, subjects, objects) == Ok(Hypergeometric(3, selects, subjects, objects))
    ensures SelectProb(3, selects, subjects, objects) == Ok(2.0 * Hypergeometric(3, selects, subjects, objects))
  {
    SelectProbAsWrittenScaled(3, selects, subjects, objects);
    SelectProbHypergeometric(3, selects, subjects, objects);
    HypergeometricPositive(3, selects, subjects, objects);
    assert Fact(2) == 2;
  }

  /** The count of positions as written is the intended count times
      (objects - 1)!. */
  lemma NdpAsWrittenRatio(objects: nat, slots: nat)
    requires 0 < objects < slots
    ensures Ndp(objects, slots).Ok? && NdpAsWritten(objects, slots).Ok?
    ensures NdpAsWritten(objects, slots).value == Ndp(objects, slots).value * Fact(objects - 1) as real
  {
    var q := Fact(slots) as real / Fact(slots - objects) as real;
    var o, f1 := objects as real, Fact(objects - 1) as real;
    assert NdpAsWritten(objects, slots).value == q / o;
    assert Ndp(objects, slots).value == q / (o * f1) by {
      FactStep(objects);
      assert Fact(objects) as real == o * f1;
    }
    DivideByProduct(q, o, f1);
  }

  lemma DivideByProduct(q: real, o: real, f: real)
    requires o > 0.0 && f > 0.0
    ensures q / (o * f) * f == q / o
  {
  }

  lemma CancelFactor(p: real, q: real, i: real, f: real)
    requires i > 0.0 && p * i == q * (i * f)
    ensures p == f * q
  {
    assert q * (i * f) == (f * q) * i;
  }

  /** Every outcome the counts allow has a positive chance. */
  lemma HypergeometricPositive(count: nat, selects: nat, subjects: nat, objects: nat)
    requires count <= selects <= objects && count <= subjects <= objects && selects - count <= objects - subjects
    ensures Hypergeometric(count, selects, subjects, objects) > 0.0
  {
    BinomPositive(subjects, count);
    BinomPositive(objects - subjects, selects - count);
    BinomPositive(objects, selects);
    HyperRatioPositive(Binom(subjects, count), Binom(objects - subjects, selects - count), Binom(objects, selects));
  }

  lemma HyperRatioPositive(ways: nat, rest: nat, all: nat)
    requires ways > 0 && rest > 0 && all > 0
    ensures HyperRatio(ways, rest, all) > 0.0
  {
    assert ways as real * rest as real > 0.0;
  }

  /** Once the checks pass, the two readings of `select_prob` stand in the
      ratio of their counts of positions. */
  lemma SelectProbScales(count: nat, selects: nat, subjects: nat, objects: nat, w: real, i: real)
    requires 0 < selects <= objects && count <= selects && subjects <= objects
    requires count <= subjects && selects - count <= objects - subjects
    requires NdpAsWritten(count, selects).Ok? && NdpAsWritten(count, selects).value == w
    requires Ndp(count, selects).Ok? && Ndp(count, selects).value == i
    ensures SelectProb(count, selects, subjects, objects).Ok? && SelectProbIntended(count, selects, subjects, objects).Ok?
    ensures SelectProb(count, selects, subjects, objects).value * i ==
            SelectProbIntended(count, selects, subjects, objects).value * w
  {
    var a, b := Fact(subjects) as real, Fact(subjects - count) as real;
    var c, d := Fact(objects - selects) as real, Fact(objects) as real;
    var e, g := Fact(objects - subjects) as real, Fact((objects - subjects) - (selects - count)) as real;
    assert SelectProb(count, selects, subjects, objects) == Ok(SelectTerms(a, b, c, d, e, g, w));
    assert SelectProbIntended(count, selects, subjects, objects) == Ok(SelectTerms(a, b, c, d, e, g, i));
    SelectTermsLinear(a, b, c, d, e, g, w);
    SelectTermsLinear(a, b, c, d, e, g, i);
  }

  lemma SelectTermsLinear(a: real, b: real, c: real, d: real, e: real, g: real, n: real)
    requires b != 0.0 && d != 0.0 && g != 0.0
    ensures SelectTerms(a, b, c, d, e, g, n) == SelectTerms(a, b, c, d, e, g, 1.0) * n
  {
  }

  /** The product `select_prob` evaluates left to right. */
  function SelectTerms(a: real, b: real, c: real, d: real, e: real, g: real, n: real): real
    requires b != 0.0 && d != 0.0 && g != 0.0
  {
    a / b * c / d * e / g * n
  }

  /** The product of `select_prob` from its three factorial quotients
      and the count of positions. */
  lemma SelectTermsAlgebra(a: real, b: real, c: real, d: real, e: real, g: real, n: real,
                           bSc: real, bOSsc: real, bOs: real, fc: real, fsc: real, fs: real)
    requires b > 0.0 && c > 0.0 && d > 0.0 && g > 0.0 && bOs > 0.0 && fs > 0.0 && fc > 0.0 && fsc > 0.0
    requires a / b == Product(bSc, fc) && d / c == Product(bOs, fs) && e / g == Product(bOSsc, fsc)
    requires fs / fsc == Product(n, fc)
    ensures SelectTerms(a, b, c, d, e, g, n) == bSc * bOSsc / bOs
  {
    var x1, x2, x3 := a / b, d / c, e / g;
    assert SelectTerms(a, b, c, d, e, g, n) == x1 * x3 * n / x2;
    assert fs == n * fc * fsc;
    calc {
      x1 * x3 * n / x2;
      (bSc * fc) * (bOSsc * fsc) * n / (bOs * fs);
      bSc * bOSsc * (fc * fsc * n) / (bOs * fs);
      bSc * bOSsc / bOs;
    }
  }

  /** The product `select_prob` evaluates once its checks pass, with the
      count of positions written as a binomial coefficient. */
  function SelectValue(count: nat, selects: nat, subjects: nat, objects: nat): real
    requires count <= selects <= objects && count <= subjects <= objects && selects - count <= objects - subjects
  {
    SelectTerms(Fact(subjects) as real, Fact(subjects - count) as real, Fact(objects - selects) as real,
                Fact(objects) as real, Fact(objects - subjects) as real,
                Fact((objects - subjects) - (selects - count)) as real, Binom(selects, count) as real)
  }

  lemma SelectProbUnfold(count: nat, selects: nat, subjects: nat, objects: nat)
    requires 0 < selects <= objects && count <= selects && subjects <= objects
    requires count <= subjects && selects - count <= objects - subjects
    ensures SelectProbIntended(count, selects, subjects, objects) == Ok(SelectValue(count, selects, subjects, objects))
  {
    NdpIsBinomial(count, selects);
  }

  lemma SelectValueClosed(count: nat, selects: nat, subjects: nat, objects: nat)
    requires count <= selects <= objects && count <= subjects <= objects && selects - count <= objects - subjects
    ensures SelectValue(count, selects, subjects, objects) == Hypergeometric(count, selects, subjects, objects)
  {
    BinomPositive(objects, selects);
    SelectTermsFactored(count, selects, subjects, objects,
                        Fact(subjects), Fact(subjects - count), Fact(objects - selects), Fact(objects),
                        Fact(objects - subjects), Fact((objects - subjects) - (selects - count)), Binom(selects, count),
                        Binom(subjects, count), Binom(objects - subjects, selects - count), Binom(objects, selects));
  }

  /** The closed form over named factorials: each ratio of factorials in
      `select_prob` collapses to a binomial coefficient times a factorial. */
  lemma SelectTermsFactored(count: nat, selects: nat, subjects: nat, objects: nat,
                            a: nat, b: nat, c: nat, d: nat, e: nat, g: nat, n: nat, bSc: nat, bOSsc: nat, bOs: nat)
    requires count <= selects <= objects && count <= subjects <= objects && selects - count <= objects - subjects
    requires a == Fact(subjects) && b == Fact(subjects - count) && c == Fact(objects - selects) && d == Fact(objects)
    requires e == Fact(objects - subjects) && g == Fact((objects - subjects) - (selects - count)) && n == Binom(selects, count)
    requires bSc == Binom(subjects, count) && bOSsc == Binom(objects - subjects, selects - count) && bOs == Binom(objects, selects)
    requires bOs > 0
    ensures d > 0
    ensures SelectTerms(a as real, b as real, c as real, d as real, e as real, g as real, n as real) ==
            HyperRatio(bSc, bOSsc, bOs)
  {
    var fc, fsc, fs := Fact(count), Fact(selects - count), Fact(selects);
    FactBinom(subjects, count, subjects - count);
    FactBinom(objects, selects, objects - selects);
    FactBinom(objects - subjects, selects - count, (objects - subjects) - (selects - count));
    FactBinom(selects, count, selects - count);
    SelectTermsInts(a, b, c, d, e, g, n, bSc, bOSsc, bOs, fc, fsc, fs);
  }

  lemma SelectTermsInts(a: nat, b: nat, c: nat, d: nat, e: nat, g: nat, n: nat,
                        bSc: nat, bOSsc: nat, bOs: nat, fc: nat, fsc: nat, fs: nat)
    requires b > 0 && c > 0 && g > 0 && bOs > 0 && fs > 0 && fc > 0 && fsc > 0
    requires a == bSc * fc * b && d == bOs * fs * c && e == bOSsc * fsc * g
    requires fs == n * fc * fsc
    ensures d > 0
    ensures SelectTerms(a as real, b as real, c as real, d as real, e as real, g as real, n as real) ==
            HyperRatio(bSc, bOSsc, bOs)
  {
    QuotientOfProduct(a, bSc, fc, b);
    QuotientOfProduct(d, bOs, fs, c);
    QuotientOfProduct(e, bOSsc, fsc, g);
    QuotientOfProduct(fs, n, fc, fsc);
    SelectTermsAlgebra(a as real, b as real, c as real, d as real, e as real, g as real, n as real,
                       bSc as real, bOSsc as real, bOs as real, fc as real, fsc as real, fs as real);
  }

  /** The hypergeometric probability C(S, c) · C(O - S, s - c) / C(O, s)
      of exactly c marked cards among s drawn from O, S of them marked. */
  function Hypergeometric(count: nat, selects: nat, subjects: nat, objects: nat): (p: real)
    requires count <= selects <= objects && count <= subjects <= objects && selects - count <= objects - subjects
    ensures p >= 0.0
  {
    BinomPositive(objects, selects);
    HyperRatio(Binom(subjects, count), Binom(objects - subjects, selects - count), Binom(objects, selects))
  }

  /** Favourable draws times the draws of the rest, over all draws. */
  function HyperRatio(ways: nat, rest: nat, all: nat): real
    requires all > 0
  {
    ways as real * rest as real / all as real
  }

  /** With the counts in range, `select_prob` over the corrected count of
      positions is the hypergeometric probability. */
  lemma SelectProbHypergeometric(count: nat, selects: nat, subjects: nat, objects: nat)
    requires 0 < selects <= objects && count <= selects && subjects <= objects
    requires count <= subjects && selects - count <= objects - subjects
    ensures SelectProbIntended(count, selects, subjects, objects) == Ok(Hypergeometric(count, selects, subjects, objects))
  {
    SelectValueClosed(count, selects, subjects, objects);
    SelectProbUnfold(count, selects, subjects, objects);
  }

  lemma {:induction false} BinomOne(n: nat)
    ensures Binom(n, 1) == n
  {
    if n > 0 {
      BinomOne(n - 1);
    }
  }

  lemma SingleAlgebra(a: real, b: real, c: real, d: real, e: real, g: real, n: real, o: real, s: real)
    requires a == 1.0 && b == 1.0 && c > 0.0 && e > 0.0 && o > 0.0
    requires d == Product(o, e) && g == c && n == s
    ensures SelectTerms(a, b, c, d, e, g, n) == s / o
  {
    assert SelectTerms(a, b, c, d, e, g, n) == (c / c) * (e / e) * s / o;
  }

  /** n! = n · (n - 1)! over named values, among the integers and the reals. */
  lemma FactStepOf(n: nat, f: nat, f1: nat)
    requires n > 0 && f == Fact(n) && f1 == Fact(n - 1)
    ensures f == n * f1
    ensures f as real == Product(n as real, f1 as real)
  {
    FactStep(n);
  }

  lemma {:induction false} SingleTerms(selects: nat, objects: nat)
    requires 0 < selects <= objects
    ensures SelectValue(1, selects, 1, objects) == selects as real / objects as real
  {
    assert (objects - 1) - (selects - 1) == objects - selects;
    assert Fact(1) == 1 && Fact(0) == 1;
    SingleFactored(selects, objects, Fact(objects - selects), Fact(objects), Fact(objects - 1), Binom(selects, 1));
  }

  /** The single-card product over named factorials. */
  lemma {:induction false} SingleFactored(selects: nat, objects: nat, c: nat, d: nat, e: nat, n: nat)
    requires 0 < selects <= objects
    requires c == Fact(objects - selects) && d == Fact(objects) && e == Fact(objects - 1) && n == Binom(selects, 1)
    ensures d > 0 && c > 0
    ensures SelectTerms(1.0, 1.0, c as real, d as real, e as real, c as real, n as real) == selects as real / objects as real
  {
    BinomOne(selects);
    FactStepOf(objects, d, e);
    SingleAlgebra(1.0, 1.0, c as real, d as real, e as real, c as real, n as real, objects as real, selects as real);
  }

  /** One marked card among `objects`, `selects` of them drawn: it is among
      the drawn ones with probability selects / objects. */
  lemma SelectProbSingle(selects: nat, objects: nat)
    requires 0 < selects <= objects
    ensures SelectProb(1, selects, 1, objects) == Ok(selects as real / objects as real)
  {
    SingleTerms(selects, objects);
    SelectProbUnfold(1, selects, 1, objects);
    SelectProbAgreesBelowThree(1, selects, 1, objects);
  }

  /** Up to two hits, `select_prob` as written is the hypergeometric
      probability. */
  lemma SelectProbHypergeometricBelowThree(count: nat, selects: nat, subjects: nat, objects: nat)
    requires count <= 2
    requires 0 < selects <= objects && count <= selects && subjects <= objects
    requires count <= subjects && selects - count <= objects - subjects
    ensures SelectProb(count, selects, subjects, objects) == Ok(Hypergeometric(count, selects, subjects, objects))
  {
    SelectProbHypergeometric(count, selects, subjects, objects);
    SelectProbAgreesBelowThree(count, selects, subjects, objects);
  }

  /** Worked example: one disaster among twenty cards and five drawn. */
  lemma SelectProbExample()
    ensures SelectProb(1, 5, 1, 20) == Ok(0.25)
  {
    FiveOfTwenty(5, 20);
  }

  /** The example with the counts held symbolic, so that the factorials of
      twenty are never evaluated. */
  lemma FiveOfTwenty(selects: nat, objects: nat)
    requires selects == 5 && objects == 20
    ensures SelectProb(1, selects, 1, objects) == Ok(0.25)
  {
    assert selects as real / objects as real == 0.25;
    SelectProbSingle(selects, objects);
  }
}

=== FILE: manager.dfy ===
/** The game bookkeeping of the web back end, function/manager.py.

    A game is the state one request reads, changes and writes back. An
    exception aborts the request before anything is written, so an
    operation that raises yields `Err` and no state. The room catalogue and
    the disaster table are the module-level data lists; they are parameters
    here. */
module Manager {
  import opened Outcomes
  import opened Text
  import DenseCastle
  import Disasters

  /** `SHOP_SIZE`. */
  const ShopSize: nat := 5

  /** A card of the deck or of the discard pile. Cards read back from
      storage are strings: 'd…' and 'c…' name disasters and catastrophes,
      any other string is a room number. Rooms put back from the shop are
      integers. */
  datatype Card = Room(id: int) | Named(name: string)

  datatype Player = Player(username: string, castle: DenseCastle.Castle, discardList: seq<int>)

  /** `players` is a dict; it is kept as its entries in insertion order,
      whose ids are distinct as a dict's keys are. */
  datatype Game = Game(players: seq<(string, Player)>, turnOrder: seq<string>, turnIndex: int,
                       shop: seq<int>, discard: seq<Card>, deck: seq<Card>,
                       numDisasters: int, numCatastrophes: int,
                       currentDisasters: seq<string>, previousDisasters: seq<string>)

  /** A row of the disaster list: one damage encoding per connector kind. */
  datatype Encodings = Encodings(diamond: string, cross: string, moon: string)

  type DisasterTable = map<string, Encodings>

  /** `is_game_ended`: every disaster and catastrophe has been resolved. */
  predicate IsGameEnded(g: Game) {
    |g.previousDisasters| == g.numCatastrophes + g.numDisasters
  }

  // ---------------------------------------------------------------- players

  /** `game_info.players[player_id]`. */
  function FindPlayer(players: seq<(string, Player)>, id: string): (r: Result<Player>)
    ensures r.Ok? <==> exists i :: 0 <= i < |players| && players[i].0 == id
    ensures r.Err? ==> r.error == KeyError
    ensures r.Ok? ==> exists i :: 0 <= i < |players| && players[i] == (id, r.value)
  {
    if |players| == 0 then Err(KeyError)
    else if players[0].0 == id then Ok(players[0].1)
    else
      var r := FindPlayer(players[1..], id);
      assert forall i :: 1 <= i < |players| ==> players[i] == players[1..][i - 1];
      r
  }

  /** Replaces the entry of `id`, keeping every other entry and the order. */
  function SetPlayer(players: seq<(string, Player)>, id: string, p: Player): (r: seq<(string, Player)>)
    ensures |r| == |players|
    ensures forall i :: 0 <= i < |players| ==> r[i].0 == players[i].0
    ensures forall i :: 0 <= i < |players| && players[i].0 != id ==> r[i] == players[i]
    ensures FindPlayer(players, id).Ok? ==> FindPlayer(r, id) == Ok(p)
    ensures FindPlayer(players, id).Err? ==> r == players
  {
    if |players| == 0 then []
    else if players[0].0 == id then [(id, p)] + players[1..]
    else
      var rest := SetPlayer(players[1..], id, p);
      assert ([players[0]] + rest)[1..] == rest;
      [players[0]] + rest
  }

  // ---------------------------------------------------------- damage terms

  /** One `+`-separated term of a damage encoding. A term holding `x` is
      its coefficient times the number of resolved disasters. As written the
      coefficient is always read with `int`, so a bare `x` raises
      `ValueError`; `bareX` reads it as coefficient 1 instead. */
  function TermWith(bareX: bool, term: string, n: int): (r: Result<int>)
    ensures r.Err? ==> r.error == ValueError
    ensures 'x' !in term ==> r == ParseInt(term)
  {
    if 'x' in term then
      var coefficient := Strip(term, 'x');
      if bareX && coefficient == "" then Ok(n)
      else
        var k :- ParseInt(coefficient);
        Ok(k * n)
    else ParseInt(term)
  }

  /** A term holding `x` succeeds exactly when its coefficient, once the
      `x`s are stripped, is a numeral (or, with `bareX`, is empty), and is
      then the coefficient times `n`. */
  lemma TermWithCoefficient(bareX: bool, term: string, n: int)
    requires 'x' in term
    ensures bareX && Strip(term, 'x') == "" ==> TermWith(bareX, term, n) == Ok(n)
    ensures !(bareX && Strip(term, 'x') == "") ==>
              (TermWith(bareX, term, n).Ok? <==> IsNumeral(Strip(term, 'x'))) &&
              (TermWith(bareX, term, n).Ok? ==>
                 TermWith(bareX, term, n).value == ParseInt(Strip(term, 'x')).value * n)
  {
  }

  /** The loop of `translate_disaster_connection_damage`: the terms' sum,
      the first failing term raising. */
  function SumTerms(bareX: bool, terms: seq<string>, n: int): (r: Result<int>)
    ensures r.Ok? <==> forall i :: 0 <= i < |terms| ==> TermWith(bareX, terms[i], n).Ok?
    ensures r.Err? ==> r.error == ValueError
  {
    if |terms| == 0 then Ok(0)
    else
      var head, rest := TermWith(bareX, terms[0], n), SumTerms(bareX, terms[1..], n);
      assert (head.Ok? && rest.Ok?) <==> forall i :: 0 <= i < |terms| ==> TermWith(bareX, terms[i], n).Ok? by {
        assert forall i :: 1 <= i < |terms| ==> terms[i] == terms[1..][i - 1];
      }
      if head.Err? then Err(head.error)
      else if rest.Err? then Err(rest.error)
      else Ok(head.value + rest.value)
  }

  /** `translate_disaster_connection_damage`: the encoding split at `+`,
      its terms summed. */
  function TranslateWith(bareX: bool, encoding: string, n: int): (r: Result<int>)
    ensures r.Err? ==> r.error == ValueError
    ensures '+' !in encoding ==> r == TermWith(bareX, encoding, n)
  {
    if '+' !in encoding then
      SplitWithoutSeparator(encoding, '+');
      SumOfOne(bareX, encoding, n);
      SumTerms(bareX, Split(encoding, '+'), n)
    else SumTerms(bareX, Split(encoding, '+'), n)
  }

  /** `translate_disaster_connection_damage` as written. */
  function TranslateAsWritten(encoding: string, n: int): (r: Result<int>)
    ensures r.Err? ==> r.error == ValueError
    ensures 'x' !in encoding && '+' !in encoding ==> r == ParseInt(encoding)
    ensures encoding == "x" ==> r == Err(ValueError)
  {
    TranslateWith(false, encoding, n)
  }

  /** `translate_disaster_connection_damage` with a bare `x` read as `1x`. */
  function Translate(encoding: string, n: int): (r: Result<int>)
    ensures r.Err? ==> r.error == ValueError
    ensures 'x' !in encoding && '+' !in encoding ==> r == ParseInt(encoding)
    ensures encoding == "x" ==> r == Ok(n)
  {
    TranslateWith(true, encoding, n)
  }

  /** An encoding without `+` is a single term. */
  lemma {:induction false} SplitWithoutSeparator(s: string, sep: char)
    requires sep !in s
    ensures Split(s, sep) == [s]
  {
    if |s| > 0 {
      SplitWithoutSeparator(s[1..], sep);
      assert [s[0]] + s[1..] == s;
    }
  }

  /** Two `+`-free pieces joined by one `+` split back into the pieces. */
  lemma {:induction false} SplitTwo(a: string, b: string, sep: char)
    requires sep !in a && sep !in b
    ensures Split(a + [sep] + b, sep) == [a, b]
  {
    var s := a + [sep] + b;
    if |a| == 0 {
      assert s[1..] == b;
      SplitWithoutSeparator(b, sep);
    } else {
      assert s[1..] == a[1..] + [sep] + b;
      SplitTwo(a[1..], b, sep);
      assert [a[0]] + a[1..] == a;
    }
  }

  lemma SumOfOne(bareX: bool, term: string, n: int)
    ensures SumTerms(bareX, [term], n) == TermWith(bareX, term, n)
  {
    assert [term][1..] == [];
  }

  lemma SumOfTwo(bareX: bool, terms: seq<string>, n: int)
    requires |terms| == 2 && TermWith(bareX, terms[0], n).Ok? && TermWith(bareX, terms[1], n).Ok?
    ensures SumTerms(bareX, terms, n).Ok?
    ensures SumTerms(bareX, terms, n).value == TermWith(bareX, terms[0], n).value + TermWith(bareX, terms[1], n).value
  {
    assert SumTerms(bareX, terms[1..], n) == TermWith(bareX, terms[1], n) by {
      assert terms[1..] == [terms[1]];
      SumOfOne(bareX, terms[1], n);
    }
    SumTermsCons(bareX, terms, n, TermWith(bareX, terms[0], n).value, TermWith(bareX, terms[1], n).value);
  }

  /** The sum of the terms is the first term plus the sum of the rest. */
  lemma SumTermsCons(bareX: bool, terms: seq<string>, n: int, v: int, rest: int)
    requires |terms| > 0 && TermWith(bareX, terms[0], n).Ok? && TermWith(bareX, terms[0], n).value == v
    requires SumTerms(bareX, terms[1..], n).Ok? && SumTerms(bareX, terms[1..], n).value == rest
    ensures SumTerms(bareX, terms, n).Ok? && SumTerms(bareX, terms, n).value == v + rest
  {
  }

  /** A successful result with value `v` is `Ok(v)`. */
  lemma OkOfValue(r: Result<int>, v: int)
    requires r.Ok? && r.value == v
    ensures r == Ok(v)
  {
  }

  /** A bare `x` term: one times `n` when `bareX`, a `ValueError` otherwise. */
  lemma TermBareX(t: string, n: int)
    requires t == "x"
    ensures TermWith(true, t, n) == Ok(n)
    ensures TermWith(false, t, n) == Err(ValueError)
  {
    assert |t| == 1 && t[0] == 'x';
    var left := StripLeft(t, 'x');
    assert left == t[1 - |left|..];
    assert |left| == 0;
    assert Strip(t, 'x') == StripRight(left, 'x');
  }

  /** The constant term `1`. */
  lemma TermOne(t: string, bareX: bool, n: int)
    requires t == "1"
    ensures TermWith(bareX, t, n) == Ok(1)
  {
    assert |t| == 1 && t[0] == '1';
    assert 'x' !in t;
    assert AllDigits(t) && t[..0] == [];
    assert DigitsValue(t) == DigitsValue(t[..0]) * 10 + DigitValue(t[0]) == 1;
  }

  /** The term `2x`: twice `n` either way. */
  lemma TermTwoX(t: string, bareX: bool, n: int)
    requires t == "2x"
    ensures TermWith(bareX, t, n) == Ok(2 * n)
  {
    assert 'x' in t;
    assert StripLeft(t, 'x') == t;
    assert t[..|t| - 1] == "2";
    assert StripRight(t, 'x') == StripRight("2", 'x');
    assert ParseInt("2") == Ok(2);
  }

  /** An encoding of two `+`-free terms joined by `+` is read term by term. */
  lemma TranslateTwo(bareX: bool, s: string, t1: string, t2: string, n: int)
    requires '+' !in t1 && '+' !in t2 && s == t1 + ['+'] + t2
    ensures TranslateWith(bareX, s, n) == SumTerms(bareX, [t1, t2], n)
  {
    SplitTwo(t1, t2, '+');
  }

  /** A failing second term makes the sum fail with it. */
  lemma SumOfTwoFails(bareX: bool, t1: string, t2: string, n: int)
    requires TermWith(bareX, t1, n).Ok? && TermWith(bareX, t2, n).Err?
    ensures SumTerms(bareX, [t1, t2], n) == TermWith(bareX, t2, n)
  {
    assert [t1, t2][1..] == [t2];
    SumOfOne(bareX, t2, n);
  }

  /** An encoding without `+` is its one term. */
  lemma TranslateOne(bareX: bool, s: string, n: int)
    requires '+' !in s
    ensures TranslateWith(bareX, s, n) == TermWith(bareX, s, n)
  {
    SplitWithoutSeparator(s, '+');
    SumOfOne(bareX, s, n);
  }

  /** The worked example: "1+2x" after three disasters is 1 + 2 · 3. */
  lemma TranslateExample(s: string, one: string, twoX: string)
    requires one == "1" && twoX == "2x" && s == "1+2x"
    ensures Translate(s, 3) == Ok(7)
    ensures TranslateAsWritten(s, 3) == Ok(7)
  {
    TermOne(one, true, 3);
    TermOne(one, false, 3);
    TermTwoX(twoX, true, 3);
    TermTwoX(twoX, false, 3);
    assert s == one + ['+'] + twoX;
    TranslateTwo(true, s, one, twoX, 3);
    TranslateTwo(false, s, one, twoX, 3);
    SumOfTwo(true, [one, twoX], 3);
    SumOfTwo(false, [one, twoX], 3);
    OkOfValue(Translate(s, 3), 7);
    OkOfValue(TranslateAsWritten(s, 3), 7);
  }

  lemma CaseX(s: string, n: int)
    requires s == "x"
    ensures Translate(s, n) == Ok(n) && TranslateAsWritten(s, n) == Err(ValueError)
  {
    TermBareX(s, n);
    TranslateOne(true, s, n);
    TranslateOne(false, s, n);
  }

  lemma CaseOnePlusX(s: string, one: string, x: string, n: int)
    requires one == "1" && x == "x" && s == "1+x"
    ensures Translate(s, n) == Ok(1 + n) && TranslateAsWritten(s, n) == Err(ValueError)
  {
    assert s == one + ['+'] + x;
    OnePlusXWith(true, s, one, x, n);
    OnePlusXWith(false, s, one, x, n);
  }

  lemma OnePlusXWith(bareX: bool, s: string, one: string, x: string, n: int)
    requires one == "1" && x == "x" && s == one + ['+'] + x
    ensures TranslateWith(bareX, s, n) == if bareX then Ok(1 + n) else Err(ValueError)
  {
    TermOne(one, bareX, n);
    TermBareX(x, n);
    TranslateTwo(bareX, s, one, x, n);
    if bareX {
      SumOfTwo(true, [one, x], n);
      OkOfValue(TranslateWith(bareX, s, n), 1 + n);
    } else {
      SumOfTwoFails(false, one, x, n);
    }
  }

  lemma CaseTwoX(s: string, n: int)
    requires s == "2x"
    ensures Translate(s, n) == Ok(2 * n)
  {
    TermTwoX(s, true, n);
    TranslateOne(true, s, n);
  }

  /** The manager reads every encoding the card lists use exactly as the
      forecast library's `translate_damage` does, provided a numeral
      carries no `+` sign. */
  lemma TranslateAgrees(s: string, n: int)
    requires Disasters.TranslateDamage(s).Ok? && !(|s| > 0 && s[0] == '+')
    ensures Translate(s, n) == Ok(Disasters.Eval(Disasters.TranslateDamage(s).value, n))
  {
    if IsNumeral(s) {
      assert '+' !in s && 'x' !in s by {
        forall i | 0 <= i < |s| ensures s[i] != '+' && s[i] != 'x' {
          if i > 0 {
            assert IsDigit(s[1..][i - 1]);
          } else if s[0] != '-' {
            assert IsDigit(s[0]);
          }
        }
      }
      SplitWithoutSeparator(s, '+');
      SumOfOne(true, s, n);
    } else {
      match Disasters.TranslateDamage(s).value
      case X => CaseX(s, n);
      case OnePlusX => CaseOnePlusX(s, "1", "x", n);
      case TwoX => CaseTwoX(s, n);
      case Const(_) =>
    }
  }

  /** A numeral with a leading `+` is a valid card encoding for the forecast
      library, but the manager splits it at the `+` into an empty first
      term, which `int` rejects. */
  lemma TranslateSignedNumeralFails(n: int)
    ensures Disasters.TranslateDamage("+3") == Ok(Disasters.Const(3))
    ensures Translate("+3", n) == Err(ValueError)
  {
    assert IsNumeral("+3") && "+3"[1..] == "3";
    assert DigitsValue("3") == 3 by {
      assert "3"[..0] == "";
    }
    assert Split("+3", '+') == ["", "3"] by {
      assert "+3"[1..] == "3";
      assert '+' !in "3";
      SplitWithoutSeparator("3", '+');
    }
    assert !IsNumeral("");
  }

  /** A bare `x` term makes the code as written raise, where the intended
      reading is one times the number of resolved disasters. */
  lemma TranslateAsWrittenBareX(n: int)
    ensures TranslateAsWritten("x", n) == Err(ValueError)
    ensures TranslateAsWritten("1+x", n) == Err(ValueError)
    ensures Translate("x", n) == Ok(n) && Translate("1+x", n) == Ok(1 + n)
  {
    CaseX("x", n);
    CaseOnePlusX("1+x", "1", "x", n);
  }

  /** Writing back the entry a lookup found changes nothing. */
  lemma {:induction false} SetPlayerSame(players: seq<(string, Player)>, id: string, p: Player)
    requires FindPlayer(players, id) == Ok(p)
    ensures SetPlayer(players, id, p) == players
  {
    if players[0].0 != id {
      SetPlayerSame(players[1..], id, p);
      assert [players[0]] + players[1..] == players;
    }
  }

  // ---------------------------------------------------------------- damage

  /** Python `max(v, 0)`. */
  function MaxZero(v: int): int {
    if v > 0 then v else 0
  }

  /** The arithmetic of `disaster_damage`: each kind's damage less the
      castle's links of that kind, never below zero, then the sum less the
      wild links, never below zero. */
  function Damage(diamond: int, cross: int, moon: int, links: DenseCastle.Tally): (r: int)
    ensures 0 <= r <= MaxZero(diamond) + MaxZero(cross) + MaxZero(moon)
    ensures links == DenseCastle.NoLinks ==> r == MaxZero(diamond) + MaxZero(cross) + MaxZero(moon)
  {
    MaxZero(MaxZero(diamond - links.diamond) + MaxZero(cross - links.cross) + MaxZero(moon - links.moon) - links.wild)
  }

  /** The manager's damage is the forecast library's `Disaster.damage` with
      the castle's diamond, cross and moon links, its wild links as the
      reduction and no multiplier. */
  lemma DamageAgreesWithCard(card: Disasters.Card, n: int, links: DenseCastle.Tally)
    ensures Damage(Disasters.Eval(card.diamond, n), Disasters.Eval(card.cross, n), Disasters.Eval(card.moon, n), links) as real ==
            Disasters.CardDamage(card, n, (links.diamond as real, links.cross as real, links.moon as real),
                                 links.wild as real, 1.0).total
  {
  }

  /** More links of any kind never raise the damage. */
  lemma DamageAntitone(diamond: int, cross: int, moon: int, links: DenseCastle.Tally, more: DenseCastle.Tally)
    requires links.diamond <= more.diamond && links.cross <= more.cross
    requires links.moon <= more.moon && links.wild <= more.wild
    ensures Damage(diamond, cross, moon, more) <= Damage(diamond, cross, moon, links)
  {
  }

  /** `disaster_damage`. The three encodings are read in the order diamond,
      cross, moon with x the number of resolved disasters, then the player
      is looked up. As written the castle object itself is unpacked into
      four link counts, which raises `TypeError`; otherwise its
      `num_connections` tally is used. */
  function DisasterDamageWith(asWritten: bool, cat: DenseCastle.Catalog, table: DisasterTable, g: Game,
                              disasterId: string, playerId: string): (r: Result<int>)
    ensures disasterId !in table ==> r == Err(KeyError)
    ensures r.Ok? ==> r.value >= 0 && !asWritten
    ensures r.Ok? ==> FindPlayer(g.players, playerId).Ok?
    ensures r.Ok? ==> DenseCastle.NumConnections(cat, FindPlayer(g.players, playerId).value.castle).Ok?
  {
    if disasterId !in table then Err(KeyError)
    else
      var n := |g.previousDisasters|;
      var encodings := table[disasterId];
      var diamond :- TranslateWith(!asWritten, encodings.diamond, n);
      var cross :- TranslateWith(!asWritten, encodings.cross, n);
      var moon :- TranslateWith(!asWritten, encodings.moon, n);
      var player :- FindPlayer(g.players, playerId);
      if asWritten then Err(TypeError)
      else
        var links :- DenseCastle.NumConnections(cat, player.castle);
        Ok(Damage(diamond, cross, moon, links))
  }

  function DisasterDamageAsWritten(cat: DenseCastle.Catalog, table: DisasterTable, g: Game,
                                   disasterId: string, playerId: string): Result<int> {
    DisasterDamageWith(true, cat, table, g, disasterId, playerId)
  }

  function DisasterDamage(cat: DenseCastle.Catalog, table: DisasterTable, g: Game,
                          disasterId: string, playerId: string): (r: Result<int>)
    ensures disasterId !in table ==> r == Err(KeyError)
    ensures r.Ok? <==>
              && disasterId in table
              && Translate(table[disasterId].diamond, |g.previousDisasters|).Ok?
              && Translate(table[disasterId].cross, |g.previousDisasters|).Ok?
              && Translate(table[disasterId].moon, |g.previousDisasters|).Ok?
              && FindPlayer(g.players, playerId).Ok?
              && DenseCastle.NumConnections(cat, FindPlayer(g.players, playerId).value.castle).Ok?
    ensures r.Ok? ==> r.value >= 0
  {
    DisasterDamageWith(false, cat, table, g, disasterId, playerId)
  }

  /** As written, `disaster_damage` never returns: once the encodings are
      read and the player is found, the unpacking raises `TypeError`. */
  lemma DisasterDamageAsWrittenFails(cat: DenseCastle.Catalog, table: DisasterTable, g: Game,
                                     disasterId: string, playerId: string)
    ensures DisasterDamageAsWritten(cat, table, g, disasterId, playerId).Err?
    ensures disasterId in table && FindPlayer(g.players, playerId).Ok?
            && TranslateAsWritten(table[disasterId].diamond, |g.previousDisasters|).Ok?
            && TranslateAsWritten(table[disasterId].cross, |g.previousDisasters|).Ok?
            && TranslateAsWritten(table[disasterId].moon, |g.previousDisasters|).Ok?
            ==> DisasterDamageAsWritten(cat, table, g, disasterId, playerId) == Err(TypeError)
  {
  }

  /** An encoding the forecast library accepts, without a leading `+`. */
  predicate CardEncoding(s: string) {
    Disasters.TranslateDamage(s).Ok? && !(|s| > 0 && s[0] == '+')
  }

  /** For a disaster whose encodings are valid card encodings, the
      manager's damage is the card's damage against the player's links. */
  lemma DisasterDamageMatchesCard(cat: DenseCastle.Catalog, table: DisasterTable, g: Game,
                                  disasterId: string, playerId: string, p: Player, links: DenseCastle.Tally)
    requires disasterId in table
    requires CardEncoding(table[disasterId].diamond) && CardEncoding(table[disasterId].cross)
    requires CardEncoding(table[disasterId].moon)
    requires FindPlayer(g.players, playerId) == Ok(p) && DenseCastle.NumConnections(cat, p.castle) == Ok(links)
    ensures var e := table[disasterId];
            var card := Disasters.MakeCard(disasterId, e.diamond, e.cross, e.moon, false);
            && card.Ok?
            && DisasterDamage(cat, table, g, disasterId, playerId).Ok?
            && DisasterDamage(cat, table, g, disasterId, playerId).value as real ==
               Disasters.CardDamage(card.value, |g.previousDisasters|,
                                    (links.diamond as real, links.cross as real, links.moon as real),
                                    links.wild as real, 1.0).total
  {
    var e, n := table[disasterId], |g.previousDisasters|;
    TranslateAgrees(e.diamond, n);
    TranslateAgrees(e.cross, n);
    TranslateAgrees(e.moon, n);
    var card := Disasters.MakeCard(disasterId, e.diamond, e.cross, e.moon, false).value;
    DamageAgreesWithCard(card, n, links);
  }

  /** `player_damage`: the damage of the first current disaster, or none. */
  function PlayerDamage(cat: DenseCastle.Catalog, table: DisasterTable, g: Game, playerId: string): (r: Result<int>)
    ensures |g.currentDisasters| == 0 ==> r == Ok(0)
    ensures r.Ok? ==> r.value >= 0
    ensures |g.currentDisasters| > 0 && g.currentDisasters[0] !in table ==> r == Err(KeyError)
    ensures |g.currentDisasters| > 0 && r.Ok? ==> FindPlayer(g.players, playerId).Ok?
  {
    if |g.currentDisasters| == 0 then Ok(0)
    else DisasterDamage(cat, table, g, g.currentDisasters[0], playerId)
  }

  // ------------------------------------------------------ resolving a disaster

  /** Player entry `k` has discarded at least its damage. */
  predicate Covered(cat: DenseCastle.Catalog, table: DisasterTable, g: Game, k: nat)
    requires k < |g.players|
  {
    PlayerDamage(cat, table, g, g.players[k].0).Ok? &&
    PlayerDamage(cat, table, g, g.players[k].0).value <= |g.players[k].1.discardList|
  }

  /** The loop of `all_discard_complete` from entry `k`: the first player
      whose damage exceeds their discard list stops it with `False`. */
  function CompleteFrom(cat: DenseCastle.Catalog, table: DisasterTable, g: Game, k: nat): (r: Result<bool>)
    requires k <= |g.players|
    ensures r == Ok(true) <==> forall i :: k <= i < |g.players| ==> Covered(cat, table, g, i)
    ensures r == Ok(false) ==> exists i :: k <= i < |g.players| && PlayerDamage(cat, table, g, g.players[i].0).Ok? && !Covered(cat, table, g, i)
    ensures r.Err? ==> exists i :: k <= i < |g.players| && PlayerDamage(cat, table, g, g.players[i].0) == Err(r.error)
    decreases |g.players| - k
  {
    if k == |g.players| then Ok(true)
    else
      match PlayerDamage(cat, table, g, g.players[k].0)
      case Err(e) =>
        assert !Covered(cat, table, g, k);
        Err(e)
      case Ok(damage) =>
        if damage - |g.players[k].1.discardList| > 0 then
          assert !Covered(cat, table, g, k);
          Ok(false)
        else
          assert Covered(cat, table, g, k);
          CompleteFrom(cat, table, g, k + 1)
  }

  /** `all_discard_complete`. */
  function AllDiscardComplete(cat: DenseCastle.Catalog, table: DisasterTable, g: Game): (r: Result<bool>)
    ensures r == Ok(true) <==> forall i :: 0 <= i < |g.players| ==> Covered(cat, table, g, i)
    ensures r == Ok(false) ==> exists i :: 0 <= i < |g.players| && !Covered(cat, table, g, i)
  {
    CompleteFrom(cat, table, g, 0)
  }

  /** With no disaster pending nobody owes a discard. */
  lemma NothingPendingIsComplete(cat: DenseCastle.Catalog, table: DisasterTable, g: Game)
    requires |g.currentDisasters| == 0
    ensures AllDiscardComplete(cat, table, g) == Ok(true)
  {
    forall i | 0 <= i < |g.players| ensures Covered(cat, table, g, i) {
    }
  }

  /** Each player's castle discards their list, which is then emptied;
      the first failing discard raises. */
  function DiscardAll(cat: DenseCastle.Catalog, players: seq<(string, Player)>): (r: Result<seq<(string, Player)>>)
    ensures r.Ok? <==> forall i :: 0 <= i < |players| ==>
              DenseCastle.Discard(cat, players[i].1.castle, players[i].1.discardList).error.None?
    ensures r.Ok? ==> |r.value| == |players|
    ensures r.Ok? ==> forall i :: 0 <= i < |players| ==>
              && r.value[i].0 == players[i].0
              && r.value[i].1.username == players[i].1.username
              && r.value[i].1.discardList == []
              && r.value[i].1.castle == DenseCastle.Discard(cat, players[i].1.castle, players[i].1.discardList).castle
  {
    if |players| == 0 then Ok([])
    else
      var p := players[0].1;
      var o := DenseCastle.Discard(cat, p.castle, p.discardList);
      if o.error.Some? then Err(o.error.value)
      else
        var rest :- DiscardAll(cat, players[1..]);
        assert forall i :: 1 <= i < |players| ==> players[i] == players[1..][i - 1];
        Ok([(players[0].0, p.(castle := o.castle, discardList := []))] + rest)
  }

  /** A player with nothing to discard keeps their castle. */
  lemma DiscardNothingKeepsCastle(cat: DenseCastle.Catalog, players: seq<(string, Player)>, i: nat)
    requires DiscardAll(cat, players).Ok? && i < |players| && players[i].1.discardList == []
    ensures DiscardAll(cat, players).value[i].1.castle == players[i].1.castle
  {
    assert DenseCastle.DiscardSteps(cat, players[i].1.castle, []) == DenseCastle.Outcome(players[i].1.castle, None);
  }

  /** `resolve_disaster`: once every player has discarded enough, the last
      current disaster becomes the latest resolved one and every player
      discards their list. */
  function ResolveDisaster(cat: DenseCastle.Catalog, table: DisasterTable, g: Game): (r: Result<Game>)
    ensures AllDiscardComplete(cat, table, g) == Ok(false) ==> r == Ok(g)
    ensures AllDiscardComplete(cat, table, g) == Ok(true) && |g.currentDisasters| == 0 ==> r == Err(IndexError)
    ensures r.Ok? ==> |r.value.previousDisasters| + |r.value.currentDisasters| ==
                      |g.previousDisasters| + |g.currentDisasters|
    ensures r.Ok? ==> |g.previousDisasters| <= |r.value.previousDisasters| &&
                      r.value.previousDisasters[..|g.previousDisasters|] == g.previousDisasters
    ensures r.Ok? ==> r.value.turnOrder == g.turnOrder && r.value.turnIndex == g.turnIndex
    ensures r.Ok? ==> r.value.shop == g.shop && r.value.deck == g.deck && r.value.discard == g.discard
    ensures r.Ok? ==> r.value.numDisasters == g.numDisasters && r.value.numCatastrophes == g.numCatastrophes
    ensures r.Ok? ==> |r.value.players| == |g.players| &&
                      forall i :: 0 <= i < |g.players| ==> r.value.players[i].0 == g.players[i].0
  {
    var complete := AllDiscardComplete(cat, table, g);
    if complete.Err? then Err(complete.error)
    else if !complete.value then Ok(g)
    else if |g.currentDisasters| == 0 then Err(IndexError)
    else
      var last := |g.currentDisasters| - 1;
      var players := DiscardAll(cat, g.players);
      if players.Err? then Err(players.error)
      else
        Ok(g.(previousDisasters := g.previousDisasters + [g.currentDisasters[last]],
              currentDisasters := g.currentDisasters[..last],
              players := players.value))
  }

  /** When it acts, `resolve_disaster` moves exactly the last pending
      disaster to the resolved ones and leaves every discard list empty. */
  lemma ResolveDisasterActs(cat: DenseCastle.Catalog, table: DisasterTable, g: Game)
    requires AllDiscardComplete(cat, table, g) == Ok(true) && ResolveDisaster(cat, table, g).Ok?
    ensures var h := ResolveDisaster(cat, table, g).value;
            && |g.currentDisasters| > 0
            && h.previousDisasters == g.previousDisasters + [g.currentDisasters[|g.currentDisasters| - 1]]
            && h.currentDisasters + [g.currentDisasters[|g.currentDisasters| - 1]] == g.currentDisasters
            && (forall i :: 0 <= i < |h.players| ==> h.players[i].1.discardList == [])
            && (IsGameEnded(h) <==> |g.previousDisasters| + 1 == g.numCatastrophes + g.numDisasters)
  {
    assert |g.currentDisasters| > 0;
    var last := |g.currentDisasters| - 1;
    var players := DiscardAll(cat, g.players).value;
    var h := g.(previousDisasters := g.previousDisasters + [g.currentDisasters[last]],
                currentDisasters := g.currentDisasters[..last],
                players := players);
    assert ResolveDisaster(cat, table, g) == Ok(h);
    assert h.currentDisasters + [g.currentDisasters[last]] == g.currentDisasters;
  }

  // ------------------------------------------------------------- dealing

  /** Where a dealt card goes: a room to the shop, a disaster or
      catastrophe to the pending disasters. */
  datatype Routing = ToShop(id: int) | ToDisasters(name: string)

  /** The body of the dealing loop for one card: `card[0]` decides, so an
      integer card raises `TypeError` and an empty name `IndexError`; any
      other name must be a room number for `int`. */
  function Route(card: Card): (r: Result<Routing>)
    ensures card.Room? ==> r == Err(TypeError)
    ensures card.Named? && |card.name| == 0 ==> r == Err(IndexError)
    ensures (r.Ok? && r.value.ToDisasters?) <==> card.Named? && |card.name| > 0 && card.name[0] in "dc"
    ensures r.Ok? && r.value.ToDisasters? ==> r.value.name == card.name
    ensures r.Ok? && r.value.ToShop? ==> card.Named? && ParseInt(card.name) == Ok(r.value.id)
    ensures card.Named? && |card.name| > 0 && card.name[0] !in "dc" && !IsNumeral(card.name) ==> r == Err(ValueError)
    ensures card.Named? && |card.name| > 0 && card.name[0] !in "dc" && IsNumeral(card.name) ==>
              r == Ok(ToShop(ParseInt(card.name).value))
  {
    match card
    case Room(_) => Err(TypeError)
    case Named(name) =>
      if |name| == 0 then Err(IndexError)
      else if name[0] == 'd' || name[0] == 'c' then Ok(ToDisasters(name))
      else
        var id :- ParseInt(name);
        Ok(ToShop(id))
  }

  /** A room number written out in decimal is dealt to the shop as that
      number. */
  lemma RouteRoomNumber(id: int)
    ensures Route(Named(ShowInt(id))) == Ok(ToShop(id))
  {
    ParseShowInt(id);
    var s := ShowInt(id);
    assert s[0] == '-' || IsDigit(s[0]);
  }

  /** The cards `pop()` takes from the end of `s`, in the order taken. */
  function PopOrder<T>(s: seq<T>): (r: seq<T>)
    ensures |r| == |s|
  {
    if |s| == 0 then [] else [s[|s| - 1]] + PopOrder(s[..|s| - 1])
  }

  /** A reference reading of a run of cards: each routed in turn, rooms
      collected for the shop and names for the pending disasters. */
  function Routed(cards: seq<Card>): Result<(seq<int>, seq<string>)> {
    if |cards| == 0 then Ok(([], []))
    else
      var first :- Route(cards[0]);
      var rest :- Routed(cards[1..]);
      match first
      case ToShop(id) => Ok(([id] + rest.0, rest.1))
      case ToDisasters(name) => Ok((rest.0, [name] + rest.1))
  }

  datatype Dealt = Dealt(deck: seq<Card>, shop: seq<int>, current: seq<string>)

  /** The first dealing loop of `restock_shop`: cards are popped from the
      end of the deck until the shop holds `ShopSize` rooms or the deck is
      empty. Its branch for an empty deck is dead under the loop guard. */
  function DealRooms(deck: seq<Card>, shop: seq<int>, current: seq<string>): (r: Result<Dealt>)
    ensures r.Ok? ==> |r.value.deck| <= |deck| && r.value.deck == deck[..|r.value.deck|]
    ensures r.Ok? ==> |shop| <= |r.value.shop| && r.value.shop[..|shop|] == shop
    ensures r.Ok? ==> |current| <= |r.value.current| && r.value.current[..|current|] == current
    ensures r.Ok? ==> |r.value.shop| >= ShopSize || |r.value.deck| == 0
    ensures r.Ok? && |shop| <= ShopSize ==> |r.value.shop| <= ShopSize
    ensures r.Ok? ==> |deck| - |r.value.deck| == |r.value.shop| - |shop| + |r.value.current| - |current|
    decreases |deck|
  {
    if |shop| >= ShopSize || |deck| == 0 then Ok(Dealt(deck, shop, current))
    else
      var routing :- Route(deck[|deck| - 1]);
      DealRooms(deck[..|deck| - 1], ShopAfter(shop, routing), CurrentAfter(current, routing))
  }

  /** The shop after a card routed to it. */
  function ShopAfter(shop: seq<int>, routing: Routing): seq<int> {
    if routing.ToShop? then shop + [routing.id] else shop
  }

  /** The pending disasters after a card routed to them. */
  function CurrentAfter(current: seq<string>, routing: Routing): seq<string> {
    if routing.ToDisasters? then current + [routing.name] else current
  }

  /** One step of the dealing loop, for proofs about the whole loop. */
  lemma DealRoomsStep(deck: seq<Card>, shop: seq<int>, current: seq<string>)
    requires |shop| < ShopSize && |deck| > 0 && DealRooms(deck, shop, current).Ok?
    ensures var routing := Route(deck[|deck| - 1]);
            && routing.Ok?
            && DealRooms(deck, shop, current) ==
               DealRooms(deck[..|deck| - 1], ShopAfter(shop, routing.value), CurrentAfter(current, routing.value))
  {
  }

  /** Taking one more card off the end puts it first in pop order. */
  lemma PopOrderLast<T>(deck: seq<T>, k: nat)
    requires k < |deck|
    ensures PopOrder(deck[k..]) == [deck[|deck| - 1]] + PopOrder(deck[k..|deck| - 1])
  {
    assert deck[k..][..|deck[k..]| - 1] == deck[k..|deck| - 1];
  }

  /** Routing a run with one more card in front. */
  lemma RoutedFront(card: Card, rest: seq<Card>, routing: Routing, shop: seq<int>, current: seq<string>)
    requires Route(card) == Ok(routing) && Routed(rest) == Ok((shop, current))
    ensures Routed([card] + rest) == if routing.ToShop? then Ok(([routing.id] + shop, current))
                                     else Ok((shop, [routing.name] + current))
  {
    assert ([card] + rest)[1..] == rest;
  }

  lemma SliceFront<T>(s: seq<T>, k: nat)
    requires k < |s|
    ensures s[k..] == [s[k]] + s[k + 1..]
  {
  }

  /** The cards taken, with one more taken off the end. */
  lemma TakenStep(deck: seq<Card>, k: nat, routing: Routing, shop: seq<int>, current: seq<string>)
    requires k < |deck| && Route(deck[|deck| - 1]) == Ok(routing)
    requires Routed(PopOrder(deck[k..|deck| - 1])) == Ok((shop, current))
    ensures Routed(PopOrder(deck[k..])) == if routing.ToShop? then Ok(([routing.id] + shop, current))
                                           else Ok((shop, [routing.name] + current))
  {
    PopOrderLast(deck, k);
    RoutedFront(deck[|deck| - 1], PopOrder(deck[k..|deck| - 1]), routing, shop, current);
  }

  /** The inductive step of `DealRoomsRoutesTaken`, stated over the
      prefixes the dealing loop keeps. */
  lemma TakenPrefix(deck: seq<Card>, k: nat, routing: Routing, shop: seq<int>, current: seq<string>,
                    dealtShop: seq<int>, dealtCurrent: seq<string>)
    requires k < |deck| && Route(deck[|deck| - 1]) == Ok(routing)
    requires var shop', current' := ShopAfter(shop, routing), CurrentAfter(current, routing);
             && |shop'| <= |dealtShop| && dealtShop[..|shop'|] == shop'
             && |current'| <= |dealtCurrent| && dealtCurrent[..|current'|] == current'
             && Routed(PopOrder(deck[..|deck| - 1][k..])) == Ok((dealtShop[|shop'|..], dealtCurrent[|current'|..]))
    ensures Routed(PopOrder(deck[k..])) == Ok((dealtShop[|shop|..], dealtCurrent[|current|..]))
  {
    var shop', current' := ShopAfter(shop, routing), CurrentAfter(current, routing);
    assert deck[..|deck| - 1][k..] == deck[k..|deck| - 1];
    TakenStep(deck, k, routing, dealtShop[|shop'|..], dealtCurrent[|current'|..]);
    if routing.ToShop? {
      assert dealtShop[..|shop'|][|shop|] == routing.id;
      SliceFront(dealtShop, |shop|);
    } else {
      assert dealtCurrent[..|current'|][|current|] == routing.name;
      SliceFront(dealtCurrent, |current|);
    }
  }

  /** No card is lost: the cards taken off the deck, in the order taken,
      route exactly to the rooms added to the shop and the disasters added
      to the pending ones. */
  lemma {:induction false} DealRoomsRoutesTaken(deck: seq<Card>, shop: seq<int>, current: seq<string>)
    requires DealRooms(deck, shop, current).Ok?
    ensures var d := DealRooms(deck, shop, current).value;
            Routed(PopOrder(deck[|d.deck|..])) == Ok((d.shop[|shop|..], d.current[|current|..]))
    decreases |deck|
  {
    var d := DealRooms(deck, shop, current).value;
    if |shop| >= ShopSize || |deck| == 0 {
      assert d == Dealt(deck, shop, current);
      assert deck[|d.deck|..] == [] && d.shop[|shop|..] == [] && d.current[|current|..] == [];
    } else {
      DealRoomsStep(deck, shop, current);
      var routing := Route(deck[|deck| - 1]).value;
      DealRoomsRoutesTaken(deck[..|deck| - 1], ShopAfter(shop, routing), CurrentAfter(current, routing));
      TakenPrefix(deck, |d.deck|, routing, shop, current, d.shop, d.current);
    }
  }

  /** The shop's rooms as discard-pile cards. */
  function RoomCards(shop: seq<int>): (r: seq<Card>)
    ensures |r| == |shop| && forall i :: 0 <= i < |shop| ==> r[i] == Room(shop[i])
  {
    seq(|shop|, i requires 0 <= i < |shop| => Room(shop[i]))
  }

  /** Lines 165-181 of `restock_shop`: refuse while a disaster is pending,
      discard the shop, and deal a fresh one. */
  function FirstDeal(g: Game): (r: Result<Game>)
    ensures |g.currentDisasters| > 0 ==> r == Err(RuntimeError)
    ensures r.Ok? ==> r.value.discard == g.discard + RoomCards(g.shop)
    ensures r.Ok? ==> |r.value.shop| <= ShopSize && (|r.value.shop| == ShopSize || |r.value.deck| == 0)
    ensures r.Ok? ==> |r.value.deck| <= |g.deck| && r.value.deck == g.deck[..|r.value.deck|]
    ensures r.Ok? ==> |g.deck| == |r.value.deck| + |r.value.shop| + |r.value.currentDisasters|
    ensures r.Ok? ==> r.value.players == g.players && r.value.previousDisasters == g.previousDisasters
    ensures r.Ok? ==> r.value.turnOrder == g.turnOrder && r.value.turnIndex == g.turnIndex
    ensures r.Ok? ==> r.value.numDisasters == g.numDisasters && r.value.numCatastrophes == g.numCatastrophes
  {
    if |g.currentDisasters| > 0 then Err(RuntimeError)
    else
      var dealt :- DealRooms(g.deck, [], []);
      Ok(g.(discard := g.discard + RoomCards(g.shop), shop := dealt.shop, deck := dealt.deck,
            currentDisasters := dealt.current))
  }

  /** The first deal loses no card: what left the deck is the new shop and
      the new pending disasters. */
  lemma FirstDealNoCardLost(g: Game)
    requires FirstDeal(g).Ok?
    ensures var h := FirstDeal(g).value;
            Routed(PopOrder(g.deck[|h.deck|..])) == Ok((h.shop, h.currentDisasters))
  {
    DealRoomsRoutesTaken(g.deck, [], []);
    var d := DealRooms(g.deck, [], []).value;
    assert d.shop[0..] == d.shop && d.current[0..] == d.current;
  }

  /** The card piles the redeal branch of `restock_shop` works on. */
  datatype Piles = Piles(shop: seq<int>, discard: seq<Card>, deck: seq<Card>, current: seq<string>)

  /** The redeal branch shuffles, so its outcome is supplied by the caller. */
  type Redeal = Piles -> Result<Piles>

  /** Several disasters came up and the deck can take all but one back. */
  predicate RedealDue(g: Game) {
    |g.currentDisasters| > 1 && |g.deck| >= |g.currentDisasters|
  }

  function Redealt(redeal: Redeal, g: Game): (r: Result<Game>)
    ensures r.Ok? ==> r.value.players == g.players && r.value.previousDisasters == g.previousDisasters
    ensures r.Ok? ==> r.value.turnOrder == g.turnOrder && r.value.turnIndex == g.turnIndex
    ensures r.Ok? ==> r.value.numDisasters == g.numDisasters && r.value.numCatastrophes == g.numCatastrophes
  {
    var p :- redeal(Piles(g.shop, g.discard, g.deck, g.currentDisasters));
    Ok(g.(shop := p.shop, discard := p.discard, deck := p.deck, currentDisasters := p.current))
  }

  /** The end of `restock_shop`: a dealt disaster that nobody owes a
      discard for is resolved at once. */
  function SettleDealt(cat: DenseCastle.Catalog, table: DisasterTable, h: Game): (r: Result<Game>)
    ensures |h.currentDisasters| == 0 ==> r == Ok(h)
    ensures r.Ok? ==> r.value.turnOrder == h.turnOrder && r.value.turnIndex == h.turnIndex
    ensures r.Ok? ==> r.value.numDisasters == h.numDisasters && r.value.numCatastrophes == h.numCatastrophes
    ensures r.Ok? ==> |r.value.players| == |h.players| &&
                      forall i :: 0 <= i < |h.players| ==> r.value.players[i].0 == h.players[i].0
    ensures r.Ok? ==> |h.previousDisasters| <= |r.value.previousDisasters| <= |h.previousDisasters| + 1
    ensures r.Ok? ==> r.value.previousDisasters[..|h.previousDisasters|] == h.previousDisasters
  {
    if |h.currentDisasters| > 0 then
      var complete :- AllDiscardComplete(cat, table, h);
      if complete then ResolveDisaster(cat, table, h) else Ok(h)
    else Ok(h)
  }

  /** `restock_shop`: the first deal, the redeal when due, then the
      resolution of a dealt disaster nobody owes a discard for. */
  function RestockShop(cat: DenseCastle.Catalog, table: DisasterTable, redeal: Redeal, g: Game): (r: Result<Game>)
    ensures |g.currentDisasters| > 0 ==> r == Err(RuntimeError)
    ensures r.Ok? ==> r.value.turnOrder == g.turnOrder && r.value.turnIndex == g.turnIndex
    ensures r.Ok? ==> r.value.numDisasters == g.numDisasters && r.value.numCatastrophes == g.numCatastrophes
    ensures r.Ok? ==> |r.value.players| == |g.players| &&
                      forall i :: 0 <= i < |g.players| ==> r.value.players[i].0 == g.players[i].0
    ensures r.Ok? ==> |g.previousDisasters| <= |r.value.previousDisasters| <= |g.previousDisasters| + 1
    ensures r.Ok? ==> r.value.previousDisasters[..|g.previousDisasters|] == g.previousDisasters
  {
    var dealt :- FirstDeal(g);
    var h :- if RedealDue(dealt) then Redealt(redeal, dealt) else Ok(dealt);
    SettleDealt(cat, table, h)
  }

  /** Without a redeal, a single dealt disaster that nobody owes a discard
      for is resolved at once: it ends up among the resolved ones. */
  lemma RestockResolvesLoneDisaster(cat: DenseCastle.Catalog, table: DisasterTable, redeal: Redeal, g: Game)
    requires FirstDeal(g).Ok? && |FirstDeal(g).value.currentDisasters| == 1
    requires AllDiscardComplete(cat, table, FirstDeal(g).value) == Ok(true)
    requires RestockShop(cat, table, redeal, g).Ok?
    ensures var h := RestockShop(cat, table, redeal, g).value;
            h.previousDisasters == g.previousDisasters + FirstDeal(g).value.currentDisasters &&
            h.currentDisasters == []
  {
    var dealt := FirstDeal(g).value;
    assert !RedealDue(dealt);
    ResolveDisasterActs(cat, table, dealt);
    assert dealt.currentDisasters == [dealt.currentDisasters[0]];
  }

  // ------------------------------------------------------------ turns

  /** `pass_turn`: the next player's turn; after the last one the order
      rotates by one and the shop is restocked. As written the rotation adds
      a list and an element, which raises `TypeError`. */
  function PassTurnWith(asWritten: bool, cat: DenseCastle.Catalog, table: DisasterTable, redeal: Redeal, g: Game): (r: Result<Game>)
    ensures r.Ok? && g.turnIndex >= -1 ==> 0 <= r.value.turnIndex < |r.value.turnOrder|
    ensures r.Ok? ==> multiset(r.value.turnOrder) == multiset(g.turnOrder)
    ensures g.turnIndex + 1 < |g.turnOrder| ==> r == Ok(g.(turnIndex := g.turnIndex + 1))
    ensures r.Ok? && g.turnIndex + 1 >= |g.turnOrder| ==>
              r.value.turnIndex == 0 && r.value.turnOrder == g.turnOrder[1..] + [g.turnOrder[0]]
    ensures g.turnIndex + 1 >= |g.turnOrder| == 0 ==> r == Err(IndexError)
  {
    var next := g.turnIndex + 1;
    if next >= |g.turnOrder| then
      if |g.turnOrder| == 0 then Err(IndexError)
      else if asWritten then Err(TypeError)
      else
        assert g.turnOrder == [g.turnOrder[0]] + g.turnOrder[1..];
        RestockShop(cat, table, redeal, g.(turnIndex := 0, turnOrder := g.turnOrder[1..] + [g.turnOrder[0]]))
    else Ok(g.(turnIndex := next))
  }

  function PassTurnAsWritten(cat: DenseCastle.Catalog, table: DisasterTable, redeal: Redeal, g: Game): Result<Game> {
    PassTurnWith(true, cat, table, redeal, g)
  }

  function PassTurn(cat: DenseCastle.Catalog, table: DisasterTable, redeal: Redeal, g: Game): Result<Game> {
    PassTurnWith(false, cat, table, redeal, g)
  }

  /** As written, the last player of a round can never pass the turn. */
  lemma PassTurnAsWrittenFailsOnWrap(cat: DenseCastle.Catalog, table: DisasterTable, redeal: Redeal, g: Game)
    requires g.turnIndex + 1 >= |g.turnOrder| > 0
    ensures PassTurnAsWritten(cat, table, redeal, g) == Err(TypeError)
  {
  }

  // ------------------------------------------------------------ actions

  /** Python `list.remove`: drops the first occurrence. */
  function RemoveFirst(s: seq<int>, x: int): (r: seq<int>)
    ensures x !in s ==> r == s
    ensures x in s ==> |r| == |s| - 1 && multiset(r) + multiset{x} == multiset(s)
  {
    if |s| == 0 then s
    else
      assert s == [s[0]] + s[1..];
      if s[0] == x then s[1..] else [s[0]] + RemoveFirst(s[1..], x)
  }

  /** The occurrence dropped is the first one, and the order of the rest
      is kept. */
  lemma {:induction false} RemoveFirstAt(s: seq<int>, x: int, i: nat)
    requires i < |s| && s[i] == x && x !in s[..i]
    ensures RemoveFirst(s, x) == s[..i] + s[i + 1..]
  {
    if i > 0 {
      assert s[0] in s[..i];
      assert s[1..][..i - 1] == s[1..i];
      RemoveFirstAt(s[1..], x, i - 1);
      assert s[..i] == [s[0]] + s[1..i];
      assert s[1..][i..] == s[i + 1..];
    }
  }

  /** `action_discard`: the player offers exactly their damage's worth of
      rooms; a trial discard on a copy of their castle must succeed before
      the list is recorded and the disaster resolution is attempted. */
  function ActionDiscard(cat: DenseCastle.Catalog, table: DisasterTable, g: Game, playerId: string, discardList: seq<int>): (r: Result<Game>)
    ensures |g.currentDisasters| == 0 ==> r == Ok(g)
    ensures PlayerDamage(cat, table, g, playerId) == Ok(0) ==> r == Ok(g)
    ensures PlayerDamage(cat, table, g, playerId).Ok? && PlayerDamage(cat, table, g, playerId).value != |discardList| ==> r == Ok(g)
    ensures |g.currentDisasters| > 0 && PlayerDamage(cat, table, g, playerId).Ok? &&
            DenseCastle.Discard(cat, FindPlayer(g.players, playerId).value.castle, discardList).error == Some(RuntimeError)
            ==> r == Ok(g)
    ensures r.Ok? && r.value != g ==>
              && |g.currentDisasters| > 0
              && PlayerDamage(cat, table, g, playerId) == Ok(|discardList|)
              && |discardList| > 0
              && DenseCastle.Discard(cat, FindPlayer(g.players, playerId).value.castle, discardList).error.None?
  {
    if |g.currentDisasters| == 0 then Ok(g)
    else
      var damage :- PlayerDamage(cat, table, g, playerId);
      if damage == 0 || |discardList| != damage then Ok(g)
      else
        var player := FindPlayer(g.players, playerId).value;
        var trial := DenseCastle.Discard(cat, player.castle, discardList);
        if trial.error == Some(RuntimeError) then Ok(g)
        else if trial.error.Some? then Err(trial.error.value)
        else ResolveDisaster(cat, table, g.(players := SetPlayer(g.players, playerId, player.(discardList := discardList))))
  }

  /** `action_shop`: a room bought from the shop is placed in the buyer's
      castle, leaves the shop, and the turn passes. */
  function ActionShop(cat: DenseCastle.Catalog, table: DisasterTable, redeal: Redeal, g: Game, playerId: string,
                      roomId: int, x: int, y: int, rotation: int): (r: Result<Game>)
    ensures roomId !in g.shop ==> r == Ok(g)
    ensures roomId in g.shop && FindPlayer(g.players, playerId).Err? ==> r == Err(KeyError)
    ensures FindPlayer(g.players, playerId).Ok? &&
            DenseCastle.Place(cat, FindPlayer(g.players, playerId).value.castle, roomId, x, y, rotation) == Err(RuntimeError)
            ==> r == Ok(g)
  {
    if roomId !in g.shop then Ok(g)
    else
      var player :- FindPlayer(g.players, playerId);
      match DenseCastle.Place(cat, player.castle, roomId, x, y, rotation)
      case Err(e) => if e == RuntimeError then Ok(g) else Err(e)
      case Ok(castle) =>
        PassTurn(cat, table, redeal,
                 g.(players := SetPlayer(g.players, playerId, player.(castle := castle)),
                    shop := RemoveFirst(g.shop, roomId)))
  }

  /** A successful purchase within a round: the room is in the buyer's
      castle, one copy of it has left the shop, and the next player is on. */
  lemma ActionShopBuys(cat: DenseCastle.Catalog, table: DisasterTable, redeal: Redeal, g: Game, playerId: string,
                       roomId: int, x: int, y: int, rotation: int, p: Player, castle: DenseCastle.Castle)
    requires roomId in g.shop && FindPlayer(g.players, playerId) == Ok(p)
    requires DenseCastle.Place(cat, p.castle, roomId, x, y, rotation) == Ok(castle)
    requires g.turnIndex + 1 < |g.turnOrder|
    ensures var r := ActionShop(cat, table, redeal, g, playerId, roomId, x, y, rotation);
            && r.Ok?
            && FindPlayer(r.value.players, playerId) == Ok(p.(castle := castle))
            && multiset(r.value.shop) + multiset{roomId} == multiset(g.shop)
            && r.value.turnIndex == g.turnIndex + 1
  {
  }

  /** The tail shared by `action_move` and `action_swap`: a
      `RuntimeError` returns the game as it was, any other exception
      escapes, and success records the castle and passes the turn. */
  function CommitCastle(cat: DenseCastle.Catalog, table: DisasterTable, redeal: Redeal, g: Game, playerId: string,
                        player: Player, o: DenseCastle.Outcome): (r: Result<Game>)
    ensures o.error == Some(RuntimeError) ==> r == Ok(g)
    ensures o.error.Some? && o.error != Some(RuntimeError) ==> r == Err(o.error.value)
  {
    if o.error == Some(RuntimeError) then Ok(g)
    else if o.error.Some? then Err(o.error.value)
    else PassTurn(cat, table, redeal, g.(players := SetPlayer(g.players, playerId, player.(castle := o.castle))))
  }

  /** Success within a round records the player's new castle, keeps the
      shop, and hands the turn to the next player. */
  lemma CommitCastleCommits(cat: DenseCastle.Catalog, table: DisasterTable, redeal: Redeal, g: Game, playerId: string,
                            player: Player, o: DenseCastle.Outcome)
    requires o.error.None? && FindPlayer(g.players, playerId).Ok? && g.turnIndex + 1 < |g.turnOrder|
    ensures var r := CommitCastle(cat, table, redeal, g, playerId, player, o);
            && r.Ok?
            && FindPlayer(r.value.players, playerId) == Ok(player.(castle := o.castle))
            && r.value.shop == g.shop
            && r.value.turnIndex == g.turnIndex + 1
  {
  }

  /** `action_move`. */
  function ActionMove(cat: DenseCastle.Catalog, table: DisasterTable, redeal: Redeal, g: Game, playerId: string,
                      roomId: int, x: int, y: int, rotation: int): (r: Result<Game>)
    ensures FindPlayer(g.players, playerId).Err? ==> r == Err(KeyError)
    ensures FindPlayer(g.players, playerId).Ok? &&
            DenseCastle.Move(cat, FindPlayer(g.players, playerId).value.castle, roomId, x, y, rotation).error == Some(RuntimeError)
            ==> r == Ok(g)
  {
    var player :- FindPlayer(g.players, playerId);
    CommitCastle(cat, table, redeal, g, playerId, player, DenseCastle.Move(cat, player.castle, roomId, x, y, rotation))
  }

  /** `action_swap`, with the swap as intended. */
  function ActionSwap(cat: DenseCastle.Catalog, table: DisasterTable, redeal: Redeal, g: Game, playerId: string,
                      a: int, b: int, rotA: int, rotB: int): (r: Result<Game>)
    ensures FindPlayer(g.players, playerId).Err? ==> r == Err(KeyError)
    ensures FindPlayer(g.players, playerId).Ok? &&
            DenseCastle.Swap(cat, FindPlayer(g.players, playerId).value.castle, a, b, rotA, rotB).error == Some(RuntimeError)
            ==> r == Ok(g)
  {
    var player :- FindPlayer(g.players, playerId);
    CommitCastle(cat, table, redeal, g, playerId, player, DenseCastle.Swap(cat, player.castle, a, b, rotA, rotB))
  }

  /** A successful move within a round: the mover's castle is the one
      `move` left, the shop is untouched, and the next player is on. */
  lemma ActionMoveMoves(cat: DenseCastle.Catalog, table: DisasterTable, redeal: Redeal, g: Game, playerId: string,
                        roomId: int, x: int, y: int, rotation: int, p: Player)
    requires FindPlayer(g.players, playerId) == Ok(p)
    requires DenseCastle.Move(cat, p.castle, roomId, x, y, rotation).error.None?
    requires g.turnIndex + 1 < |g.turnOrder|
    ensures var r := ActionMove(cat, table, redeal, g, playerId, roomId, x, y, rotation);
            && r.Ok?
            && FindPlayer(r.value.players, playerId) == Ok(p.(castle := DenseCastle.Move(cat, p.castle, roomId, x, y, rotation).castle))
            && r.value.shop == g.shop
            && r.value.turnIndex == g.turnIndex + 1
  {
  }

  /** Likewise for a successful swap. */
  lemma ActionSwapSwaps(cat: DenseCastle.Catalog, table: DisasterTable, redeal: Redeal, g: Game, playerId: string,
                        a: int, b: int, rotA: int, rotB: int, p: Player)
    requires FindPlayer(g.players, playerId) == Ok(p)
    requires DenseCastle.Swap(cat, p.castle, a, b, rotA, rotB).error.None?
    requires g.turnIndex + 1 < |g.turnOrder|
    ensures var r := ActionSwap(cat, table, redeal, g, playerId, a, b, rotA, rotB);
            && r.Ok?
            && FindPlayer(r.value.players, playerId) == Ok(p.(castle := DenseCastle.Swap(cat, p.castle, a, b, rotA, rotB).castle))
            && r.value.shop == g.shop
            && r.value.turnIndex == g.turnIndex + 1
  {
  }

  /** The source returns the game object whose castle `move` mutated and
      then restored; returning the game unchanged is the same thing. */
  lemma MoveRollbackKeepsGame(cat: DenseCastle.Catalog, g: Game, playerId: string, p: Player,
                              roomId: int, x: int, y: int, rotation: int)
    requires FindPlayer(g.players, playerId) == Ok(p)
    requires DenseCastle.Move(cat, p.castle, roomId, x, y, rotation).error == Some(RuntimeError)
    ensures var o := DenseCastle.Move(cat, p.castle, roomId, x, y, rotation);
            g.(players := SetPlayer(g.players, playerId, p.(castle := o.castle))) == g
  {
    SetPlayerSame(g.players, playerId, p);
  }

  /** Likewise for `swap`. */
  lemma SwapRollbackKeepsGame(cat: DenseCastle.Catalog, g: Game, playerId: string, p: Player,
                              a: int, b: int, rotA: int, rotB: int)
    requires FindPlayer(g.players, playerId) == Ok(p)
    requires DenseCastle.Swap(cat, p.castle, a, b, rotA, rotB).error == Some(RuntimeError)
    ensures var o := DenseCastle.Swap(cat, p.castle, a, b, rotA, rotB);
            g.(players := SetPlayer(g.players, playerId, p.(castle := o.castle))) == g
  {
    SetPlayerSame(g.players, playerId, p);
  }
}

=== FILE: outcomes.dfy ===
/** Failure-compatible wrappers shared by every module of the model.

    The modelled code signals failure by raising Python exceptions. An
    operation that may raise returns a `Result`; `Err` names the class of the
    exception that escapes it. */
module Outcomes {

  /** The exception classes the modelled code raises or lets escape. */
  datatype Exception =
    | RuntimeError
    | ValueError
    | KeyError
    | IndexError
    | TypeError
    | AttributeError
    | ZeroDivisionError

  datatype Option<+T> = None | Some(value: T)

  datatype Result<+T> = Ok(value: T) | Err(error: Exception) {

    predicate IsFailure() {
      Err?
    }

    function PropagateFailure<U>(): Result<U>
      requires Err?
    {
      Err(error)
    }

    function Extract(): T
      requires Ok?
    {
      value
    }
  }
}

=== FILE: rooms.dfy ===
/** Connector algebra and rooms of disastle/rooms.py.

    A room has four connectors ordered (up, right, down, left). Connectors
    come in eight kinds: `Blank` (the source's NONE, code 'n'), the wildcard
    `Any` ('a'), the three plain kinds and their golden refinements. */
module Rooms {
  import opened Outcomes

  datatype Connection =
    | Blank | Any | Diamond | Cross | Moon | GoldDiamond | GoldCross | GoldMoon

  /** The one-letter value of each enum member. */
  function Code(c: Connection): char {
    match c
    case Blank => 'n'
    case Any => 'a'
    case Diamond => 'd'
    case Cross => 'c'
    case Moon => 'm'
    case GoldDiamond => 'D'
    case GoldCross => 'C'
    case GoldMoon => 'M'
  }

  /** `Connection(ch)`: the member whose value is `ch`, else `ValueError`. */
  function FromCode(ch: char): (r: Result<Connection>)
    ensures r.Ok? <==> ch in "nacdmDCM"
    ensures r.Err? ==> r.error == ValueError
    ensures r.Ok? ==> Code(r.value) == ch
  {
    match ch
    case 'n' => Ok(Blank)
    case 'a' => Ok(Any)
    case 'd' => Ok(Diamond)
    case 'c' => Ok(Cross)
    case 'm' => Ok(Moon)
    case 'D' => Ok(GoldDiamond)
    case 'C' => Ok(GoldCross)
    case 'M' => Ok(GoldMoon)
    case _ => Err(ValueError)
  }

  /** Every connector is recovered from its code. */
  lemma CodeRoundTrip(c: Connection)
    ensures FromCode(Code(c)) == Ok(c)
  {
  }

  predicate IsGolden(c: Connection) {
    c == GoldDiamond || c == GoldCross || c == GoldMoon
  }

  /** Both sides blank, or both sides live: anything else is a dangling edge. */
  predicate ValidConnection(a: Connection, b: Connection) {
    (a == Blank && b == Blank) || (a != Blank && b != Blank)
  }

  /** Golden kinds collapse onto their plain kind; every other kind is fixed. */
  function ToBase(c: Connection): (r: Connection)
    ensures !IsGolden(r)
    ensures !IsGolden(c) ==> r == c
    ensures c == GoldDiamond ==> r == Diamond
    ensures c == GoldCross ==> r == Cross
    ensures c == GoldMoon ==> r == Moon
  {
    match c
    case GoldDiamond => Diamond
    case GoldCross => Cross
    case GoldMoon => Moon
    case _ => c
  }

  predicate IsMatching(a: Connection, b: Connection) {
    ValidConnection(a, b) && (a == Any || b == Any || ToBase(a) == ToBase(b))
  }

  /** The kind a matched edge realises, used to tally a castle's links. */
  function LinkConnection(a: Connection, b: Connection): (r: Connection)
    ensures !IsGolden(r)
    ensures r == Blank <==> !IsMatching(a, b) || a == Blank
    ensures r == Any <==> a == Any && b == Any
    ensures r != Blank && r != Any ==> r == ToBase(a) || r == ToBase(b)
  {
    if !ValidConnection(a, b) || !IsMatching(a, b) then Blank
    else if a == Any && b == Any then Any
    else if a != Any then ToBase(a)
    else ToBase(b)
  }

  lemma ValidConnectionCharacterised(a: Connection, b: Connection)
    ensures ValidConnection(a, b) <==> ((a == Blank) <==> (b == Blank))
    ensures ValidConnection(a, b) <==> ValidConnection(b, a)
  {
  }

  /** Blank matches only blank; the wildcard matches every live connector;
      otherwise base kinds decide; matching is symmetric and reflexive. */
  lemma MatchingCharacterised(a: Connection, b: Connection)
    ensures IsMatching(Blank, b) <==> b == Blank
    ensures a != Blank ==> IsMatching(Any, a) && IsMatching(a, Any)
    ensures a != Blank && b != Blank && a != Any && b != Any ==>
              (IsMatching(a, b) <==> ToBase(a) == ToBase(b))
    ensures IsMatching(a, b) <==> IsMatching(b, a)
    ensures IsMatching(a, a)
  {
  }

  lemma ToBaseIdempotent(c: Connection)
    ensures ToBase(ToBase(c)) == ToBase(c)
  {
  }

  /** Linking is symmetric, so an edge tallies the same from either end. */
  lemma LinkSymmetric(a: Connection, b: Connection)
    ensures LinkConnection(a, b) == LinkConnection(b, a)
  {
  }

  /** The four sides of a room, in the source's tuple order. */
  datatype Dir = Up | Right | Down | Left

  function Opposite(d: Dir): Dir {
    match d
    case Up => Down
    case Right => Left
    case Down => Up
    case Left => Right
  }

  /** The side a quarter turn clockwise from `d`. */
  function Clockwise(d: Dir): Dir {
    match d
    case Up => Right
    case Right => Down
    case Down => Left
    case Left => Up
  }

  datatype Room = Room(uniqueId: int, name: string, up: Connection, right: Connection, down: Connection, left: Connection)

  function Side(room: Room, d: Dir): Connection {
    match d
    case Up => room.up
    case Right => room.right
    case Down => room.down
    case Left => room.left
  }

  /** Decodes positions `i..3` of a connection string, left to right, failing
      at the first position that is missing (`IndexError`) or not a
      connector code (`ValueError`). */
  function DecodeSlots(s: string, i: nat): (r: Result<seq<Connection>>)
    requires i <= 4 && i <= |s|
    ensures r.Ok? <==> |s| >= 4 && forall k :: i <= k < 4 ==> FromCode(s[k]).Ok?
    ensures r.Ok? ==> |r.value| == 4 - i && forall k :: i <= k < 4 ==> r.value[k - i] == FromCode(s[k]).value
    ensures r.Err? ==> (r.error == IndexError <==> forall k :: i <= k < |s| && k < 4 ==> FromCode(s[k]).Ok?)
    ensures r.Err? ==> r.error in {IndexError, ValueError}
    decreases 4 - i
  {
    if i == 4 then Ok([])
    else if i >= |s| then Err(IndexError)
    else
      var c :- FromCode(s[i]);
      var rest :- DecodeSlots(s, i + 1);
      Ok([c] + rest)
  }

  /** `Room.make`: the first four characters give up, right, down, left;
      characters after the fourth are ignored. */
  function MakeRoom(uniqueId: int, name: string, connections: string): (r: Result<Room>)
    ensures r.Ok? <==> |connections| >= 4 && forall k :: 0 <= k < 4 ==> connections[k] in "nacdmDCM"
    ensures r.Ok? ==> r.value.uniqueId == uniqueId && r.value.name == name
    ensures r.Ok? ==> forall k :: 0 <= k < 4 ==> Code(Side(r.value, [Up, Right, Down, Left][k])) == connections[k]
    ensures r.Err? ==> (r.error == IndexError <==>
                        forall k :: 0 <= k < |connections| && k < 4 ==> connections[k] in "nacdmDCM")
  {
    var slots :- DecodeSlots(connections, 0);
    Ok(Room(uniqueId, name, slots[0], slots[1], slots[2], slots[3]))
  }

  /** The throne room: id 1 with the wildcard on every side. */
  function ThroneRoom(): (r: Room)
    ensures MakeRoom(1, "Throne Room", "aaaa") == Ok(r)
    ensures r.uniqueId == 1 && forall d :: Side(r, d) == Any
  {
    MakeRoom(1, "Throne Room", "aaaa").value
  }

  /** A quarter turn clockwise: what faced `d` now faces `Clockwise(d)`. */
  function RotateRight(room: Room): (r: Room)
    ensures r.uniqueId == room.uniqueId && r.name == room.name
    ensures forall d :: Side(r, Clockwise(d)) == Side(room, d)
  {
    Room(room.uniqueId, room.name, room.left, room.up, room.right, room.down)
  }

  /** A quarter turn anticlockwise. */
  function RotateLeft(room: Room): (r: Room)
    ensures r.uniqueId == room.uniqueId && r.name == room.name
    ensures forall d :: Side(r, d) == Side(room, Clockwise(d))
  {
    Room(room.uniqueId, room.name, room.right, room.down, room.left, room.up)
  }

  /** The two rotations undo each other, and four quarter turns are the identity. */
  lemma RotationsInverse(room: Room)
    ensures RotateLeft(RotateRight(room)) == room
    ensures RotateRight(RotateLeft(room)) == room
    ensures RotateRight(RotateRight(RotateRight(RotateRight(room)))) == room
  {
  }
}

=== FILE: text.dfy ===
/** The few pieces of Python string handling the modelled code relies on:
    `int(s)` on decimal numerals, `str.split(sep)` and `str.strip(chars)`. */
module Text {
  import opened Outcomes

  predicate IsDigit(ch: char) {
    '0' <= ch <= '9'
  }

  predicate AllDigits(s: string) {
    forall i :: 0 <= i < |s| ==> IsDigit(s[i])
  }

  function DigitValue(ch: char): nat
    requires IsDigit(ch)
  {
    (ch - '0') as nat
  }

  function DigitChar(d: nat): (ch: char)
    requires d < 10
    ensures IsDigit(ch) && DigitValue(ch) == d
  {
    '0' + d as char
  }

  /** Value of a string of decimal digits, most significant digit first. */
  function DigitsValue(s: string): nat
    requires AllDigits(s)
  {
    if |s| == 0 then 0 else DigitsValue(s[..|s| - 1]) * 10 + DigitValue(s[|s| - 1])
  }

  /** An optional sign followed by at least one decimal digit: the numerals
      `int()` accepts once whitespace and digit-group underscores are set aside. */
  predicate IsNumeral(s: string) {
    if |s| > 0 && (s[0] == '-' || s[0] == '+') then |s| > 1 && AllDigits(s[1..])
    else |s| > 0 && AllDigits(s)
  }

  /** Python `int(s)`: `ValueError` unless `s` is a numeral. */
  function ParseInt(s: string): (r: Result<int>)
    ensures r.Ok? <==> IsNumeral(s)
    ensures r.Err? ==> r.error == ValueError
    ensures r.Ok? && AllDigits(s) ==> r.value == DigitsValue(s)
    ensures IsNumeral(s) && s[0] == '-' ==> r == Ok(-(DigitsValue(s[1..]) as int))
    ensures IsNumeral(s) && s[0] == '+' ==> r == Ok(DigitsValue(s[1..]))
  {
    if |s| > 0 && (s[0] == '-' || s[0] == '+') then
      if |s| > 1 && AllDigits(s[1..]) then
        var magnitude: int := DigitsValue(s[1..]);
        Ok(if s[0] == '-' then -magnitude else magnitude)
      else Err(ValueError)
    else if |s| > 0 && AllDigits(s) then Ok(DigitsValue(s))
    else Err(ValueError)
  }

  /** Decimal rendering of a natural number, without leading zeros. */
  function ShowNat(n: nat): (s: string)
    ensures |s| > 0 && AllDigits(s)
  {
    if n < 10 then [DigitChar(n)] else ShowNat(n / 10) + [DigitChar(n % 10)]
  }

  /** Decimal rendering of an integer, as Python `str(i)`. */
  function ShowInt(i: int): string {
    if i < 0 then "-" + ShowNat(-i) else ShowNat(i)
  }

  lemma {:induction false} DigitsValueShowNat(n: nat)
    ensures DigitsValue(ShowNat(n)) == n
  {
    if n >= 10 {
      var s := ShowNat(n);
      assert s[..|s| - 1] == ShowNat(n / 10);
      DigitsValueShowNat(n / 10);
    }
  }

  /** `int(str(i)) == i`: rendering then parsing an integer is the identity. */
  lemma ParseShowInt(i: int)
    ensures ParseInt(ShowInt(i)) == Ok(i)
  {
    if i < 0 {
      DigitsValueShowNat(-i);
      ParseNegative(ShowNat(-i));
    } else {
      DigitsValueShowNat(i);
      ParseDigits(ShowNat(i));
    }
  }

  /** A minus sign before digits reads as the negated value. */
  lemma ParseNegative(digits: string)
    requires |digits| > 0 && AllDigits(digits)
    ensures ParseInt("-" + digits) == Ok(-(DigitsValue(digits) as int))
  {
    var s := "-" + digits;
    assert s[0] == '-' && s[1..] == digits;
  }

  /** Digits alone read as their value. */
  lemma ParseDigits(digits: string)
    requires |digits| > 0 && AllDigits(digits)
    ensures ParseInt(digits) == Ok(DigitsValue(digits))
  {
    assert IsDigit(digits[0]);
  }

  /** Joins pieces with `sep` between neighbours: Python `sep.join(pieces)`. */
  function Join(pieces: seq<string>, sep: char): string
    requires |pieces| > 0
  {
    if |pieces| == 1 then pieces[0] else pieces[0] + [sep] + Join(pieces[1..], sep)
  }

  /** Python `s.split(sep)` for a one-character separator: the maximal
      separator-free pieces, in order, empty pieces included. */
  function Split(s: string, sep: char): (pieces: seq<string>)
    ensures |pieces| > 0
    ensures forall k :: 0 <= k < |pieces| ==> sep !in pieces[k]
    ensures Join(pieces, sep) == s
  {
    if |s| == 0 then [""]
    else if s[0] == sep then
      var rest := Split(s[1..], sep);
      assert s == [sep] + s[1..];
      [""] + rest
    else
      var rest := Split(s[1..], sep);
      var pieces := [[s[0]] + rest[0]] + rest[1..];
      assert pieces[1..] == rest[1..];
      assert s == [s[0]] + s[1..];
      pieces
  }

  /** Python `s.strip(ch)` for a single character: drops every leading and
      trailing `ch`. */
  function Strip(s: string, ch: char): (r: string)
    ensures |r| <= |s|
    ensures |r| > 0 ==> r[0] != ch && r[|r| - 1] != ch
    ensures ch !in s ==> r == s
    ensures exists i, j :: Framed(s, ch, i, j) && r == s[i..j]
  {
    var left := StripLeft(s, ch);
    var r := StripRight(left, ch);
    StripBounds(s, ch, left, r);
    r
  }

  function StripLeft(s: string, ch: char): (r: string)
    ensures |r| <= |s| && r == s[|s| - |r|..]
    ensures |r| > 0 ==> r[0] != ch
    ensures forall k :: 0 <= k < |s| - |r| ==> s[k] == ch
    ensures ch !in s ==> r == s
  {
    if |s| > 0 && s[0] == ch then
      var t := StripLeft(s[1..], ch);
      assert t == s[|s| - |t|..] by { assert s[1..][|s| - 1 - |t|..] == s[|s| - |t|..]; }
      assert forall k :: 0 <= k < |s| - |t| ==> s[k] == ch by {
        forall k | 1 <= k < |s| - |t| ensures s[k] == ch { assert s[k] == s[1..][k - 1]; }
      }
      t
    else s
  }

  function StripRight(s: string, ch: char): (r: string)
    ensures |r| <= |s| && r == s[..|r|]
    ensures |r| > 0 ==> r[|r| - 1] != ch
    ensures forall k :: |r| <= k < |s| ==> s[k] == ch
    ensures |s| > 0 && s[0] != ch ==> |r| > 0
    ensures ch !in s ==> r == s
  {
    if |s| > 0 && s[|s| - 1] == ch then
      var t := StripRight(s[..|s| - 1], ch);
      assert t == s[..|t|] by { assert s[..|s| - 1][..|t|] == s[..|t|]; }
      assert forall k :: |t| <= k < |s| ==> s[k] == ch by {
        forall k | |t| <= k < |s| - 1 ensures s[k] == ch { assert s[k] == s[..|s| - 1][k]; }
      }
      t
    else s
  }

  /** `s[i..j]` is surrounded by nothing but copies of `ch`. */
  predicate Framed(s: string, ch: char, i: int, j: int) {
    && 0 <= i <= j <= |s|
    && (forall k :: 0 <= k < i ==> s[k] == ch)
    && (forall k :: j <= k < |s| ==> s[k] == ch)
  }

  /** The middle piece `Strip` keeps, with the stripped ends around it. */
  lemma StripBounds(s: string, ch: char, left: string, r: string)
    requires left == StripLeft(s, ch) && r == StripRight(left, ch)
    ensures exists i, j :: Framed(s, ch, i, j) && r == s[i..j]
  {
    var i, j := StripFrame(s, ch, left, r);
    assert Framed(s, ch, i, j) && r == s[i..j];
  }

  /** Where that middle piece sits: it starts after the prefix `StripLeft`
      removed and ends before the suffix `StripRight` removed. */
  lemma StripFrame(s: string, ch: char, left: string, r: string) returns (i: int, j: int)
    requires |left| <= |s| && left == s[|s| - |left|..] && forall k :: 0 <= k < |s| - |left| ==> s[k] == ch
    requires |r| <= |left| && r == left[..|r|] && forall k :: |r| <= k < |left| ==> left[k] == ch
    ensures Framed(s, ch, i, j) && r == s[i..j]
  {
    i := |s| - |left|;
    j := i + |r|;
    assert r == s[i..j];
    forall k | j <= k < |s|
      ensures s[k] == ch
    {
      assert s[k] == left[k - i];
    }
  }

  /** Leading copies of `ch` in front of a piece that does not start with
      `ch` are exactly what `StripLeft` removes. */
  lemma {:induction false} StripLeftDrops(p: string, t: string, ch: char)
    requires forall k :: 0 <= k < |p| ==> p[k] == ch
    requires |t| > 0 ==> t[0] != ch
    ensures StripLeft(p + t, ch) == t
    decreases |p|
  {
    if |p| > 0 {
      assert (p + t)[1..] == p[1..] + t;
      StripLeftDrops(p[1..], t, ch);
    }
  }

  /** Trailing copies of `ch` behind a piece that does not end with `ch`
      are exactly what `StripRight` removes. */
  lemma {:induction false} StripRightDrops(t: string, q: string, ch: char)
    requires forall k :: 0 <= k < |q| ==> q[k] == ch
    requires |t| > 0 ==> t[|t| - 1] != ch
    ensures StripRight(t + q, ch) == t
    decreases |q|
  {
    if |q| > 0 {
      assert (t + q)[..|t + q| - 1] == t + q[..|q| - 1];
      StripRightDrops(t, q[..|q| - 1], ch);
    } else {
      assert t + q == t;
    }
  }

  /** `s.strip(ch)` is the one middle piece of `s` that neither starts nor
      ends with `ch` and is surrounded only by copies of `ch`. */
  lemma StripCharacterised(p: string, m: string, q: string, ch: char)
    requires forall k :: 0 <= k < |p| ==> p[k] == ch
    requires forall k :: 0 <= k < |q| ==> q[k] == ch
    requires |m| > 0 ==> m[0] != ch && m[|m| - 1] != ch
    ensures Strip(p + m + q, ch) == m
  {
    if |m| == 0 {
      assert p + m + q == (p + q) + "";
      StripLeftDrops(p + q, "", ch);
    } else {
      assert p + m + q == p + (m + q);
      StripLeftDrops(p, m + q, ch);
      StripRightDrops(m, q, ch);
    }
  }
}
